=== FILE: README.md ===
# rumpeg in Dafny

A model of the core of rumpeg. rumpeg is a small Rust program that opens a
video through FFmpeg and serves single frames, or a "film strip" of
thumbnails, over a hand-written HTTP/1.1 server. This model covers:

- the pieces it builds on FFmpeg:
  - error tags;
  - the pixel-format enum;
  - the seek-position syntax and time arithmetic;
  - the display matrix in stream side data;
  - frame allocation and the matrix remap of `AVFrame::transform`;
  - the scaler builder;
- the video layer: the flush-then-seek order, the tile count and the layout
  of the thumbnail film, and the copy of each thumbnail into its tile;
- the HTTP layer:
  - request parsing;
  - query strings and percent-decoding;
  - response construction and the bytes `send` writes;
  - routing;
  - content types by extension;
- the command line;
- the ANSI colouring of log lines.

Every module is a set of pure functions over immutable datatypes. A few
methods mirror the source's loops, and each is proved equal to a functional
definition. Results of foreign calls into FFmpeg, the C allocator, `libm` and
the standard library's `HashMap` iteration become parameters. These include
return codes, allocation success, the `f32` `atan2` and the order headers are
visited in.

Integers are unbounded. Where the width of a Rust integer decides behaviour,
the model states it:

- the range checks of `i32`/`i64` parsing;
- `as i32`/`as i64` casts from `f64`, which saturate. The one NaN that arises is `Video.TileCount`'s `0 / 0` for a zero step with equal ends, which the cast sends to 0;
- the `u32` to `i32` reinterpretation in `FFERRTAG`;
- the 32-bit little-endian words of the display matrix.

`f64` values are exact reals. `to_fixed_point` models the round-to-nearest-even
conversion of an `i32` to `f32`, because that conversion decides the result.

Shared helpers, which do not model any one source file:

- `Wrappers`: `Option` and `Result`;
- `RustStr`: the `str` methods the source calls, such as `find`, `rfind`,
  `split`, `split_once`, `split_whitespace`, `trim`, `lines` and
  `to_lowercase` restricted to ASCII;
- `RustNum`: `FromStr` for integers and floats, `to_string` of integers, and
  truncating division;
- `Utf8`: `str::from_utf8` and `as_bytes`.

## Model

| member | source | states |
|---|---|---|
| Ascii.Rgb | src/ascii.rs:8-13 | the result is exactly the foreground sequence `ESC[38;2;r;g;bm` followed by the text, and a terminal shows it exactly as it shows the text |
| Ascii.OnRgb | src/ascii.rs:14-19 | the result is exactly the background sequence `ESC[48;2;r;g;bm` followed by the text, and a terminal shows it exactly as it shows the text |
| Ascii.Bold | src/ascii.rs:20-25 | the result is exactly `BOLD` followed by the text, and a terminal shows it exactly as it shows the text |
| Ascii.Underline | src/ascii.rs:26-31 | the result is exactly `UNDERLINE` followed by the text, and a terminal shows it exactly as it shows the text |
| Ascii.Reset | src/ascii.rs:32-37 | the result is exactly the text followed by `RESET`, and a terminal shows it exactly as it shows the text |
| Ascii.Err | src/ascii.rs:38-43 | the result is exactly `ESC[38;2;255;75;75m`, `UNDERLINE`, `BOLD`, the text, `RESET`; the styling does not change what a terminal shows, and a message with no escapes of its own is shown exactly |
| Ascii.Success | src/ascii.rs:44-49 | the result is exactly `ESC[38;2;0;255;94m`, `UNDERLINE`, `BOLD`, the text, `RESET`; the styling does not change what a terminal shows, and a message with no escapes of its own is shown exactly |
| Ascii.Info | src/ascii.rs:50-55 | the result is exactly `ESC[38;2;240;105;255m`, `UNDERLINE`, `BOLD`, the text, `RESET`; the styling does not change what a terminal shows, and a message with no escapes of its own is shown exactly |
| Ascii.Log | src/ascii.rs:56-61 | the result is exactly `ESC[38;2;255;253;194m`, the text, `RESET`, with neither bold nor underline; the colour does not change what a terminal shows, and a message with no escapes of its own is shown exactly |
| Ascii.StyledLayout | src/ascii.rs:38-55 | bold, then underline, then a colour, then reset leaves the colour first and the bold sequence next to the text |
| Ascii.ConstantsAreSgr | src/ascii.rs:3-5 | `RESET`, `BOLD` and `UNDERLINE` are the select-graphic-rendition sequences with parameters 0, 1 and 4 |
| Ascii.ColorParams | src/ascii.rs:8-19 | the parameters of a 24-bit colour contain only digits and `;`, so the sequence cannot end early |
| Ascii.ColorParamsReadBack | src/ascii.rs:8-19 | the parameters of a colour split at `;` into five pieces that parse as `u8` back to `38` (foreground) or `48` (background), the 24-bit mode `2`, and the three channels |
| Ascii.DecimalsReadBack | src/ascii.rs:12 | numbers written in decimal, the way `format!` writes a `u8`, parse back as `u8`s to the same numbers |
| Ascii.ErrColor | src/ascii.rs:42 | the colour sequence of `err` is written `ESC[38;2;255;75;75m` |
| Ascii.SuccessColor | src/ascii.rs:48 | the colour sequence of `success` is written `ESC[38;2;0;255;94m` |
| Ascii.InfoColor | src/ascii.rs:54 | the colour sequence of `info` is written `ESC[38;2;240;105;255m` |
| Ascii.LogColor | src/ascii.rs:60 | the colour sequence of `log` is written `ESC[38;2;255;253;194m` |
| Ascii.VisibleAfterSgr | src/ascii.rs:20-31 | a sequence written before the text, as `bold` and `underline` do, shows nothing |
| Ascii.VisibleBeforeSgr | src/ascii.rs:32-37 | a sequence written after the text, as `reset` does, shows nothing and uncovers nothing hidden before it |
| Ascii.ColorKeepsText | src/ascii.rs:8-19 | a colour sequence in front of the text is invisible |
| Cli.Position | src/cli.rs:32-34 | the position is that of the first argument equal to the name, and none exists exactly when the name is absent |
| Cli.FindArg | src/cli.rs:31-38 | an absent name or a name in last place gives the default; otherwise the argument after the first occurrence is parsed, and a failed parse gives the default |
| Cli.FindI32InRange | src/cli.rs:21-23 | height and width are always within `i32` |
| Cli.Read | src/cli.rs:16-25 | fewer than two arguments is `FilepathMissing`; otherwise the path is the second argument, `debug` holds exactly when `-d` occurs, and `-h`, `-w`, `-s` are read with `find_arg` |
| Cli.OptionValue | src/cli.rs:31-38 | a value placed right after the first occurrence of its option is what is read, wherever the pair stands |
| Cli.RepeatedOption | src/cli.rs:31-38 | `-w -w 5` reads the second `-w` as the value, fails to parse it and gives 0 |
| Cli.FlagTakenAsFilepath | src/cli.rs:19-20 | with `prog -d`, the file path is `-d` and debug is also on |
| Ffmpeg.MkTag | src/ffmpeg.rs:27-29 | a tag is a `u32` |
| Ffmpeg.MkTagBytes | src/ffmpeg.rs:27-29 | each of the four bytes is read back from its own byte of the tag, little-endian |
| Ffmpeg.MkTagInjective | src/ffmpeg.rs:27-29 | equal tags come from equal bytes |
| Ffmpeg.AsI32 | src/ffmpeg.rs:24 | `u32 as i32` is in `i32` range and is the value itself or the value minus 2^32 |
| Ffmpeg.FfErrTag | src/ffmpeg.rs:23-25 | an error tag is an `i32` whenever the negation does not overflow |
| Ffmpeg.FfErrTagNegative | src/ffmpeg.rs:23-25 | a nonzero tag whose last byte is ASCII cannot overflow and gives a negative code |
| Ffmpeg.FfErrTagInjective | src/ffmpeg.rs:23-25 | different byte quadruples give different error codes |
| Ffmpeg.AvError | src/ffmpeg.rs:7-13 | the code is the negated error number exactly when `EDOM` is positive |
| Ffmpeg.AvUnError | src/ffmpeg.rs:15-21 | `AVERROR` of the result is the input, so `AVUNERROR` undoes `AVERROR` |
| Ffmpeg.AvUnErrorAvError | src/ffmpeg.rs:7-21 | `AVUNERROR(AVERROR(e)) == e` for every `EDOM` |
| Ffmpeg.NamedTagShapes | src/ffmpeg.rs:31-54 | every named tag has a nonzero first byte and an ASCII last byte |
| Ffmpeg.ErrorTagsDistinct | src/ffmpeg.rs:31-54 | no tag is declared twice |
| Ffmpeg.ErrorCode | src/ffmpeg.rs:31-54 | every named error code is negative |
| Ffmpeg.ErrorCodeInjective | src/ffmpeg.rs:31-54 | two different named tags have different codes |
| Ffmpeg.EofCode | src/ffmpeg.rs:37 | `AVERROR_EOF` is `-0x20464F45` |
| Ffmpeg.ErrorCodesDistinct | src/ffmpeg.rs:31-54 | the 24 named codes are negative and pairwise distinct, `AVERROR_BUG` and `AVERROR_BUG2` included |
| HttpParse.FlagIsWholePiece | src/http/parse.rs:16-18 | `key=value` does not set the flag `key` |
| HttpParse.FirstWithPrefix | src/http/parse.rs:21-23 | the piece found is the first that starts with the prefix, and none is found exactly when no piece does |
| HttpParse.FindQueryArg | src/http/parse.rs:20-28 | no `key=` piece gives the default; otherwise the text after the first `=` of the first such piece is parsed, and a failed parse gives the default |
| HttpParse.DecodeUri | src/http/parse.rs:30-50 | decoding never lengthens the text, and text without `%` is unchanged |
| HttpParse.DecodeKeepsBadEscape | src/http/parse.rs:40-43 | an escape that is not hexadecimal is kept as written |
| HttpParse.DecodeAcceptsSignAndShortEscape | src/http/parse.rs:37-39 | `%+F` and a trailing `%F` both decode to U+000F, because `from_str_radix` takes a sign and up to two characters are taken |
| HttpParse.DecodeEncodeUri | src/http/parse.rs:30-50 | decoding undoes percent-encoding of `%` and any set of byte-sized characters |
| Request.ParseHeader | src/http/request.rs:110-117 | a line without `:` gives nothing; otherwise key and value are the trimmed text on either side of the first `:` |
| Request.HeaderLineParses | src/http/request.rs:110-117 | `key: value` reads back as the trimmed key and value |
| Request.Insert | src/http/request.rs:39-42 | a piece with a `=` sets its key to the text after the first `=` and changes nothing else; a piece without one is skipped |
| Request.QueryParamsKeys | src/http/request.rs:38-43 | the query map has exactly the keys of the pieces that contain a `=` |
| Request.QueryParamsLastWins | src/http/request.rs:38-43 | a repeated key takes the value of its last piece |
| Request.HeaderOf | src/http/request.rs:48-52 | a line gives a header exactly when it contains a `:` |
| Request.HeadersAppend | src/http/request.rs:47-52 | header lines are read one by one, independently of one another |
| Request.HeadersOfLine | src/http/request.rs:48-52 | a single line is skipped without a `:` and is one header with one |
| Request.Parse | src/http/request.rs:19-61 | invalid UTF-8 is rejected; a request parses exactly when its first line has three words; method and version are the first and third words; the path is the target up to its first `?`; the query map is built from the rest; headers come from the later lines |
| Request.RequestLineWords | src/http/request.rs:24-26 | three words joined by spaces are one line that splits back into those three words |
| Request.RequestLineParses | src/http/request.rs:19-61 | a request line with a plain target, sent as UTF-8, parses to that method, path and version with no query and no headers |
| Response.AsTuple | src/http/response.rs:14-21 | `OK` is 200, a bad request 400, not found 404 and a server error 500, each code belonging to that status alone; the reason is the phrase section 15 of RFC 9110 gives the code (`Response.StandardReason`) |
| Response.StatusClasses | src/http/response.rs:14-21 | 2xx exactly for `OK`, 4xx exactly for bad request and not found, 5xx exactly for server error; two statuses share a code exactly when they are the same kind, so 400 and 404 stay apart; codes and reasons determine each other |
| Response.New | src/http/response.rs:45-51 | a new response is 200 with no headers and no body |
| Response.Default | src/http/response.rs:31-42 | the default response is 200 with exactly `Content-Type: text/plain` and `Cache-Control: no-cache` and no body |
| Response.FromStatus | src/http/response.rs:92-99 | a response from a status keeps the default headers and empty body |
| Response.AddHeader | src/http/response.rs:53-55 | the key is set to the value, every other key is kept, and status and body do not change |
| Response.AddHeaderOverwrites | src/http/response.rs:53-55 | setting a key twice keeps the second value, and setting two keys commutes |
| Response.AddContent | src/http/response.rs:57-60 | the chunk is appended to the body, and `Content-Length` becomes the chunk's length |
| Response.ContentLengthOfLastChunk | src/http/response.rs:57-60 | after one chunk the length header matches the body; after a second chunk it gives only that chunk's length, which is wrong when the first chunk was not empty |
| Response.SetStatus | src/http/response.rs:62-64 | only the status changes |
| Response.Body | src/http/response.rs:76-86 | a non-empty body is sent as is; an empty one is replaced by the error text for 400 and 500, and stays empty otherwise |
| Response.Send | src/http/response.rs:66-89 | the bytes written are the UTF-8 head followed by the body |
| Response.HeaderBlockReadsBack | src/http/response.rs:70-73 | split into lines and read by the request parser, the header block gives back the trimmed pairs, one line per header |
| Response.StatusLine | src/http/response.rs:67-69 | the status line starts with `HTTP/1.1 ` and holds no line break |
| Response.StatusLineReadsBack | src/http/response.rs:67-69 | split at spaces, the status line gives the version `HTTP/1.1`, then a word that parses as a `u16` to the status code, then exactly the reason phrase |
| Response.HeaderBlock | src/http/response.rs:70-72 | the header text is empty exactly when there are no headers, and otherwise ends with `\r\n` |
| Response.Head | src/http/response.rs:67-73 | the head starts with `HTTP/1.1 ` and, with or without headers, ends with the blank line `\r\n\r\n` |
| Response.HeadLines | src/http/response.rs:69-73 | the head's lines are the status line, then the header lines and the empty line |
| Response.HeadReadsBack | src/http/response.rs:66-75 | the head decodes back from its bytes, has one line per header plus the status line and the empty line, and its headers parse back to the trimmed keys and values |
| Server.New | src/http/server.rs:98-100 | a new router has no endpoints |
| Server.AddGet | src/http/server.rs:102-109 | an endpoint is added after the existing ones, which are kept in order with their handlers; the new entry answers every request as the handler given |
| Server.Index | src/http/server.rs:140-147 | the `GET` table is the router's `get` list, entry by entry, each endpoint with the handler registered for it |
| Server.StripWildcard | src/http/server.rs:122 | `/*` is stripped exactly when the endpoint ends with it, leaving the prefix |
| Server.FirstMatch | src/http/server.rs:119-127 | the endpoint chosen is the first that matches, and none is chosen exactly when none matches |
| Server.Route | src/http/server.rs:111-137 | a parse error is a 400; no match is a 404; otherwise the first match's handler answers, and its error becomes a 400 if it is a bad request and a 500 otherwise |
| Server.RouteServerErrors | src/http/server.rs:111-137 | a 500 comes only from a matched handler, either as its error or as its own answer |
| Server.FirstRegisteredWins | src/http/server.rs:102-127 | registering an endpoint never changes the answer for a path an earlier endpoint matches; the new one takes only paths nothing matched |
| Server.WildcardMatches | src/http/server.rs:122-126 | a wildcard compares characters, not path segments: `/video/*` matches `/video` and `/videos`, and `*` without `/` is literal |
| Asset.Extension | src/http/asset.rs:126-127 | there is an extension exactly when the path has a `.`, and it starts with the last `.` and contains no other |
| Asset.GetContentType | src/http/asset.rs:60-133 | a path without `.` is `application/octet-stream`; any other answer is a type from the table |
| Asset.RFindDotLower | src/http/asset.rs:126-127 | lower-casing keeps the last `.` where it was |
| Asset.CaseInsensitive | src/http/asset.rs:126-127 | extension and content type ignore the case of ASCII letters anywhere in the path |
| Asset.ExtensionOfStem | src/http/asset.rs:126-127 | the extension of stem plus extension is the lower-cased extension, however many `.`s the stem has |
| Asset.ByExtension | src/http/asset.rs:126-132 | the content type depends only on the lower-cased extension |
| Asset.MatroskaEntries | src/http/asset.rs:95-120 | `.mkv`, `.mpv` and `.mks` all map to `video/x-matroska` |
| Asset.TransportStreamEntries | src/http/asset.rs:105-109 | `.ts` and `.m2ts` map to types that differ in case |
| Asset.KeysAreLowerCase | src/http/asset.rs:62-123 | the table's keys are lower case and include the `.` |
| Asset.UpperCaseExample | src/http/asset.rs:126-129 | `movies/Clip.Final.MKV` is served as Matroska |
| Asset.DirectoryDotExample | src/http/asset.rs:126-132 | a `.` in a directory name is taken as an extension, so `media.d/README` gets the fallback type |
| Asset.NoDotExample | src/http/asset.rs:126-132 | `README` gets the fallback type |
| Rumpeg.Value | src/rumpeg/mod.rs:73-83 | each level carries its `AV_LOG_*` value: multiples of 8 from -8 for quiet to 56 for trace, and the value picks out the level's place in the order of verbosity |
| Rumpeg.Name | src/rumpeg/mod.rs:90-107 | each name `from_str` compares against is a non-empty word of lower-case ASCII letters |
| Rumpeg.Default | src/rumpeg/mod.rs:78-79 | the default level is the one whose value is `AV_LOG_WARNING` |
| Rumpeg.FromStr | src/rumpeg/mod.rs:86-112 | a parsed level's name is the lower-cased input; an error means no name matches it |
| Rumpeg.NamesAndValuesDistinct | src/rumpeg/mod.rs:72-84 | the nine levels have distinct names and distinct `AV_LOG_*` values, which grow with verbosity |
| Rumpeg.FromStrName | src/rumpeg/mod.rs:90-107 | each level's name parses back to that level |
| Rumpeg.FromStrExactly | src/rumpeg/mod.rs:88-111 | a string parses to a level exactly when its lower-case form is that level's name |
| Rumpeg.FromStrCaseInsensitive | src/rumpeg/mod.rs:89 | parsing ignores the case of ASCII letters |
| AvCodec.InferFormat | src/rumpeg/avcodec.rs:39-51 | an explicit format is kept; a missing one is YUV 4:2:0 for H.264, HEVC, MPEG-2, VP9, AV1 and VP8, and `PixelFormatMissing` with the codec id otherwise |
| AvCodec.Normalize | src/rumpeg/avcodec.rs:55-63 | the result is never a full-range format, and every other format passes through |
| AvCodec.NormalizeFullRange | src/rumpeg/avcodec.rs:55-61 | each J format maps to its own standard counterpart |
| AvCodec.NormalizeIdempotent | src/rumpeg/avcodec.rs:55-63 | normalising twice is normalising once |
| AvCodec.NewCodecContext | src/rumpeg/avcodec.rs:14-66 | the four native steps fail in order (decoder, allocation, parameters, open) with their own errors; after that the format is inferred and normalised, and it is never a full-range format |
| AvCodec.NewCodecContextDefault | src/rumpeg/avcodec.rs:39-46 | a stream of one of the six codecs with no format opens as YUV 4:2:0 |
| AvFormat.FromStr | src/rumpeg/avformat.rs:183-194 | seconds are within `i64`; a fraction needs a trailing `%`; a trailing `s` can only give seconds; the empty string is an integer error |
| AvFormat.FromStrOk | src/rumpeg/avformat.rs:183-194 | `parse().ok()` succeeds exactly when `from_str` does, with the same value |
| AvFormat.SecondsSuffixOptional | src/rumpeg/avformat.rs:186-191 | `"Ns"` and `"N"` both give `N` seconds for every `i64` |
| AvFormat.NoMillisecondUnit | src/rumpeg/avformat.rs:186-187 | anything ending in `ms` fails as an integer |
| AvFormat.PercentOfNat | src/rumpeg/avformat.rs:188-189 | `"N%"` is the fraction N/100 |
| AvFormat.PercentThenSecondsFails | src/rumpeg/avformat.rs:186-187 | anything ending in `%s` fails as an integer |
| AvFormat.F64ToI64 | src/rumpeg/avformat.rs:167 | `as i64` gives a value within `i64` |
| AvFormat.Add | src/rumpeg/avformat.rs:159-174 | the sum is a fraction exactly when both are; like kinds add; a mix gives the seconds scaled by one plus the fraction, truncated, in either order |
| AvFormat.Grow | src/rumpeg/avformat.rs:167-170 | `a + b·a` is `a·(1 + b)` |
| AvFormat.AddCommutative | src/rumpeg/avformat.rs:163-172 | addition does not depend on the order of its operands |
| AvFormat.AddZeroFraction | src/rumpeg/avformat.rs:166-168 | in exact arithmetic, adding a zero fraction keeps an `i64` number of seconds |
| AvFormat.AddAssign | src/rumpeg/avformat.rs:176-181 | `p += q` leaves `p + q` |
| AvFormat.Default | src/rumpeg/avformat.rs:196-200 | the default is a number of seconds |
| AvFormat.DefaultAddsNothing | src/rumpeg/avformat.rs:162-200 | adding the default to seconds, on either side, changes nothing |
| AvFormat.RescaleSeconds | src/rumpeg/avformat.rs:79-83 | the rescaled timestamp is an `i64`; unless it is `INT64_MIN`, the overflow marker of `av_rescale_q`, it is the seconds in microseconds |
| AvFormat.RescaleSecondsRange | src/rumpeg/avformat.rs:79-83 | seconds within ±9 223 372 036 854 rescale exactly and divide back; any other count gives `INT64_MIN` |
| AvFormat.SeekTimestamp | src/rumpeg/avformat.rs:78-85 | the timestamp is an `i64`: seconds go through `av_rescale_q` to microseconds, with its overflow marker; a fraction is that fraction of the duration, converted with `as i64` |
| AvFormat.Seek | src/rumpeg/avformat.rs:76-99 | one `av_seek_frame` call at that timestamp with `AVSEEK_FLAG_FRAME`; success exactly when it returns at least 0, otherwise an error carrying its code |
| Math.F32Round | src/math.rs:120 | `x as f32` is within a relative 2^-24 of `x` and keeps its sign |
| Math.F32RoundExact | src/math.rs:120 | a value already on the `f32` grid converts to itself |
| Math.F32RoundSmall | src/math.rs:120 | every `i32` below 2^24 in magnitude is an `f32` |
| Math.ToFixedPoint | src/math.rs:119-121 | with at least one fraction bit the result is an `i32` |
| Math.ToFixedPointSmall | src/math.rs:119-121 | for magnitudes below 2^24, `to_fixed_point` is division by 2^n truncated toward zero |
| Math.ReadI32 | src/math.rs:33-34 | four little-endian bytes read as an `i32` |
| Math.ReadI32Bytes | src/math.rs:33-34 | reading the bytes of an `i32`, at any multiple of 4, gives the value back |
| Math.RawBytesRead | src/math.rs:33-34 | entry `k` of a matrix written as raw `i32`s reads back as that entry |
| Math.FromSideData | src/math.rs:27-46 | anything but 36 bytes is `InvalidSideDataSize` carrying the side data; otherwise entry `k` is the `k`-th `i32` in 2.30 form at 2, 5, 8 and 16.16 elsewhere |
| Math.FixedPointOnes | src/math.rs:42 | one in 16.16 and one in 2.30 convert to 1, and zero converts to 0 |
| Math.FromSideDataIdentity | src/math.rs:27-46 | the raw identity display matrix parses to the integer identity |
| Math.Get | src/math.rs:81-84 | `m[(i, j)]` is element `3i + j` of the row-major data |
| Math.Set | src/math.rs:87-91 | writing an `i32` to `m[(i, j)]` sets that element, keeps the other eight, and leaves a matrix of `i32` entries |
| Math.Elements | src/math.rs:111-117 | the data has nine values |
| Math.ElementsRowMajor | src/math.rs:111-117 | the nine values are the `(i, j)` entries in row-major order |
| Math.ZeroScaleIsZeroNorm | src/math.rs:61-64 | the guard fires exactly when the squared length of the first or the second column, `x² + y²` under `hypot`, is zero |
| Math.Rotation | src/math.rs:58-75 | the angle is 0 when a column scale is zero and the negated `atan2` angle otherwise |
| Math.RotationSingularLooksUnrotated | src/math.rs:64-66 | the all-zero matrix and the identity both give 0, so a singular matrix cannot be told apart |
| Math.RotationChecked | src/math.rs:48-51 | as documented: `None` exactly for a zero scale, and the same angle otherwise |
| AvStream.FirstDisplayMatrix | src/rumpeg/avstream.rs:17-21 | the entry found is the first display matrix, and none is found exactly when there is no display matrix |
| AvStream.FirstDisplayMatrixIgnoresRest | src/rumpeg/avstream.rs:21-37 | entries after the first display matrix never change the answer |
| AvStream.DisplayMatrix | src/rumpeg/avstream.rs:15-42 | no display matrix gives `None`; otherwise the answer is the parse of the first one, and `None` when that parse fails |
| AvFrame.Data | src/rumpeg/avframe.rs:142-149 | the plane-0 view is `linesize[0] · height` bytes long |
| AvFrame.WithData | src/rumpeg/avframe.rs:151-158 | writing the view keeps format, size and line size |
| AvFrame.DataWithData | src/rumpeg/avframe.rs:142-158 | the view reads back what was written, and writing the current view changes nothing |
| AvFrame.NewFrame | src/rumpeg/avframe.rs:45-74 | the steps fail in order (frame, buffer, image size) with their own errors; success has the requested format and size and the allocated plane |
| AvFrame.Remap.Offset | src/rumpeg/avframe.rs:105-110 | the destination offset is a multiple of 3 |
| AvFrame.Remap.LastWriter | src/rumpeg/avframe.rs:104-122 | the writer found is the last iteration that writes the byte, and none is found exactly when no iteration does |
| AvFrame.StepAt | src/rumpeg/avframe.rs:112-122 | one iteration sets byte `j` to source byte `3i + (j − di)` exactly when the offset is in range and that source byte exists, and keeps it otherwise |
| AvFrame.AfterAt | src/rumpeg/avframe.rs:104-124 | after the loop, every destination byte holds what its last writer copied, or its initial value; nothing wraps or clamps |
| AvFrame.CopyPixel | src/rumpeg/avframe.rs:118-122 | the inner loop copies the colour bytes of pixel `i` that exist in the source to `di`, `di+1`, `di+2` |
| AvFrame.Transform | src/rumpeg/avframe.rs:93-127 | for a destination plane whose length is a multiple of 3, as with RGB24: an allocation failure is returned as is; otherwise the frame has the source's format with width and height swapped, and its bytes are those of the remap loop over the unmodified source |
| Sws.CopyAspectRatio | src/rumpeg/sws.rs:161-176 | a dimension of at least 1 is kept; a missing width is the height scaled by the other's aspect ratio, and likewise for a missing height; if both are missing the result is the other's size exactly |
| Sws.CopyAspectRatioIdempotent | src/rumpeg/sws.rs:161-176 | copying the aspect ratio again changes nothing |
| Sws.FromCodecContext | src/rumpeg/sws.rs:113-126 | the input is the decoder's size and format; the output starts with both dimensions missing, in RGB24 |
| Sws.SetWidth | src/rumpeg/sws.rs:137-140 | only the output width changes |
| Sws.SetHeight | src/rumpeg/sws.rs:142-145 | only the output height changes |
| Sws.SetPixelFormat | src/rumpeg/sws.rs:147-150 | only the output format changes |
| Sws.ContextFor | src/rumpeg/sws.rs:57-83 | a null context is `SwsContextCreation`; otherwise the context converts between the given properties |
| Sws.Build | src/rumpeg/sws.rs:128-135 | missing output dimensions are filled in before the context is requested, and the context converts input to that output |
| Sws.BuildWithoutSetters | src/rumpeg/sws.rs:113-135 | with no setter called, the output has exactly the input's size, in RGB24 |
| Sws.ResizeOutput | src/rumpeg/sws.rs:18-24 | the requested width and height are set and then completed from the input's aspect ratio, so dimensions of at least 1 are kept; the format and the input are kept, and success means the context was created |
| Sws.ResizeToZeroRestoresInput | src/rumpeg/sws.rs:18-21 | resizing to 0 × 0 gives the input's size |
| Video.TileCount | src/video.rs:75-80 | the tile count is an `i32`; with a zero step it is `i32::MAX` going forward, `i32::MIN` going backward and 0 otherwise |
| Video.TileCountCovers | src/video.rs:75-80 | with a positive step, `tile_count` steps reach `end - start` and one fewer does not, unless the count was clamped |
| Video.TileCountPositive | src/video.rs:75-84 | there is at least one tile exactly when `end` lies beyond `start` in the direction of the step |
| Video.Cols | src/video.rs:97 | the film is as many tiles wide as the smaller of the tile count and 10 |
| Video.Rows | src/video.rs:98 | the film has the least number of rows of 10 tiles that holds the tile count |
| Video.TileAt | src/video.rs:113-122 | row `y` of thumbnail `k` starts on film line `(k / 10) · frame_height + y`, `k % 10` frame lines in; when that column lies within a film line, dividing the offset by the film's line size gives back that line and column |
| Video.RowsValue | src/video.rs:98 | the film has `tile_count / 10` rows, rounded up |
| Video.GridCapacity | src/video.rs:95-99 | the film grid is 1 to 10 tiles wide, holds every tile and has no empty row |
| Video.Layout | src/video.rs:75-99 | fewer than one tile is `NoFramesInFilmRoll` with the count; otherwise the tile is the output size, with width and height swapped when the display matrix turns by ±90° |
| Video.SingularMatrixKeepsTiles | src/video.rs:86-93 | a matrix that reads as singular never swaps the tile's sides |
| Video.LayoutHoldsTiles | src/video.rs:95-99 | every successful layout has room for all its tiles and no empty row |
| Video.CopyRow | src/video.rs:127-128 | one row copy replaces exactly the destination window with the source row and keeps every other byte |
| Video.CopyTile | src/video.rs:121-129 | the row loop copies rows `0..frame_height` of one thumbnail plane, in order |
| Video.CopiedOutside | src/video.rs:121-129 | a film byte outside every row window of the tile is unchanged |
| Video.CopiedRow | src/video.rs:121-129 | when the frame line is no longer than the film line, each byte of frame row `y` lands at the same column of film row `y` |
| Video.TileFits | src/video.rs:113-128 | when a film line holds at least `Cols(n)` frame lines (`filmStride >= Cols(n) · frameStride`) and the film at least `Rows(n) · frame_height` lines, every thumbnail below the tile count lies inside the film and its rows inside the frame plane, so no slice copy panics; the film as allocated meets this only in the cases `Video.AllocatedFilmPlaneVsGrid` names |
| Video.TileBeyondGridOverflows | src/video.rs:113-118 | a thumbnail past the last grid row would start beyond the end of the film |
| Video.CopyThumbs | src/video.rs:105-130 | thumbnail `k` of the frame iterator is copied into tile `k`, in order |
| Video.ThumbsCopiedAt | src/video.rs:105-130 | when all thumbnails share a line size `s` and a film line holds `Cols(n)` of them, byte `x` of row `y` of thumbnail `k` ends up at byte `x` of film row `y` of tile `k`, and no later thumbnail overwrites it |
| Video.TilesApart | src/video.rs:113-121 | for indices below the tile count, and when a film line holds `Cols(n)` thumbnail lines of `s` bytes (`Cols(n) · s <= filmStride`), a byte of tile `k` lies outside every row of a different tile `j` |
| Video.TileByte | src/video.rs:113-121 | for `k` below the tile count, `x < s` and `Cols(n) · s <= filmStride`, byte `x` of row `y` of tile `k` sits on film line `(k/10)·h + y` at column `(k%10)·s + x` |
| Video.Yuv420Plane | src/rumpeg/avframe.rs:62-70 | a YUV420P plane laid out with alignment 1: the luma plane is `w` by `h` bytes, each chroma plane half of each side, rounded up |
| Video.AllocatedFilmPlaneVsGrid | src/video.rs:95-103 | each plane of the film as allocated is at most as wide and as high as `Cols(n)` by `Rows(n)` thumbnail planes, and equal to it exactly in the luma plane, or with one column or an even tile width and one row or an even tile height |
| Video.OddTileWidthOverruns | src/video.rs:95-128 | with 177-pixel tiles and ten thumbnails, the film's chroma line is 885 bytes, ten thumbnail chroma lines are 890, and the last row of tile 9 ends 5 bytes past the chroma plane |
| Video.FilmPlaneHoldsTiles | src/video.rs:113-128 | in a film plane `Cols(n)` thumbnail lines wide and `Rows(n)` thumbnail heights high, every thumbnail below the tile count fits, for any plane sizes |
| Video.FilmPlaneCopies | src/video.rs:101-130 | thumbnails of one plane geometry and a film plane of the corrected size meet every hypothesis of `Video.CopyThumbs` and `Video.ThumbsCopiedAt` |
| Video.Seek | src/video.rs:150-153 | the decoder is flushed, then the container seeks to the position's timestamp; success follows the native return code |
| Video.Frames | src/video.rs:136-148 | a failed seek is returned and no frame range is made; otherwise the range is `start..end` by `step` |
| Video.FlushBeforeSeek | src/video.rs:142-153 | the flush always comes before the seek, whatever the seek returns |
| Routes.FromQueryString | src/routes.rs:71-89 | never fails; `film` is set only by a bare `film` piece; width and height default to 0; a zero-tick `end` becomes 100 % and a zero-tick `step` one tick, other values pass through |
| Routes.EmptyQueryDefaults | src/routes.rs:72-87 | an empty query gives the defaults, with a zero end and step replaced |
| Routes.ExplicitZeroEnd | src/routes.rs:79-82 | `end=0` means the whole video |
| Routes.ExplicitZeroStep | src/routes.rs:83-86 | `step=0` means one tick |
| Routes.FromPath | src/routes.rs:95-107 | for a path that starts with a one-byte character, no `/` after that character is `Missing filepath`; otherwise the part after the second segment's `/` is joined to the media folder |
| Routes.FromPathFile | src/routes.rs:97-103 | `/{route}/{file}` names `{file}` under the media folder, with further `/` and `..` kept as they are |
| Routes.QueryOnlyTargetHasEmptyPath | src/routes.rs:97 | a request target that starts with `?` reaches `from_path` with an empty path |
| Routes.NonAsciiLeadPath | src/routes.rs:97 | a request target whose first character takes more than one UTF-8 byte, such as `é/a`, parses and reaches `from_path` with that character first |
| Routes.FromPathChecked | src/routes.rs:95-107 | the empty path and a path whose first character is not ASCII are `Missing filepath` too; every other path is handled as before |
| Utf8.DecodeOne | src/http/request.rs:20 | a decoded scalar consumes one to four bytes of the input |
| Utf8.Decode | src/http/request.rs:20-22 | decoding yields no more characters than there are bytes, and at least one for non-empty input |
| Utf8.EncodeAppend | src/http/request.rs:20 | encoding distributes over concatenation |
| Utf8.DecodeOneEncodeChar | src/http/request.rs:20 | the encoding of any scalar decodes back to it, consuming exactly its bytes |
| Utf8.DecodeEncode | src/http/request.rs:20-22 | `from_utf8` accepts every encoded string and returns it |
| RustStr.AnyEqual | src/cli.rs:27-29 | a flag is found exactly when some argument equals it; `find_query_flag` (src/http/parse.rs:16-18) is the same search over the pieces of a query |
| RustStr.Split | src/routes.rs:73 | there is at least one piece and no piece contains the separator |
| RustStr.SplitJoin | src/routes.rs:73 | joining the pieces with the separator gives the string back |
| RustStr.JoinSplit | src/routes.rs:73 | pieces free of the separator, joined by it, split back into the same pieces |
| RustStr.Trim | src/http/request.rs:111 | the result is a slice of the input with only whitespace around it, and it neither starts nor ends with whitespace |
| RustStr.TrimLeadingWhitespace | src/http/request.rs:111 | leading whitespace does not change the trimmed value |
| RustStr.SplitWhitespace | src/http/request.rs:26 | every word is non-empty and holds no whitespace |
| RustStr.SplitWhitespaceKeepsText | src/http/request.rs:26 | the words, concatenated, are the input with its whitespace removed |
| RustStr.SplitWhitespaceAppend | src/http/request.rs:26 | a whitespace character ends a word: the words of `a`, whitespace, `b` are the words of `a` followed by those of `b` |
| RustStr.SplitWhitespaceSingle | src/http/request.rs:26 | a non-empty run without whitespace is exactly one word |
| RustStr.SplitWhitespaceOfWhitespace | src/http/request.rs:26 | text made only of whitespace has no words |
| RustStr.Lines | src/http/request.rs:24 | a non-empty input has at least one line and no line contains a newline |
| RustStr.LinesSplit | src/http/request.rs:24 | the lines are the pieces between `\n`s: every piece but the last loses one `\r` at its end, the last piece is kept unchanged, and it is dropped when it is empty |
| RustStr.AsciiLowerIdempotent | src/http/asset.rs:127 | lower-casing twice is lower-casing once |
| RustNum.ParseI32 | src/http/parse.rs:26 | a parsed `i32` is in range |
| RustNum.NatToStringRoundTrip | src/http/response.rs:58 | the decimal text of a length parses back to it |
| RustNum.IntToStringRoundTrip | src/routes.rs:47 | the decimal text of an integer, sign included, parses back to it |
| RustNum.ParseFloatNat | src/rumpeg/avformat.rs:187 | a run of decimal digits parses as the float it denotes |
| RustNum.TruncDiv | src/rumpeg/sws.rs:164 | integer division truncates toward zero: the remainder has the dividend's sign and is smaller than the divisor |

## Left out

- Native FFmpeg calls have no source to model. Their results are parameters: return codes, allocation success and the side-data entries. This covers `AVFormatContext::new`, `stream` and `Drop`, the `avcodec_*` calls, `av_seek_frame`, `sws_getCachedContext` and `sws_scale`, `av_frame_alloc` and `av_image_*`. The error order of `AVCodecContext::new` is modelled, over those parameters.
- `ImageBuffer` (malloc and free), `src/rumpeg/avpacket.rs` and `src/rumpeg/avpixel.rs` are foreign memory handling. They are not part of this model.
- `ptr_to_str`, `RumpegError::from_code` (its message comes from `av_strerror`), `version` and `set_log_level` only call into C.
- `encode_as_webp`, `image_data` and `src/webp.rs` wrap libwebp. The `CStringCreation` and `WebPError` error variants come from them, so those variants are not modelled.
- `SwsContext::transform` and `Video::frame_to_webp` are `sws_scale` followed by `AVFrame::transform` and the encoder. `AvFrame.Transform` models the part that is not foreign.
- `Video::open` and `Video::resize_output` only thread native results through `Sws.BuildWithoutSetters` and `Sws.ResizeOutput`.
- The frame iterator (`AVFormatContext::frames`, `AVFrameIter`) is not part of this model. `Video.Frames` stops at the range it hands over, and `Video.CopyThumbs` takes the decoded thumbnails as a sequence.
- `Server::listen`, `serve_client`, the thread list, the Ctrl+C handler and `RequestIter` (including its `exit` request) are sockets, threads and signals.
- `Asset::open`, `read` and `bytes` are file I/O. So are `index`, `favicon` and `get_asset`, which serve files through them.
- `get_frame` in both route files is glue over video decoding and file I/O. Only its argument parsing (`Routes.FromQueryString`) and path mapping (`Routes.FromPath`) are modelled.
- `env::args` and the `MEDIA_FOLDER` global are parameters: the argument list and the media folder.
- `src/main.rs` and `build.rs` are a standalone FFI demo and build-time binding generation.
- `Display` implementations and the `log!` macro only format text. The colour helpers that `log!` uses are modelled.
- The angle that `rotation` computes with `f32` `atan2` and `hypot` is a parameter. Only the singular-matrix guard in front of it is modelled, and `Video.Layout` takes the angle as given.
- `f64` arithmetic is exact: percentages, the tile-count quotient and the seconds-times-fraction product have no rounding. `Math.ToFixedPoint` is the exception, as stated above.
- AvFormat.AddZeroFraction: holds in exact arithmetic only. In the source, `a as f64` rounds an `i64` whose magnitude exceeds 2^53, so `Seconds(2^53 + 1) + Percentage(0.0)` is `Seconds(2^53)` there.
- `AvFormat.Add`: `Seconds + Seconds` is unbounded, so an `i64` overflow, which panics in a debug build and wraps in a release build, is not modelled.
- `Sws.CopyAspectRatio`: the `i32` product `height * other.width` is unbounded; its overflow is not modelled. It also requires a nonzero divisor (`CanCopyAspectRatio`), because the source divides by `other.height` or `other.width` and panics on zero (src/rumpeg/sws.rs:164 and 171). `Sws.Build` and `Sws.ResizeOutput` inherit that requirement.
- `AvFrame.Transform`: the `i32` products and sums of the remap are unbounded. The `usize` index arithmetic is likewise exact. It also requires a positive width and a nonzero `z` at every source pixel (`Remap.Ready`), because the source divides by both and panics on zero (src/rumpeg/avframe.rs:105-109). It further requires the destination plane's length to be a multiple of 3 (`|alloc.initial| % 3 == 0`). That holds for RGB24, the default output of `Sws.FromCodecContext`. With another output format, set through `SwsContextBuilder::pixel_format` (src/rumpeg/sws.rs:147-150), an offset one or two bytes before the end of the plane passes the `di < dst_data.len()` check. The write to `dst_data[di + 1]` or `dst_data[di + 2]` then panics (src/rumpeg/avframe.rs:116-121), and that panic is not modelled.
- `Video.CopyThumbs`: the `i32` offsets and their `as usize` casts are taken as exact non-negative integers. The method requires every tile to fit in the film (`Tile.Fits`), so it does not model the `copy_from_slice` panic when a tile does not fit. That case is reachable: the film is allocated as one YUV420P image, so for an odd tile width its chroma line is shorter than ten thumbnail chroma lines (see Findings). `Video.FilmPlaneCopies` shows that the requirement holds for a film plane of the corrected size.
- Video.CopyThumbs: the thumbnails are taken to be YUV420P, the film's format. The code that picks the thumbnails' format, and `plane_height` and `data_mut(plane)`, are not part of this model. With the RGB24 default of `Sws.FromCodecContext` (src/rumpeg/sws.rs:123), a luma-plane thumbnail line would be `3 · w` bytes and no tile would fit.
- Video.TileFits: holds only when a film line holds `Cols(n)` frame lines and the film `Rows(n)` frame heights. `Video.AllocatedFilmPlaneVsGrid` says when the allocated film meets this.
- Video.TilesApart: holds only when `Cols(n) · s <= filmStride`, which odd tile widths break in the chroma planes of the film as allocated (`Video.OddTileWidthOverruns`).
- Video.TileByte: holds only when `Cols(n) · s <= filmStride`, for the same reason as `Video.TilesApart`.
- Video.ThumbsCopiedAt: holds only when all thumbnails share one line size and `Cols(n) · s <= filmStride`, for the same reason as `Video.TilesApart`.
- `Asset.GetContentType`: `to_lowercase` is modelled for ASCII letters only. Non-ASCII letters whose lower case has a different UTF-8 length could move the byte index `rfind` returned, and that is not modelled.
- `Rumpeg.FromStr`: case-insensitivity covers ASCII letters only, for the same reason.
- `Request.Parse` requires non-empty input, because the source indexes `lines[0]` and panics on an empty request.
- `AvFormat.FromStr`: `f64::from_str` also accepts `inf`, `infinity` and `nan`, in any case and with a sign, so `inf%` and `nan%` give non-finite percentages in the source. Fractions here are exact reals, which have no such values, so the model answers those inputs with an error.
- `Routes.FromPath` requires a non-empty path whose first character is ASCII, because `path[1..]` slices bytes and panics on an empty path and inside a multi-byte first character. See Findings.
- Response.StatusLine: its own contract gives the layout only, one line that starts with `HTTP/1.1 `. That the code and the reason read back from it is `Response.StatusLineReadsBack`, a separate lemma, so that the proofs about the whole head do not carry the parsing facts.
- RustStr.Lines: its own contract says only that lines hold no line feed. Which pieces become lines, and what is removed from them, is stated by `RustStr.LinesSplit`, a separate lemma, so that the proofs about request heads do not carry it.
- RustStr.SplitWhitespaceKeepsText: states only that the words keep every non-whitespace character, in order. Where one word ends and the next begins is stated by `RustStr.SplitWhitespaceAppend`, `RustStr.SplitWhitespaceSingle` and `RustStr.SplitWhitespaceOfWhitespace`, which together fix the words of any text.
- `Response.Send` writes the headers in an order given as a parameter, because `HashMap` iteration order is unspecified.
- `Routes.FromQueryString`: the `SeekPosition` with a `TimeBase` variant that `src/routes.rs` uses belongs to a version of `src/rumpeg/avformat.rs` that is not part of this model. Its parser and default are parameters, and the variant exists only in `Routes`.

## Findings

| source | as written | input that shows it | evidently intended | confidence | as-written member | corrected member |
|---|---|---|---|---|---|---|
| src/math.rs:48-66 | the doc comment says a singular matrix gives `None`, but `rotation` returns `f32` and answers `0` for a zero column | the all-zero matrix reads as "no rotation", the same as the identity | a singular matrix reported as having no angle | not executed; the doc comment and the signature disagree | Math.Rotation, Math.RotationSingularLooksUnrotated | Math.RotationChecked |
| src/video.rs:95-128 | the film is allocated as one YUV420P image `Cols(n) · w` wide with alignment 1, so its chroma line is half of that rounded up; thumbnail `k` is placed `k % 10` thumbnail chroma lines in, each half of `w` rounded up | `height=100` on a 1920 by 1080 stream gives tiles 177 wide; with ten thumbnails the film's chroma line is 885 bytes, ten thumbnail chroma lines are 890, and the last chroma row of tile 9 ends 5 bytes past the plane, so `copy_from_slice` panics | every film plane holds `Cols(n)` by `Rows(n)` thumbnail planes, as with even tile sides | not executed; it assumes YUV420P thumbnails, whose format is chosen by code that is not part of this model | Video.OddTileWidthOverruns, Video.AllocatedFilmPlaneVsGrid | Video.FilmPlaneHoldsTiles, Video.FilmPlaneCopies |
| src/routes.rs:97 | `path[1..]` slices bytes, so it panics on an empty path and when the first character takes more than one byte | the request line `GET ?a=1 HTTP/1.1` parses to path `""`, and `GET é/a HTTP/1.1` to a path starting with a two-byte character; either reaches `from_path` when a route such as `/*` dispatches it | such paths answered `Missing filepath` | not executed; it depends on which routes are registered | Routes.FromPath, Routes.QueryOnlyTargetHasEmptyPath, Routes.NonAsciiLeadPath | Routes.FromPathChecked |

=== FILE: ascii.dfy ===
/** `src/ascii.rs`: wrapping text in ANSI select-graphic-rendition escapes
    (`ESC [ params m`, section 8.3.117 of ECMA-48) for coloured logging. The
    `log!` macro only prints, so it is left out. */
module Ascii {
  import opened Wrappers
  import opened RustStr
  import opened RustNum

  const ESC: char := '\U{1B}'

  const RESET: string := "\U{1B}[0m"
  const BOLD: string := "\U{1B}[1m"
  const UNDERLINE: string := "\U{1B}[4m"

  /** One escape sequence with the given parameters. */
  function Sgr(params: string): string {
    [ESC] + "[" + params + "m"
  }

  /** Parameters are digits and `;`, so none contains the final `m`. */
  predicate Params(params: string) {
    forall i :: 0 <= i < |params| ==> params[i] == ';' || '0' <= params[i] <= '9'
  }

  lemma ConstantsAreSgr()
    ensures RESET == Sgr("0") && BOLD == Sgr("1") && UNDERLINE == Sgr("4")
  {
  }

  /** The parameters of a 24-bit colour: `38;2;r;g;b` for the foreground,
      `48;2;r;g;b` for the background. */
  function ColorParams(layer: nat, r: byte, g: byte, b: byte): (p: string)
    ensures layer < 10 ==> Params(p)
  {
    var p := NatToString(layer) + "8;2;" + NatToString(r) + ";" + NatToString(g) + ";" + NatToString(b);
    assert forall s: string :: AllDigits(s, 10) ==> Params(s) by {
      forall s: string | AllDigits(s, 10) ensures Params(s) {
        assert forall i :: 0 <= i < |s| ==> DigitValue(s[i], 10).Some?;
      }
    }
    assert layer < 10 ==> Params(p) by {
      if layer < 10 {
        ParamsAppend(NatToString(layer), "8;2;");
        ParamsAppend(NatToString(layer) + "8;2;", NatToString(r));
        ParamsAppend(NatToString(layer) + "8;2;" + NatToString(r), ";");
        ParamsAppend(NatToString(layer) + "8;2;" + NatToString(r) + ";", NatToString(g));
        ParamsAppend(NatToString(layer) + "8;2;" + NatToString(r) + ";" + NatToString(g), ";");
        ParamsAppend(NatToString(layer) + "8;2;" + NatToString(r) + ";" + NatToString(g) + ";", NatToString(b));
      }
    }
    p
  }

  lemma ParamsAppend(a: string, b: string)
    requires Params(a) && Params(b)
    ensures Params(a + b)
  {
    assert forall i :: |a| <= i < |a + b| ==> (a + b)[i] == b[i - |a|];
  }

  /** `rgb`: a foreground colour before the text, which the terminal then
      shows unchanged. */
  function Rgb(s: string, r: byte, g: byte, b: byte): (t: string)
    ensures Visible(t) == Visible(s)
    ensures |t| > |s| && t[..|t| - |s|] == Sgr(ColorParams(3, r, g, b)) && t[|t| - |s|..] == s
  {
    ColorKeepsText(s, 3, r, g, b);
    Sgr(ColorParams(3, r, g, b)) + s
  }

  /** `on_rgb`: a background colour before the text. */
  function OnRgb(s: string, r: byte, g: byte, b: byte): (t: string)
    ensures Visible(t) == Visible(s)
    ensures |t| > |s| && t[..|t| - |s|] == Sgr(ColorParams(4, r, g, b)) && t[|t| - |s|..] == s
  {
    ColorKeepsText(s, 4, r, g, b);
    Sgr(ColorParams(4, r, g, b)) + s
  }

  /** `bold`: the bold sequence before the text. */
  function Bold(s: string): (t: string)
    ensures Visible(t) == Visible(s)
    ensures |t| > |s| && t[..|t| - |s|] == BOLD && t[|t| - |s|..] == s
  {
    ConstantsAreSgr();
    VisibleAfterSgr("1", s);
    BOLD + s
  }

  /** `underline`: the underline sequence before the text. */
  function Underline(s: string): (t: string)
    ensures Visible(t) == Visible(s)
    ensures |t| > |s| && t[..|t| - |s|] == UNDERLINE && t[|t| - |s|..] == s
  {
    ConstantsAreSgr();
    VisibleAfterSgr("4", s);
    UNDERLINE + s
  }

  /** `reset`: the reset sequence after the text. */
  function Reset(s: string): (t: string)
    ensures Visible(t) == Visible(s)
    ensures |t| > |s| && t[..|s|] == s && t[|s|..] == RESET
  {
    ConstantsAreSgr();
    VisibleBeforeSgr(s, "0");
    s + RESET
  }

  /** `err`, `success`, `info`: bold, underlined and coloured, then reset.
      Each style call puts its escape outside what it was given, so the
      last one applied comes first: the colour leads and the bold sequence
      sits next to the text. A message with no escapes of its own is shown
      exactly. */
  function Err(s: string): (t: string)
    ensures t == "\U{1B}[38;2;255;75;75m" + UNDERLINE + BOLD + s + RESET
    ensures Visible(t) == Visible(s)
    ensures ESC !in s ==> Visible(t) == s
  {
    PlainShown(s);
    StyledLayout(s, 255, 75, 75);
    ErrColor();
    Reset(Rgb(Underline(Bold(s)), 255, 75, 75))
  }

  function Success(s: string): (t: string)
    ensures t == "\U{1B}[38;2;0;255;94m" + UNDERLINE + BOLD + s + RESET
    ensures Visible(t) == Visible(s)
    ensures ESC !in s ==> Visible(t) == s
  {
    PlainShown(s);
    StyledLayout(s, 0, 255, 94);
    SuccessColor();
    Reset(Rgb(Underline(Bold(s)), 0, 255, 94))
  }

  function Info(s: string): (t: string)
    ensures t == "\U{1B}[38;2;240;105;255m" + UNDERLINE + BOLD + s + RESET
    ensures Visible(t) == Visible(s)
    ensures ESC !in s ==> Visible(t) == s
  {
    PlainShown(s);
    StyledLayout(s, 240, 105, 255);
    InfoColor();
    Reset(Rgb(Underline(Bold(s)), 240, 105, 255))
  }

  /** `log`: coloured, then reset, neither bold nor underlined. */
  function Log(s: string): (t: string)
    ensures t == "\U{1B}[38;2;255;253;194m" + s + RESET
    ensures Visible(t) == Visible(s)
    ensures ESC !in s ==> Visible(t) == s
  {
    PlainShown(s);
    LogColor();
    Reset(Rgb(s, 255, 253, 194))
  }

  lemma PlainShown(s: string)
    ensures ESC !in s ==> Visible(s) == s
  {
    if ESC !in s {
      VisiblePlain(s);
    }
  }

  /** Bold, underline, a colour and a reset, in the order the log styles
      apply them. */
  lemma StyledLayout(s: string, r: byte, g: byte, b: byte)
    ensures Reset(Rgb(Underline(Bold(s)), r, g, b)) == Sgr(ColorParams(3, r, g, b)) + UNDERLINE + BOLD + s + RESET
  {
    var c := Sgr(ColorParams(3, r, g, b));
    assert Reset(Rgb(Underline(Bold(s)), r, g, b)) == c + (UNDERLINE + (BOLD + s)) + RESET;
    assert UNDERLINE + (BOLD + s) == UNDERLINE + BOLD + s;
    AppendRegroup(c, UNDERLINE, BOLD, s);
  }

  lemma ErrColor()
    ensures Sgr(ColorParams(3, 255, 75, 75)) == "\U{1B}[38;2;255;75;75m"
  {
    ForegroundText(255, 75, 75);
    Digits255();
    assert NatToString(75) == "75";
  }

  lemma SuccessColor()
    ensures Sgr(ColorParams(3, 0, 255, 94)) == "\U{1B}[38;2;0;255;94m"
  {
    ForegroundText(0, 255, 94);
    Digits255();
    assert NatToString(0) == "0";
    assert NatToString(94) == "94";
  }

  lemma Digits255()
    ensures NatToString(255) == "255"
  {
    assert NatToString(25) == "25";
  }

  lemma InfoColor()
    ensures Sgr(ColorParams(3, 240, 105, 255)) == "\U{1B}[38;2;240;105;255m"
  {
    ForegroundText(240, 105, 255);
    InfoDigits();
  }

  lemma InfoDigits()
    ensures NatToString(240) == "240" && NatToString(105) == "105" && NatToString(255) == "255"
  {
    assert NatToString(24) == "24";
    assert NatToString(10) == "10";
    Digits255();
  }

  /** A foreground colour sequence spelled out. */
  lemma ForegroundText(r: byte, g: byte, b: byte)
    ensures Sgr(ColorParams(3, r, g, b)) ==
      "\U{1B}[38;2;" + NatToString(r) + ";" + NatToString(g) + ";" + NatToString(b) + "m"
  {
    var sr, sg, sb := NatToString(r), NatToString(g), NatToString(b);
    var x, q := [ESC] + "[", NatToString(3) + "8;2;";
    assert NatToString(3) == "3";
    assert x + q == "\U{1B}[38;2;";
    Flatten(x, q, sr, ";", sg, ";", sb);
  }

  /** A prefix in front of a left-nested concatenation joins the nest. */
  lemma Flatten<T>(x: seq<T>, q: seq<T>, a: seq<T>, b: seq<T>, c: seq<T>, d: seq<T>, e: seq<T>)
    ensures x + (q + a + b + c + d + e) == x + q + a + b + c + d + e
  {
    assert x + (q + a + b + c + d + e) == x + (q + a + b + c + d) + e;
    assert x + (q + a + b + c + d) == x + (q + a + b + c) + d;
    assert x + (q + a + b + c) == x + (q + a + b) + c;
    assert x + (q + a + b) == x + (q + a) + b;
  }


  lemma LogColor()
    ensures Sgr(ColorParams(3, 255, 253, 194)) == "\U{1B}[38;2;255;253;194m"
  {
    ForegroundText(255, 253, 194);
    Digits255();
    LogDigits();
  }

  lemma LogDigits()
    ensures NatToString(253) == "253" && NatToString(194) == "194"
  {
    assert NatToString(25) == "25";
    assert NatToString(19) == "19";
  }


  /** Each piece parses as a `u8` to the number at the same place. */
  predicate ParsesTo(pieces: seq<string>, values: seq<int>) {
    && |pieces| == |values|
    && forall i :: 0 <= i < |pieces| ==> ParseRadix(pieces[i], 10, 0, 255) == Some(values[i])
  }

  /** The parameters of a colour, split at `;` and parsed as `u8`s the way
      a terminal reads them, give back the layer (`38` foreground, `48`
      background), the 24-bit mode `2`, and the three channels. */
  lemma ColorParamsReadBack(layer: nat, r: byte, g: byte, b: byte)
    requires 1 <= layer <= 9
    ensures ParsesTo(Split(ColorParams(layer, r, g, b), ';'), [10 * layer + 8, 2, r, g, b])
  {
    var values: seq<byte> := [10 * layer + 8, 2, r, g, b];
    ColorParamsPieces(layer, r, g, b);
    DecimalsReadBack(values);
  }

  /** Each number written in decimal. */
  function Decimals(values: seq<byte>): (pieces: seq<string>)
    ensures |pieces| == |values|
    ensures forall i :: 0 <= i < |values| ==> pieces[i] == NatToString(values[i])
  {
    seq(|values|, i requires 0 <= i < |values| => NatToString(values[i]))
  }

  /** Numbers written in decimal parse back as `u8`s. */
  lemma DecimalsReadBack(values: seq<byte>)
    ensures ParsesTo(Decimals(values), values)
  {
    forall i | 0 <= i < |values|
      ensures ParseRadix(Decimals(values)[i], 10, 0, 255) == Some(values[i] as int)
    {
      NatToStringRoundTrip(values[i], 255);
    }
  }

  /** The `;`-separated pieces of a colour's parameters. */
  lemma ColorParamsPieces(layer: nat, r: byte, g: byte, b: byte)
    requires 1 <= layer <= 9
    ensures Split(ColorParams(layer, r, g, b), ';') == Decimals([10 * layer + 8, 2, r, g, b])
  {
    var fg, two, rs, gs, bs := NatToString(10 * layer + 8), NatToString(2), NatToString(r), NatToString(g), NatToString(b);
    var p := [fg, two, rs, gs, bs];
    assert Decimals([10 * layer + 8, 2, r, g, b]) == p by {
      FiveDecimals(10 * layer + 8, 2, r, g, b);
    }
    assert Join(p, ';') == ColorParams(layer, r, g, b) by {
      LayerText(layer);
      assert two == "2";
      ColorParamsShape(layer, r, g, b);
      JoinFive(fg, two, rs, gs, bs);
    }
    assert forall i :: 0 <= i < |p| ==> ';' !in p[i] by {
      DigitsHaveNoSemicolon(fg);
      DigitsHaveNoSemicolon(two);
      DigitsHaveNoSemicolon(rs);
      DigitsHaveNoSemicolon(gs);
      DigitsHaveNoSemicolon(bs);
    }
    JoinSplit(p, ';');
  }

  lemma FiveDecimals(a: byte, b: byte, c: byte, d: byte, e: byte)
    ensures Decimals([a, b, c, d, e]) == [NatToString(a), NatToString(b), NatToString(c), NatToString(d), NatToString(e)]
  {
  }


  /** Five pieces joined by `;`, written out. */
  lemma JoinFive(a: string, b: string, c: string, d: string, e: string)
    ensures Join([a, b, c, d, e], ';') == a + [';'] + (b + [';'] + (c + [';'] + (d + [';'] + e)))
  {
    assert Join([d, e], ';') == d + [';'] + e by { assert [d, e][1..] == [e]; }
    assert Join([c, d, e], ';') == c + [';'] + Join([d, e], ';') by { assert [c, d, e][1..] == [d, e]; }
    assert Join([b, c, d, e], ';') == b + [';'] + Join([c, d, e], ';') by { assert [b, c, d, e][1..] == [c, d, e]; }
    assert [a, b, c, d, e][1..] == [b, c, d, e];
  }

  /** `38` and `48` are the layer digit followed by `8`. */
  lemma LayerText(layer: nat)
    requires 1 <= layer <= 9
    ensures NatToString(10 * layer + 8) == NatToString(layer) + "8"
  {
    var n := 10 * layer + 8;
    assert n / 10 == layer && n % 10 == 8;
  }

  lemma ColorParamsShape(layer: nat, r: byte, g: byte, b: byte)
    ensures ColorParams(layer, r, g, b) ==
      (NatToString(layer) + "8") + [';'] + ("2" + [';'] + (NatToString(r) + [';'] + (NatToString(g) + [';'] + NatToString(b))))
  {
  }

  lemma DigitsHaveNoSemicolon(s: string)
    requires AllDigits(s, 10)
    ensures ';' !in s
  {
    forall i | 0 <= i < |s| ensures s[i] != ';' {
      assert DigitValue(s[i], 10).Some?;
    }
  }

  // ---------------------------------------------------------------------
  // The text a terminal shows
  // ---------------------------------------------------------------------

  /** What a terminal prints for `t`: every escape sequence, from `ESC` to
      the next `m`, is removed; an escape with no `m` hides the rest. */
  function Visible(t: string): (v: string)
    ensures |v| <= |t|
    decreases |t|
  {
    if |t| == 0 then []
    else if t[0] == ESC then
      match Find(t, 'm')
      case None => []
      case Some(i) => Visible(t[i + 1..])
    else [t[0]] + Visible(t[1..])
  }

  /** Text without escapes is shown as it is. */
  lemma {:induction false} VisiblePlain(s: string)
    requires ESC !in s
    ensures Visible(s) == s
    decreases |s|
  {
    if |s| > 0 {
      assert ESC !in s[1..];
      VisiblePlain(s[1..]);
    }
  }

  /** An escape sequence in front is not shown. */
  lemma VisibleAfterSgr(params: string, t: string)
    requires Params(params)
    ensures Visible(Sgr(params) + t) == Visible(t)
  {
    var u := Sgr(params) + t;
    var m := |params| + 2;
    assert u[m] == 'm';
    assert forall k :: 0 <= k < m ==> u[k] != 'm';
    assert 'm' !in u[..m];
    assert Find(u, 'm') == Some(m) by {
      FindAt(u, 'm', m);
    }
    assert u[m + 1..] == t;
  }

  /** An escape sequence at the end is not shown, and it does not show
      anything an unfinished escape before it was hiding. */
  lemma {:induction false} VisibleBeforeSgr(s: string, params: string)
    requires Params(params)
    ensures Visible(s + Sgr(params)) == Visible(s)
    decreases |s|
  {
    var e := Sgr(params);
    var u := s + e;
    if |s| == 0 {
      assert u == e + [];
      VisibleAfterSgr(params, []);
    } else if s[0] == ESC {
      match Find(s, 'm')
      case Some(i) =>
        assert u[..i] == s[..i];
        FindAt(u, 'm', i);
        assert u[i + 1..] == s[i + 1..] + e;
        VisibleBeforeSgr(s[i + 1..], params);
      case None =>
        UnfinishedBeforeSgr(s, params);
    } else {
      assert u[1..] == s[1..] + e;
      VisibleBeforeSgr(s[1..], params);
    }
  }

  /** An unfinished escape runs up to the `m` of the sequence after it, so
      nothing is shown. */
  lemma UnfinishedBeforeSgr(s: string, params: string)
    requires Params(params) && |s| > 0 && s[0] == ESC && 'm' !in s
    ensures Visible(s + Sgr(params)) == []
  {
    var head := [ESC] + "[" + params;
    var u := s + Sgr(params);
    var m := |s| + |head|;
    assert 'm' !in head by {
      assert forall k :: 0 <= k < |params| ==> head[k + 2] == params[k];
    }
    assert u == (s + head) + "m";
    assert u[..m] == s + head;
    assert u[m] == 'm';
    FindAt(u, 'm', m);
    assert u[m + 1..] == [];
  }

  lemma ColorKeepsText(s: string, layer: nat, r: byte, g: byte, b: byte)
    requires layer < 10
    ensures Visible(Sgr(ColorParams(layer, r, g, b)) + s) == Visible(s)
  {
    VisibleAfterSgr(ColorParams(layer, r, g, b), s);
  }
}

=== FILE: asset.dfy ===
/** Content types by file extension, as `src/http/asset.rs` looks them up
    for static files. Opening and reading the file are left out. */
module Asset {
  import opened Wrappers
  import opened RustStr

  /** `PARTIAL_CONTENT_SIZE` and `ASSET_CHUNK_SIZE`, in bytes. */
  const PARTIAL_CONTENT_SIZE: nat := 25 * 1024 * 1024
  const ASSET_CHUNK_SIZE: nat := 512 * 1024

  const OCTET_STREAM: string := "application/octet-stream"

  /** `CONTENT_TYPES.get(ext)`: the table of 60 extensions, each a `.`
      followed by lower-case letters and digits. */
  function ContentTypeOf(ext: string): Option<string> {
    match ext
    case ".html" => Some("text/html")
    case ".css" => Some("text/css")
    case ".js" => Some("application/javascript")
    case ".ico" => Some("image/x-icon")
    case ".jpg" => Some("image/jpeg")
    case ".jpeg" => Some("image/jpeg")
    case ".png" => Some("image/png")
    case ".gif" => Some("image/gif")
    case ".mp4" => Some("video/mp4")
    case ".mov" => Some("video/quicktime")
    case ".pdf" => Some("application/pdf")
    case ".txt" => Some("text/plain")
    case ".xml" => Some("application/xml")
    case ".json" => Some("application/json")
    case ".csv" => Some("text/csv")
    case ".svg" => Some("image/svg+xml")
    case ".mp3" => Some("audio/mpeg")
    case ".wav" => Some("audio/wav")
    case ".zip" => Some("application/zip")
    case ".tar" => Some("application/x-tar")
    case ".gz" => Some("application/gzip")
    case ".gzip" => Some("application/gzip")
    case ".ogg" => Some("audio/ogg")
    case ".woff" => Some("font/woff")
    case ".woff2" => Some("font/woff2")
    case ".eot" => Some("application/vnd.ms-fontobject")
    case ".ttf" => Some("font/ttf")
    case ".otf" => Some("font/otf")
    case ".webp" => Some("image/webp")
    case ".avi" => Some("video/x-msvideo")
    case ".flv" => Some("video/x-flv")
    case ".wmv" => Some("video/x-ms-wmv")
    case ".mkv" => Some("video/x-matroska")
    case ".3gp" => Some("video/3gpp")
    case ".3g2" => Some("video/3gpp2")
    case ".ogv" => Some("video/ogg")
    case ".webm" => Some("video/webm")
    case ".mpg" => Some("video/mpeg")
    case ".mpeg" => Some("video/mpeg")
    case ".m4v" => Some("video/x-m4v")
    case ".mng" => Some("video/x-mng")
    case ".mpv" => Some("video/x-matroska")
    case ".ts" => Some("video/mp2t")
    case ".asf" => Some("video/x-ms-asf")
    case ".asx" => Some("video/x-ms-asf")
    case ".vob" => Some("video/dvd")
    case ".m2ts" => Some("video/MP2T")
    case ".divx" => Some("video/divx")
    case ".xvid" => Some("video/x-xvid")
    case ".rm" => Some("application/vnd.rn-realmedia")
    case ".rmvb" => Some("application/vnd.rn-realmedia-vbr")
    case ".f4v" => Some("video/x-f4v")
    case ".mpeg4" => Some("video/mp4")
    case ".mp4v" => Some("video/mp4")
    case ".3gpp" => Some("video/3gpp")
    case ".mj2" => Some("video/mj2")
    case ".mk3d" => Some("video/x-matroska-3d")
    case ".mks" => Some("video/x-matroska")
    case ".h264" => Some("video/h264")
    case ".h265" => Some("video/h265")
    case _ => None
  }

  /** The text from the last `.` on, lower-cased. */
  function Extension(filepath: string): (ext: Option<string>)
    ensures ext.None? <==> '.' !in filepath
    ensures ext.Some? ==> |ext.value| >= 1 && ext.value[0] == '.' && '.' !in ext.value[1..]
  {
    match RFind(filepath, '.')
    case None => None
    case Some(index) =>
      LowerTailKeepsDot(filepath, index);
      Some(AsciiLower(filepath)[index..])
  }

  /** Lower-casing the text from the last `.` on keeps exactly one `.`, at
      its start. */
  lemma LowerTailKeepsDot(s: string, index: nat)
    requires index < |s| && s[index] == '.' && '.' !in s[index + 1..]
    ensures var ext := AsciiLower(s)[index..]; |ext| >= 1 && ext[0] == '.' && '.' !in ext[1..]
  {
    var lower := AsciiLower(s);
    var ext := lower[index..];
    forall k | 1 <= k < |ext|
      ensures ext[k] != '.'
    {
      assert ext[k] == lower[index + k];
      assert s[index + k] == s[index + 1..][k - 1];
    }
  }

  /** `get_content_type`: the extension is looked up; a path without a `.`
      or with an unknown extension is `application/octet-stream`. */
  function GetContentType(filepath: string): (r: string)
    ensures '.' !in filepath ==> r == OCTET_STREAM
    ensures r == OCTET_STREAM || exists ext :: ContentTypeOf(ext) == Some(r)
  {
    match Extension(filepath)
    case None => OCTET_STREAM
    case Some(ext) => ContentTypeOf(ext).UnwrapOr(OCTET_STREAM)
  }

  /** The last `.` of a string is where `RFind` finds it. */
  lemma RFindAt(s: string, c: char, i: nat)
    requires i < |s| && s[i] == c && c !in s[i + 1..]
    ensures RFind(s, c) == Some(i)
  {
    var j := RFind(s, c).value;
    assert forall k :: j < k < |s| ==> s[k] == s[j + 1..][k - j - 1];
    assert forall k :: i < k < |s| ==> s[k] == s[i + 1..][k - i - 1];
  }

  /** Lower-casing keeps every `.` where it was. */
  lemma RFindDotLower(s: string)
    ensures RFind(AsciiLower(s), '.') == RFind(s, '.')
  {
    var lower := AsciiLower(s);
    match RFind(s, '.')
    case None =>
      assert forall i :: 0 <= i < |lower| ==> lower[i] != '.';
    case Some(i) =>
      assert forall k :: i + 1 <= k < |s| ==> s[k] == s[i + 1..][k - i - 1];
      RFindAt(lower, '.', i);
  }

  /** The lookup ignores the case of ASCII letters, in the extension and
      everywhere else in the path. */
  lemma CaseInsensitive(filepath: string)
    ensures Extension(AsciiLower(filepath)) == Extension(filepath)
    ensures GetContentType(AsciiLower(filepath)) == GetContentType(filepath)
  {
    RFindDotLower(filepath);
    AsciiLowerIdempotent(filepath);
  }

  /** A path is its stem and its extension: the extension is found however
      many `.`s the stem has. */
  lemma ExtensionOfStem(stem: string, ext: string)
    requires |ext| >= 1 && ext[0] == '.' && '.' !in ext[1..]
    ensures Extension(stem + ext) == Some(AsciiLower(ext))
  {
    var path := stem + ext;
    assert path[|stem| + 1..] == ext[1..];
    RFindAt(path, '.', |stem|);
    AsciiLowerAppend(stem, ext);
    assert (AsciiLower(stem) + AsciiLower(ext))[|stem|..] == AsciiLower(ext);
  }

  /** The content type depends on the extension alone, lower-cased. */
  lemma ByExtension(stem: string, ext: string)
    requires |ext| >= 1 && ext[0] == '.' && '.' !in ext[1..]
    ensures GetContentType(stem + ext) == ContentTypeOf(AsciiLower(ext)).UnwrapOr(OCTET_STREAM)
  {
    ExtensionOfStem(stem, ext);
  }

  /** Matroska is listed under three extensions. */
  lemma MatroskaEntries()
    ensures ContentTypeOf(".mkv") == Some("video/x-matroska")
    ensures ContentTypeOf(".mpv") == Some("video/x-matroska")
    ensures ContentTypeOf(".mks") == Some("video/x-matroska")
  {
  }

  /** The two transport-stream extensions give types that differ in case. */
  lemma TransportStreamEntries()
    ensures ContentTypeOf(".ts") == Some("video/mp2t")
    ensures ContentTypeOf(".m2ts") == Some("video/MP2T")
  {
  }

  /** Keys are lower case and start with a `.`. */
  lemma KeysAreLowerCase()
    ensures ContentTypeOf(".MKV") == None
    ensures ContentTypeOf("mkv") == None
  {
  }

  /** An upper-case extension after a stem with other `.`s finds its type. */
  lemma UpperCaseExample()
    ensures GetContentType("movies/Clip.Final.MKV") == "video/x-matroska"
  {
    assert "movies/Clip.Final.MKV" == "movies/Clip.Final" + ".MKV";
    ByExtension("movies/Clip.Final", ".MKV");
    assert AsciiLower(".MKV") == ".mkv";
    MatroskaEntries();
  }

  /** A `.` in a directory name is taken for the start of an extension, and
      none of the table's keys matches what follows it. */
  lemma DirectoryDotExample()
    ensures GetContentType("media.d/README") == OCTET_STREAM
  {
    assert "media.d/README" == "media" + ".d/README";
    ByExtension("media", ".d/README");
    LowerDirectoryName();
    UnknownKey();
  }

  lemma LowerDirectoryName()
    ensures AsciiLower(".d/README") == ".d/readme"
  {
  }

  lemma UnknownKey()
    ensures ContentTypeOf(".d/readme") == None
  {
  }

  /** A name without a `.` has no type of its own. */
  lemma NoDotExample()
    ensures GetContentType("README") == OCTET_STREAM
  {
    assert '.' !in "README";
  }
}

=== FILE: avcodec.dfy ===
/** `src/rumpeg/avcodec.rs`: opening a decoder for a stream and settling
    the pixel format its frames will be read in. FFmpeg's enumerations are
    kept symbolic; only the members the code names are spelled out. */
module AvCodec {
  import opened Wrappers
  import opened Rumpeg

  /** `AVPixelFormat`. `OtherFormat(id)` stands for every format the code
      does not name, and its `id` is never the value of a named member, so
      each format has exactly one representation. */
  datatype PixelFormat =
    | NONE
    | YUV420P | YUV422P | YUV444P | YUV440P | YUV411P
    | YUVJ420P | YUVJ422P | YUVJ444P | YUVJ440P | YUVJ411P
    | RGB24
    | OtherFormat(id: int)

  /** The deprecated full-range ("J") formats. */
  predicate IsFullRange(f: PixelFormat) {
    f.YUVJ420P? || f.YUVJ422P? || f.YUVJ444P? || f.YUVJ440P? || f.YUVJ411P?
  }

  /** `AVCodecID`. As with pixel formats, `OtherCodec(id)` covers only the
      ids of codecs the code does not name. */
  datatype CodecId = H264 | HEVC | MPEG2VIDEO | VP9 | AV1 | VP8 | OtherCodec(id: int)

  /** The codecs whose missing pixel format is taken to be YUV 4:2:0. */
  predicate DefaultsToYuv420(c: CodecId) {
    !c.OtherCodec?
  }

  /** The format of a context whose `pix_fmt` is `NONE` is inferred from the
      codec; an explicit format is kept. */
  function InferFormat(pixFmt: PixelFormat, codec: CodecId): (r: Result<PixelFormat, RumpegError>)
    ensures pixFmt != NONE ==> r == Ok(pixFmt)
    ensures pixFmt == NONE && DefaultsToYuv420(codec) ==> r == Ok(YUV420P)
    ensures pixFmt == NONE && !DefaultsToYuv420(codec) ==> r == Err(PixelFormatMissing(codec.id))
  {
    if pixFmt == NONE then
      match codec
      case OtherCodec(id) => Err(PixelFormatMissing(id))
      case _ => Ok(YUV420P)
    else Ok(pixFmt)
  }

  /** The full-range counterpart of a standard YUV format. */
  function FullRange(f: PixelFormat): (r: PixelFormat)
    requires f in {YUV420P, YUV422P, YUV444P, YUV440P, YUV411P}
    ensures IsFullRange(r)
  {
    match f
    case YUV420P => YUVJ420P
    case YUV422P => YUVJ422P
    case YUV444P => YUVJ444P
    case YUV440P => YUVJ440P
    case YUV411P => YUVJ411P
  }

  /** The deprecated formats are replaced by their standard counterparts;
      every other format passes through. */
  function Normalize(f: PixelFormat): (r: PixelFormat)
    ensures !IsFullRange(r)
    ensures !IsFullRange(f) ==> r == f
  {
    match f
    case YUVJ420P => YUV420P
    case YUVJ422P => YUV422P
    case YUVJ444P => YUV444P
    case YUVJ440P => YUV440P
    case YUVJ411P => YUV411P
    case _ => f
  }

  /** `Normalize` undoes `FullRange`, so each J format maps to its own
      counterpart and no two J formats collapse. */
  lemma NormalizeFullRange(f: PixelFormat)
    requires f in {YUV420P, YUV422P, YUV444P, YUV440P, YUV411P}
    ensures Normalize(FullRange(f)) == f
  {
  }

  lemma NormalizeIdempotent(f: PixelFormat)
    ensures Normalize(Normalize(f)) == Normalize(f)
  {
  }

  /** What FFmpeg reports while the context is set up: whether a decoder
      exists, whether the context was allocated, the codes of
      `avcodec_parameters_to_context` and `avcodec_open2`, and the opened
      context's `pix_fmt` and codec. */
  datatype CodecOpen = CodecOpen(decoderFound: bool, contextAllocated: bool, parametersCode: int,
                                 openCode: int, pixFmt: PixelFormat, codec: CodecId)

  /** `AVCodecContext::new`, reduced to the format it settles on: the four
      native steps are checked in order, the first failure is the error;
      then the format is inferred and normalised. */
  function NewCodecContext(o: CodecOpen): (r: Result<PixelFormat, RumpegError>)
    ensures !o.decoderFound ==> r == Err(DecoderMissing)
    ensures o.decoderFound && !o.contextAllocated ==> r == Err(AVCodecContextAllocFail)
    ensures o.decoderFound && o.contextAllocated && o.parametersCode < 0 ==>
      r == Err(AVError("Could not get AVCodecContext from codec parameters", o.parametersCode))
    ensures o.decoderFound && o.contextAllocated && o.parametersCode >= 0 && o.openCode < 0 ==>
      r == Err(AVError("Could not open AVCodec", o.openCode))
    ensures o.decoderFound && o.contextAllocated && o.parametersCode >= 0 && o.openCode >= 0 ==>
      r == match InferFormat(o.pixFmt, o.codec)
        case Ok(f) => Ok(Normalize(f))
        case Err(e) => Err(e)
    ensures r.Ok? ==> !IsFullRange(r.value)
  {
    if !o.decoderFound then Err(DecoderMissing)
    else if !o.contextAllocated then Err(AVCodecContextAllocFail)
    else if o.parametersCode < 0 then
      Err(AVError("Could not get AVCodecContext from codec parameters", o.parametersCode))
    else if o.openCode < 0 then Err(AVError("Could not open AVCodec", o.openCode))
    else
      var format :- InferFormat(o.pixFmt, o.codec);
      Ok(Normalize(format))
  }

  /** A stream whose decoder reports no format but is one of the six
      common video codecs is read as YUV 4:2:0. */
  lemma NewCodecContextDefault(o: CodecOpen)
    requires o.decoderFound && o.contextAllocated && o.parametersCode >= 0 && o.openCode >= 0
    requires o.pixFmt == NONE && o.codec in {H264, HEVC, MPEG2VIDEO, VP9, AV1, VP8}
    ensures NewCodecContext(o) == Ok(YUV420P)
  {
  }
}

=== FILE: avformat.dfy ===
/** `src/rumpeg/avformat.rs`: the time position a video is sought to
    (`SeekPosition`: whole seconds or a fraction of the duration), its
    text syntax, its addition, and how `AVFormatContext::seek` turns it
    into the timestamp it hands to FFmpeg. */
module AvFormat {
  import opened Wrappers
  import opened RustStr
  import opened RustNum
  import opened Rumpeg

  /** `Percentage` holds a fraction (`"50%"` is `Percentage(0.5)`). */
  datatype SeekPosition = Seconds(n: int) | Percentage(fraction: real)

  /** The boxed error of `from_str`: which of the two number parsers
      failed. */
  datatype SeekParseError = ParseIntError | ParseFloatError

  /** `SeekPosition::from_str`: a trailing `s` is stripped first and the
      rest must be an `i64`; otherwise a trailing `%` is stripped and the
      rest must be an `f64`, divided by 100; otherwise the whole string must
      be an `i64`. */
  function FromStr(s: string): (r: Result<SeekPosition, SeekParseError>)
    ensures r.Ok? && r.value.Seconds? ==> I64_MIN <= r.value.n <= I64_MAX
    ensures r.Ok? && r.value.Percentage? ==> |s| >= 2 && s[|s| - 1] == '%'
    ensures |s| > 0 && s[|s| - 1] == 's' && r.Ok? ==> r.value.Seconds?
    ensures |s| == 0 ==> r == Err(ParseIntError)
  {
    match StripSuffix(s, 's')
    case Some(body) =>
      (match ParseI64(body)
       case Some(n) => Ok(Seconds(n))
       case None => Err(ParseIntError))
    case None =>
      match StripSuffix(s, '%')
      case Some(body) =>
        (match ParseFloat(body)
         case Some(x) => Ok(Percentage(x / 100.0))
         case None => Err(ParseFloatError))
      case None =>
        match ParseI64(s)
        case Some(n) => Ok(Seconds(n))
        case None => Err(ParseIntError)
  }

  /** `str::parse::<SeekPosition>().ok()`, as the argument readers use it. */
  function FromStrOk(s: string): (r: Option<SeekPosition>)
    ensures r.Some? <==> FromStr(s).Ok?
    ensures r.Some? ==> r.value == FromStr(s).value
  {
    FromStr(s).ToOption()
  }

  /** The unit `s` is optional: `"5s"` and `"5"` both give five seconds,
      for every `i64` value. */
  lemma SecondsSuffixOptional(n: int)
    requires I64_MIN <= n <= I64_MAX
    ensures FromStr(IntToString(n) + "s") == Ok(Seconds(n))
    ensures FromStr(IntToString(n)) == Ok(Seconds(n))
  {
    var t := IntToString(n);
    IntToStringRoundTrip(n, I64_MIN, I64_MAX);
    assert (t + "s")[..|t + "s"| - 1] == t;
  }

  /** There is no millisecond unit: `"10ms"` is stripped to `"10m"`, which
      is not an integer. */
  lemma NoMillisecondUnit(s: string)
    ensures FromStr(s + "ms") == Err(ParseIntError)
  {
    var body := s + "m";
    assert (s + "ms")[..|s + "ms"| - 1] == body;
    ParseRadixNonDigitEnd(body, 10, I64_MIN, I64_MAX);
  }

  /** `"X%"` is the fraction X / 100. */
  lemma PercentOfNat(n: nat)
    ensures FromStr(NatToString(n) + "%") == Ok(Percentage(n as real / 100.0))
  {
    var t := NatToString(n);
    ParseFloatNat(n);
    assert (t + "%")[..|t + "%"| - 1] == t;
  }

  /** A `%` followed by `s` takes the seconds branch, whose body ends in
      `%` and so is not an integer: `"5%s"` fails. */
  lemma PercentThenSecondsFails(s: string)
    ensures FromStr(s + "%s") == Err(ParseIntError)
  {
    var body := s + "%";
    assert (s + "%s")[..|s + "%s"| - 1] == body;
    ParseRadixNonDigitEnd(body, 10, I64_MIN, I64_MAX);
  }

  /** `f64 as i64`: truncation toward zero, saturating at the `i64` bounds. */
  function F64ToI64(x: real): (r: int)
    ensures I64_MIN <= r <= I64_MAX
  {
    Saturate(TruncReal(x), I64_MIN, I64_MAX)
  }

  /** `SeekPosition + SeekPosition`: like kinds add; mixing seconds `a` with
      a fraction `b` scales the seconds by `1 + b` and truncates, in either
      order, and always gives seconds. */
  function Add(x: SeekPosition, y: SeekPosition): (r: SeekPosition)
    ensures r.Percentage? <==> x.Percentage? && y.Percentage?
    ensures x.Seconds? && y.Seconds? ==> r.n == x.n + y.n
    ensures x.Percentage? && y.Percentage? ==> r.fraction == x.fraction + y.fraction
    ensures x.Seconds? && y.Percentage? ==> r.n == F64ToI64(Grow(x.n, y.fraction))
    ensures x.Percentage? && y.Seconds? ==> r.n == F64ToI64(Grow(y.n, x.fraction))
  {
    match (x, y)
    case (Seconds(a), Seconds(b)) => Seconds(a + b)
    case (Percentage(a), Percentage(b)) => Percentage(a + b)
    case (Seconds(a), Percentage(b)) => Seconds(F64ToI64(Grow(a, b)))
    case (Percentage(a), Seconds(b)) => Seconds(F64ToI64(Grow(b, a)))
  }

  /** `a as f64 + b * a as f64`, the mixed sum, in exact arithmetic. */
  function Grow(a: int, b: real): (r: real)
    ensures r == a as real * (1.0 + b)
  {
    a as real + b * a as real
  }

  /** The order of the operands never matters, mixed kinds included. */
  lemma AddCommutative(x: SeekPosition, y: SeekPosition)
    ensures Add(x, y) == Add(y, x)
  {
  }

  /** Adding a zero fraction to an `i64` number of seconds keeps it, in
      exact arithmetic. In `f64` the cast `a as f64` rounds `a` once |a|
      exceeds 2^53, so the source keeps `a` only up to there. */
  lemma AddZeroFraction(a: int)
    requires I64_MIN <= a <= I64_MAX
    ensures Add(Seconds(a), Percentage(0.0)) == Seconds(a)
  {
  }

  /** `p += q`: `p` becomes `p + q`. */
  method AddAssign(p: SeekPosition, q: SeekPosition) returns (p': SeekPosition)
    ensures p' == Add(p, q)
  {
    var result := Add(p, q);
    p' := result;
  }

  /** `SeekPosition::default()`: zero seconds, which adding seconds leaves
      unchanged. */
  function Default(): (d: SeekPosition)
    ensures d.Seconds?
  {
    Seconds(0)
  }

  /** The default is a neutral element for seconds, on either side. */
  lemma DefaultAddsNothing(n: int)
    ensures Add(Default(), Seconds(n)) == Seconds(n)
    ensures Add(Seconds(n), Default()) == Seconds(n)
  {
  }

  /** `AV_TIME_BASE`: FFmpeg's internal timestamps count microseconds. */
  const AV_TIME_BASE: int := 1_000_000

  const AVSEEK_FLAG_FRAME: int := 8

  /** `av_rescale_q(n, 1/1, 1/AV_TIME_BASE)`: `n * AV_TIME_BASE`, which
      needs no rounding; libavutil's `av_rescale_rnd` answers `INT64_MIN`
      when that product does not fit in an `int64_t`, on either side. */
  function RescaleSeconds(n: int): (t: int)
    ensures I64_MIN <= t <= I64_MAX
    ensures t != I64_MIN ==> t == n * AV_TIME_BASE
  {
    if I64_MIN <= n * AV_TIME_BASE <= I64_MAX then n * AV_TIME_BASE else I64_MIN
  }

  /** Whole seconds up to 9 223 372 036 854 in size rescale exactly, and
      one second more is the overflow answer, the same as a seek to the
      earliest possible timestamp. */
  lemma RescaleSecondsRange(n: int)
    ensures -9_223_372_036_854 <= n <= 9_223_372_036_854 ==>
      RescaleSeconds(n) == n * AV_TIME_BASE && RescaleSeconds(n) / AV_TIME_BASE == n
    ensures (n > 9_223_372_036_854 || n < -9_223_372_036_854) ==> RescaleSeconds(n) == I64_MIN
  {
  }

  /** The timestamp `seek` asks for: seconds rescaled from time base 1/1 to
      1/`AV_TIME_BASE` by `av_rescale_q`, or the fraction of the duration
      cast to `i64`; either way an `i64`. */
  function SeekTimestamp(pos: SeekPosition, duration: int): (t: int)
    ensures I64_MIN <= t <= I64_MAX
    ensures pos.Seconds? ==> t == RescaleSeconds(pos.n)
    ensures pos.Percentage? ==> t == F64ToI64(duration as real * pos.fraction)
  {
    match pos
    case Seconds(n) => RescaleSeconds(n)
    case Percentage(f) => F64ToI64(duration as real * f)
  }

  /** `AVFormatContext::seek`: one `av_seek_frame(ctx, -1, timestamp,
      AVSEEK_FLAG_FRAME)` call, whose result is the parameter `seekFrame`;
      a non-negative code is success, any other is an `AVError` carrying
      that code. */
  function Seek(pos: SeekPosition, duration: int, seekFrame: (int, int, int) -> int)
    : (r: Result<(), RumpegError>)
    ensures var t := SeekTimestamp(pos, duration);
      var code := seekFrame(-1, t, AVSEEK_FLAG_FRAME);
      && (r.Ok? <==> code >= 0)
      && (r.Err? ==> r.error.AVError? && r.error.code == code)
  {
    var t := SeekTimestamp(pos, duration);
    var code := seekFrame(-1, t, AVSEEK_FLAG_FRAME);
    if code >= 0 then Ok(())
    else Err(AVError("Failed to seek to " + IntToString(t) + " of " + IntToString(duration), code))
  }
}

=== FILE: avframe.dfy ===
/** `src/rumpeg/avframe.rs`: a decoded RGB frame (plane 0 only), its
    allocation steps, and `AVFrame::transform`, which remaps pixels through a
    display matrix into a new frame of swapped dimensions. */
module AvFrame {
  import opened Wrappers
  import opened RustNum
  import opened Math
  import opened Rumpeg
  import opened AvCodec

  /** `PX_BYTES`: bytes per RGB24 pixel. */
  const PX_BYTES: nat := 3

  /** An `AVFrame` as the model sees it: format, size, the line size of
      plane 0 and the bytes of plane 0. */
  datatype Frame = Frame(format: PixelFormat, width: int, height: int, linesize: nat, plane: seq<byte>) {
    predicate Valid() {
      height >= 0 && |plane| == linesize * height
    }
  }

  /** `data()` / `data_mut()`: the plane-0 view, `linesize[0] * height`
      bytes long. */
  function Data(f: Frame): (view: seq<byte>)
    requires f.Valid()
    ensures |view| == f.linesize * f.height
  {
    f.plane
  }

  /** Writing a whole plane-0 view back through `data_mut()`. */
  function WithData(f: Frame, view: seq<byte>): (r: Frame)
    requires f.Valid() && |view| == f.linesize * f.height
    ensures r.Valid()
    ensures r.format == f.format && r.width == f.width && r.height == f.height && r.linesize == f.linesize
  {
    f.(plane := view)
  }

  /** The view reads back what was written, and writing the view it
      already has changes nothing. */
  lemma DataWithData(f: Frame, view: seq<byte>)
    requires f.Valid() && |view| == f.linesize * f.height
    ensures Data(WithData(f, view)) == view
    ensures WithData(f, Data(f)) == f
  {
  }

  /** What FFmpeg and the C allocator return while `AVFrame::new` runs:
      whether `av_frame_alloc` gave a frame, the code of
      `av_frame_get_buffer`, the size `av_image_get_buffer_size` reports,
      and the line size and initial bytes `av_image_fill_arrays` sets up. */
  datatype FrameAlloc = FrameAlloc(frameAllocated: bool, bufferCode: int, imageSize: int,
                                   linesize: nat, initial: seq<byte>)

  /** `AVFrame::new(format, width, height)`: fails at the first step that
      fails, in order (frame, buffer, image size); otherwise the frame has the
      requested format and size and the allocated plane. */
  function NewFrame(format: PixelFormat, width: int, height: int, alloc: FrameAlloc): (r: Result<Frame, RumpegError>)
    requires height >= 0 && |alloc.initial| == alloc.linesize * height
    ensures !alloc.frameAllocated ==> r == Err(AVFrameCreation)
    ensures alloc.frameAllocated && alloc.bufferCode < 0 ==> r.Err? && r.error.AVError? && r.error.code == alloc.bufferCode
    ensures alloc.frameAllocated && alloc.bufferCode >= 0 && alloc.imageSize < 0 ==>
      r == Err(AVError("Failed to allocated ImageBuffer", alloc.imageSize))
    ensures r.Ok? <==> alloc.frameAllocated && alloc.bufferCode >= 0 && alloc.imageSize >= 0
    ensures r.Ok? ==> (r.value.Valid() && r.value.format == format && r.value.width == width
                       && r.value.height == height && Data(r.value) == alloc.initial)
  {
    if !alloc.frameAllocated then Err(AVFrameCreation)
    else if alloc.bufferCode < 0 then
      Err(AVError("Failed to allocate frame", alloc.bufferCode))
    else if alloc.imageSize < 0 then Err(AVError("Failed to allocated ImageBuffer", alloc.imageSize))
    else Ok(Frame(format, width, height, alloc.linesize, alloc.initial))
  }

  /** One run of the remap loop: the matrix, the source width, the width of
      the destination (the source height), and the source bytes. */
  datatype Remap = Remap(m: Matrix3x3, srcWidth: int, dstWidth: int, src: seq<byte>) {
    /** Source index `i` is the point `(i mod width, i div width)`. */
    function P(i: nat): int requires srcWidth > 0 { i % srcWidth }
    function Q(i: nat): int requires srcWidth > 0 { i / srcWidth }

    /** `z = u p + v q + w`, with `[a, b, u, c, d, v, x, y, w]` the matrix. */
    function Z(i: nat): int requires srcWidth > 0 {
      m.data[2] * P(i) + m.data[5] * Q(i) + m.data[8]
    }

    /** The loop divides by `z` for every index below the source length and
      needs a width to split indices with. */
    predicate Ready() {
      (|src| > 0 ==> srcWidth > 0) && forall i :: 0 <= i < |src| ==> srcWidth > 0 && Z(i) != 0
    }

    /** `di = ((a p + c q + x) / z + dst_width * ((b p + d q + y) / z)) * 3`,
      both divisions truncating toward zero. */
    function Offset(i: nat): (di: int)
      requires srcWidth > 0 && Z(i) != 0
      ensures di % 3 == 0
    {
      var p, q, z := P(i), Q(i), Z(i);
      var dp := TruncDiv(m.data[0] * p + m.data[3] * q + m.data[6], z);
      var dq := TruncDiv(m.data[1] * p + m.data[4] * q + m.data[7], z);
      (dp + dstWidth * dq) * PX_BYTES
    }

    /** Iteration `i` writes destination byte `j` of a destination of
      `len` bytes: the pixel offset is in range, `j` is one of its three
      bytes, and the matching source byte `3 i + c` exists. */
    predicate Writes(len: nat, i: nat, j: nat)
      requires i < |src| && Ready()
    {
      var di := Offset(i);
      0 <= di < len && di <= j < di + 3 && PX_BYTES * i + (j - di) < |src|
    }

    /** The colour bytes of pixel `i` copied to offset `di`, colours below
      `k` only. */
    function CopyColors(dst: seq<byte>, i: nat, di: nat, k: nat): (r: seq<byte>)
      requires di + 3 <= |dst| && k <= 3
      ensures |r| == |dst|
    {
      if k == 0 then dst
      else
        var d := CopyColors(dst, i, di, k - 1);
        if PX_BYTES * i + (k - 1) < |src| then d[di + (k - 1) := src[PX_BYTES * i + (k - 1)]] else d
    }

    /** One iteration of the outer loop. */
    function Step(dst: seq<byte>, i: nat): (r: seq<byte>)
      requires i < |src| && Ready() && |dst| % 3 == 0
      ensures |r| == |dst|
    {
      var di := Offset(i);
      if di < 0 || di >= |dst| then dst else CopyColors(dst, i, di, 3)
    }

    /** The destination after the first `n` iterations. */
    function After(init: seq<byte>, n: nat): (r: seq<byte>)
      requires n <= |src| && Ready() && |init| % 3 == 0
      ensures |r| == |init|
    {
      if n == 0 then init else Step(After(init, n - 1), n - 1)
    }

    /** The last iteration below `n` that writes byte `j`. */
    function LastWriter(len: nat, n: nat, j: nat): (w: Option<nat>)
      requires n <= |src| && Ready()
      ensures w.Some? ==> w.value < n && Writes(len, w.value, j)
      ensures w.Some? ==> forall i :: w.value < i < n ==> !Writes(len, i, j)
      ensures w.None? ==> forall i :: 0 <= i < n ==> !Writes(len, i, j)
    {
      if n == 0 then None
      else if Writes(len, n - 1, j) then Some(n - 1)
      else LastWriter(len, n - 1, j)
    }
  }

  lemma CopyColorsAt(r: Remap, dst: seq<byte>, i: nat, di: nat, k: nat, j: nat)
    requires di + 3 <= |dst| && k <= 3 && j < |dst|
    ensures r.CopyColors(dst, i, di, k)[j] ==
      if di <= j < di + k && PX_BYTES * i + (j - di) < |r.src| then r.src[PX_BYTES * i + (j - di)] else dst[j]
  {
    if k > 0 {
      CopyColorsAt(r, dst, i, di, k - 1, j);
    }
  }

  /** A pixel offset inside a destination whose length is a multiple of 3
      leaves room for all three bytes. */
  lemma OffsetRoom(di: int, len: nat)
    requires di % 3 == 0 && 0 <= di < len && len % 3 == 0
    ensures di + 3 <= len
  {
  }

  lemma StepAt(r: Remap, dst: seq<byte>, i: nat, j: nat)
    requires i < |r.src| && r.Ready() && |dst| % 3 == 0 && j < |dst|
    ensures r.Step(dst, i)[j] ==
      if r.Writes(|dst|, i, j) then r.src[PX_BYTES * i + (j - r.Offset(i))] else dst[j]
  {
    var di := r.Offset(i);
    if 0 <= di < |dst| {
      OffsetRoom(di, |dst|);
      CopyColorsAt(r, dst, i, di, 3, j);
    }
  }

  /** Every destination byte ends up as the byte the last iteration that
      writes it copied, or keeps its initial value if no iteration writes
      it: offsets out of range are dropped, never wrapped or clamped. */
  lemma {:induction false} AfterAt(r: Remap, init: seq<byte>, n: nat, j: nat)
    requires n <= |r.src| && r.Ready() && |init| % 3 == 0 && j < |init|
    ensures r.After(init, n)[j] == match r.LastWriter(|init|, n, j)
      case None => init[j]
      case Some(i) => r.src[PX_BYTES * i + (j - r.Offset(i))]
  {
    if n > 0 {
      AfterAt(r, init, n - 1, j);
      StepAt(r, r.After(init, n - 1), n - 1, j);
    }
  }

  /** The inner loop of `transform`: each colour byte of pixel `i` that
      exists in the source is copied to `di + colour`. */
  method CopyPixel(job: Remap, dst: seq<byte>, i: nat, di: nat) returns (r: seq<byte>)
    requires di + 3 <= |dst|
    ensures r == job.CopyColors(dst, i, di, 3)
  {
    r := dst;
    var colorIdx := 0;
    while colorIdx < PX_BYTES
      invariant 0 <= colorIdx <= PX_BYTES
      invariant r == job.CopyColors(dst, i, di, colorIdx)
    {
      if i * PX_BYTES + colorIdx < |job.src| {
        r := r[di + colorIdx := job.src[i * PX_BYTES + colorIdx]];
      }
      colorIdx := colorIdx + 1;
    }
  }

  /** `AVFrame::transform`: allocates a frame with the source's format and
      its width and height swapped, then for every source index `i` copies
      the bytes of pixel `i` to the offset the matrix gives, skipping
      offsets outside the destination. The source is only read. */
  method Transform(frame: Frame, transform: Matrix3x3, alloc: FrameAlloc) returns (r: Result<Frame, RumpegError>)
    requires frame.Valid() && frame.width >= 0
    requires |alloc.initial| == alloc.linesize * frame.width && |alloc.initial| % 3 == 0
    requires Remap(transform, frame.width, frame.height, Data(frame)).Ready()
    ensures NewFrame(frame.format, frame.height, frame.width, alloc).Err? ==>
      r == NewFrame(frame.format, frame.height, frame.width, alloc)
    ensures r.Ok? ==> (r.value.Valid() && r.value.format == frame.format
                       && r.value.width == frame.height && r.value.height == frame.width)
    ensures r.Ok? ==> (Data(r.value) ==
      Remap(transform, frame.width, frame.height, Data(frame)).After(alloc.initial, |Data(frame)|))
  {
    var srcWidth := frame.width;
    var srcData := Data(frame);
    var dstWidth := frame.height;
    var dstHeight := frame.width;
    var created := NewFrame(frame.format, dstWidth, dstHeight, alloc);
    if created.Err? {
      return created;
    }
    var dest := created.value;
    var dstData := Data(dest);
    var job := Remap(transform, srcWidth, dstWidth, srcData);

    var i := 0;
    while i < |srcData|
      invariant 0 <= i <= |srcData|
      invariant dstData == job.After(alloc.initial, i)
    {
      var di := job.Offset(i);
      if di >= 0 && di < |dstData| {
        OffsetRoom(di, |dstData|);
        dstData := CopyPixel(job, dstData, i, di);
      }
      i := i + 1;
    }
    return Ok(WithData(dest, dstData));
  }
}

=== FILE: avstream.dfy ===
/** `AVStream::display_matrix` (`src/rumpeg/avstream.rs`): a linear search
    through a stream's side data for the first display matrix. */
module AvStream {
  import opened Wrappers
  import opened Math

  /** The index of the first display-matrix entry, if there is one. */
  function FirstDisplayMatrix(sides: seq<SideData>): (r: Option<nat>)
    ensures r.Some? ==> r.value < |sides| && sides[r.value].kind == DisplayMatrixData
    ensures r.Some? ==> forall k :: 0 <= k < r.value ==> sides[k].kind != DisplayMatrixData
    ensures r.None? <==> forall k :: 0 <= k < |sides| ==> sides[k].kind != DisplayMatrixData
  {
    if |sides| == 0 then None
    else if sides[0].kind == DisplayMatrixData then Some(0)
    else match FirstDisplayMatrix(sides[1..])
      case None => None
      case Some(i) => Some(i + 1)
  }

  /** Entries after the first display matrix never change the answer. */
  lemma {:induction false} FirstDisplayMatrixIgnoresRest(sides: seq<SideData>, rest: seq<SideData>)
    requires FirstDisplayMatrix(sides).Some?
    ensures FirstDisplayMatrix(sides + rest) == FirstDisplayMatrix(sides)
  {
    if sides[0].kind != DisplayMatrixData {
      assert (sides + rest)[1..] == sides[1..] + rest;
      FirstDisplayMatrixIgnoresRest(sides[1..], rest);
    }
  }

  /** `display_matrix`: scans the entries in index order and parses the
      first display matrix; if that one does not parse the answer is `None`
      (the error is only printed), and later entries are not tried. */
  method DisplayMatrix(sides: seq<SideData>) returns (m: Option<Matrix3x3>)
    ensures FirstDisplayMatrix(sides).None? ==> m.None?
    ensures FirstDisplayMatrix(sides).Some? ==>
      m == FromSideData(sides[FirstDisplayMatrix(sides).value]).ToOption()
  {
    var current := 0;
    while current < |sides|
      invariant 0 <= current <= |sides|
      invariant forall k :: 0 <= k < current ==> sides[k].kind != DisplayMatrixData
    {
      var sideData := sides[current];
      current := current + 1;
      if sideData.kind == DisplayMatrixData {
        assert FirstDisplayMatrix(sides) == Some(current - 1);
        match FromSideData(sideData)
        case Ok(displayMatrix) =>
          return Some(displayMatrix);
        case Err(_) =>
          return None;
      }
    }
    return None;
  }
}

=== FILE: cli.dfy ===
/** `src/cli.rs`: reading the command line. The argument vector is a
    parameter (it comes from `env::args`), the program name first. */
module Cli {
  import opened Wrappers
  import opened RustNum
  import opened RustStr
  import AvFormat

  datatype CliError = FilepathMissing

  datatype CliArgs = CliArgs(debug: bool, filepath: string, height: int,
                             seekPosition: AvFormat.SeekPosition, width: int)

  /** `Iterator::position`: the index of the first argument equal to
      `name`. */
  function Position(args: seq<string>, name: string): (r: Option<nat>)
    ensures r.None? <==> name !in args
    ensures r.Some? ==> r.value < |args| && args[r.value] == name && name !in args[..r.value]
  {
    if |args| == 0 then None
    else if args[0] == name then Some(0)
    else
      assert args == [args[0]] + args[1..];
      match Position(args[1..], name)
      case None => None
      case Some(i) =>
        assert args[..i + 1] == [args[0]] + args[1..][..i];
        Some(i + 1)
  }

  /** `find_arg`: the argument after the first occurrence of `name`,
      parsed; a missing name, a missing value or a failed parse gives the
      default. */
  function FindArg<F>(args: seq<string>, name: string, parse: string -> Option<F>, default: F): (r: F)
    ensures Position(args, name).None? ==> r == default
    ensures Position(args, name).Some? && Position(args, name).value + 1 == |args| ==> r == default
    ensures Position(args, name).Some? && Position(args, name).value + 1 < |args| ==>
      r == parse(args[Position(args, name).value + 1]).UnwrapOr(default)
  {
    match Position(args, name)
    case None => default
    case Some(i) => if i + 1 < |args| then parse(args[i + 1]).UnwrapOr(default) else default
  }

  /** An `i32` option reads as an `i32` whatever the arguments. */
  lemma FindI32InRange(args: seq<string>, name: string)
    ensures InI32(FindArg(args, name, ParseI32, 0))
  {
    match Position(args, name)
    case None =>
    case Some(i) =>
      if i + 1 < |args| {
        var p := ParseI32(args[i + 1]);
        assert p.Some? ==> InI32(p.value);
      }
  }

  /** `CLIArgs::read`: `-d` is a flag, the file path is the first argument
      after the program name whatever it is, and `-h`, `-s` and `-w` take
      the following argument as height, seek position and width. */
  function Read(args: seq<string>): (r: Result<CliArgs, CliError>)
    ensures |args| < 2 ==> r == Err(FilepathMissing)
    ensures |args| >= 2 ==> r.Ok? && r.value.filepath == args[1]
    ensures r.Ok? ==> (r.value.debug <==> "-d" in args)
    ensures |args| >= 2 ==> r.Ok? && r.value.height == FindArg(args, "-h", ParseI32, 0)
    ensures |args| >= 2 ==> r.Ok? && r.value.width == FindArg(args, "-w", ParseI32, 0)
    ensures |args| >= 2 ==> r.Ok? && r.value.seekPosition == FindArg(args, "-s", AvFormat.FromStrOk, AvFormat.Default())
    ensures r.Ok? ==> InI32(r.value.height) && InI32(r.value.width)
  {
    if |args| < 2 then Err(FilepathMissing)
    else
      var debug := AnyEqual(args, "-d");
      FindI32InRange(args, "-h");
      FindI32InRange(args, "-w");
      Ok(CliArgs(
        debug,
        args[1],
        FindArg(args, "-h", ParseI32, 0),
        FindArg(args, "-s", AvFormat.FromStrOk, AvFormat.Default()),
        FindArg(args, "-w", ParseI32, 0)))
  }

  /** A value placed after its option is read, wherever the pair stands,
      provided the option does not occur earlier. */
  lemma OptionValue<F>(before: seq<string>, name: string, value: string, after: seq<string>,
                       parse: string -> Option<F>, default: F)
    requires name !in before
    ensures FindArg(before + [name, value] + after, name, parse, default) == parse(value).UnwrapOr(default)
  {
    var args := before + [name, value] + after;
    assert args[|before|] == name && args[..|before|] == before;
    var i := Position(args, name).value;
    assert i == |before| by {
      assert forall k :: 0 <= k < |before| ==> args[k] == before[k];
    }
    assert args[i + 1] == value;
  }

  /** Only the first occurrence counts: an option repeated as its own
      value takes the second one as its value, which does not parse, and
      the value meant for it is not read. */
  lemma RepeatedOption(prog: string, path: string)
    requires prog != "-w" && path != "-w"
    ensures FindArg([prog, path, "-w", "-w", "5"], "-w", ParseI32, 0) == 0
  {
    OptionValue([prog, path], "-w", "-w", ["5"], ParseI32, 0);
    assert [prog, path] + ["-w", "-w"] + ["5"] == [prog, path, "-w", "-w", "5"];
    assert "-w"[1..] == "w" && DigitValue('w', 10).None?;
    assert ParseI32("-w") == None;
  }

  /** The file path is whatever follows the program name, even a flag. */
  lemma FlagTakenAsFilepath(prog: string)
    ensures Read([prog, "-d"]).Ok?
    ensures Read([prog, "-d"]).value.filepath == "-d" && Read([prog, "-d"]).value.debug
  {
    assert "-d" in [prog, "-d"];
  }
}

=== FILE: ffmpeg.dfy ===
/** FFmpeg's error-code helpers as the bindings re-declare them: `MKTAG`
    packs four bytes little-endian into a `u32`, `FFERRTAG` turns a tag into a
    negative `i32` error code, and `AVERROR`/`AVUNERROR` convert between POSIX
    error numbers and FFmpeg codes depending on the sign of `EDOM`. `EDOM` comes
    from the generated C bindings, so it is a parameter here. Bytes and `u32`
    values are integers in their ranges; since the four shifted bytes of
    `MKTAG` occupy disjoint bits, their bitwise or is their sum. */
module Ffmpeg {
  import opened RustNum

  const U32_MAX: int := 0xFFFF_FFFF

  /** `MKTAG(a, b, c, d) = a | b << 8 | c << 16 | d << 24`. */
  function MkTag(a: byte, b: byte, c: byte, d: byte): (tag: int)
    ensures 0 <= tag <= U32_MAX
  {
    a + b * 0x100 + c * 0x1_0000 + d * 0x100_0000
  }

  /** Byte `k` of a `u32`, `(tag >> 8k) & 0xFF`. */
  function TagByte(tag: int, k: nat): (b: byte)
    requires 0 <= tag <= U32_MAX && k < 4
  {
    if k == 0 then tag % 0x100
    else if k == 1 then tag / 0x100 % 0x100
    else if k == 2 then tag / 0x1_0000 % 0x100
    else tag / 0x100_0000
  }

  /** Each argument of `MKTAG` can be read back from the tag, so it is
      little-endian. */
  lemma MkTagBytes(a: byte, b: byte, c: byte, d: byte)
    ensures TagByte(MkTag(a, b, c, d), 0) == a
    ensures TagByte(MkTag(a, b, c, d), 1) == b
    ensures TagByte(MkTag(a, b, c, d), 2) == c
    ensures TagByte(MkTag(a, b, c, d), 3) == d
  {
    var t := MkTag(a, b, c, d);
    var t1 := b + c * 0x100 + d * 0x1_0000;
    var t2 := c + d * 0x100;
    assert t == a + t1 * 0x100;
    assert t / 0x100 == t1 && t % 0x100 == a;
    assert t1 == b + t2 * 0x100;
    assert t1 % 0x100 == b;
    assert t / 0x1_0000 == t2 by {
      assert t == (a + b * 0x100) + t2 * 0x1_0000;
    }
    assert t2 % 0x100 == c;
    assert t / 0x100_0000 == d by {
      assert t == (a + b * 0x100 + c * 0x1_0000) + d * 0x100_0000;
    }
  }

  lemma MkTagInjective(a: byte, b: byte, c: byte, d: byte, a': byte, b': byte, c': byte, d': byte)
    requires MkTag(a, b, c, d) == MkTag(a', b', c', d')
    ensures a == a' && b == b' && c == c' && d == d'
  {
    MkTagBytes(a, b, c, d);
    MkTagBytes(a', b', c', d');
  }

  /** `u32 as i32`: the same 32 bits read as two's complement. */
  function AsI32(u: int): (r: int)
    requires 0 <= u <= U32_MAX
    ensures InI32(r)
    ensures r == u || r == u - 0x1_0000_0000
  {
    if u < 0x8000_0000 then u else u - 0x1_0000_0000
  }

  /** The tags whose `i32` reading is `i32::MIN`; negating it overflows, so
      `FFERRTAG` is only defined for the others. */
  predicate NegationOverflows(a: byte, b: byte, c: byte, d: byte) {
    MkTag(a, b, c, d) == 0x8000_0000
  }

  /** `FFERRTAG(a, b, c, d) = -(MKTAG(a, b, c, d) as i32)`. */
  function FfErrTag(a: byte, b: byte, c: byte, d: byte): (code: int)
    requires !NegationOverflows(a, b, c, d)
    ensures InI32(code)
  {
    -AsI32(MkTag(a, b, c, d))
  }

  /** A tag whose last byte is below 0x80 never overflows, and is a
      positive `i32` unless it is zero, so its error code is negative. */
  lemma FfErrTagNegative(a: byte, b: byte, c: byte, d: byte)
    requires d < 0x80 && MkTag(a, b, c, d) != 0
    ensures !NegationOverflows(a, b, c, d)
    ensures FfErrTag(a, b, c, d) < 0
  {
  }

  lemma AsI32Injective(u: int, v: int)
    requires 0 <= u <= U32_MAX && 0 <= v <= U32_MAX && u != v
    ensures AsI32(u) != AsI32(v)
  {
  }

  /** Different tags give different error codes. */
  lemma FfErrTagInjective(a: byte, b: byte, c: byte, d: byte, a': byte, b': byte, c': byte, d': byte)
    requires !NegationOverflows(a, b, c, d) && !NegationOverflows(a', b', c', d')
    requires (a, b, c, d) != (a', b', c', d')
    ensures FfErrTag(a, b, c, d) != FfErrTag(a', b', c', d')
  {
    var t, t' := MkTag(a, b, c, d), MkTag(a', b', c', d');
    if t == t' {
      MkTagInjective(a, b, c, d, a', b', c', d');
    } else {
      AsI32Injective(t, t');
    }
  }

  /** `AVERROR(e)`: negates a POSIX error number where those are positive. */
  function AvError(e: int, edom: int): (r: int)
    ensures edom > 0 ==> r == -e
    ensures edom <= 0 ==> r == e
  {
    if edom > 0 then -e else e
  }

  /** `AVUNERROR(e)`: takes an FFmpeg code back to the POSIX number, the
      inverse of `AVERROR` under the same `EDOM`. */
  function AvUnError(e: int, edom: int): (r: int)
    ensures AvError(r, edom) == e
  {
    if edom > 0 then -e else e
  }

  lemma AvUnErrorAvError(e: int, edom: int)
    ensures AvUnError(AvError(e, edom), edom) == e
  {
  }

  /** One of the named error codes, by the four characters of its tag
      (`b'B'` in the source is the byte of `'B'`). */
  datatype Tag = Tag(a: char, b: char, c: char, d: char) {
    predicate IsByteTag() {
      a as int < 256 && b as int < 256 && c as int < 256 && d as int < 256
    }
  }

  /** The tags of `AVERROR_BSF_NOT_FOUND` through `AVERROR_HTTP_SERVER_ERROR`,
      in declaration order. */
  const ErrorTags: seq<Tag> := [
    Tag('\U{F8}', 'B', 'S', 'F'),  // BSF_NOT_FOUND
    Tag('B', 'U', 'G', '!'),  // BUG
    Tag('B', 'U', 'F', 'S'),  // BUFFER_TOO_SMALL
    Tag('\U{F8}', 'D', 'E', 'C'),  // DECODER_NOT_FOUND
    Tag('\U{F8}', 'D', 'E', 'M'),  // DEMUXER_NOT_FOUND
    Tag('\U{F8}', 'E', 'N', 'C'),  // ENCODER_NOT_FOUND
    Tag('E', 'O', 'F', ' '),  // EOF
    Tag('E', 'X', 'I', 'T'),  // EXIT
    Tag('E', 'X', 'T', ' '),  // EXTERNAL
    Tag('\U{F8}', 'F', 'I', 'L'),  // FILTER_NOT_FOUND
    Tag('I', 'N', 'D', 'A'),  // INVALIDDATA
    Tag('\U{F8}', 'M', 'U', 'X'),  // MUXER_NOT_FOUND
    Tag('\U{F8}', 'O', 'P', 'T'),  // OPTION_NOT_FOUND
    Tag('P', 'A', 'W', 'E'),  // PATCHWELCOME
    Tag('\U{F8}', 'P', 'R', 'O'),  // PROTOCOL_NOT_FOUND
    Tag('\U{F8}', 'S', 'T', 'R'),  // STREAM_NOT_FOUND
    Tag('B', 'U', 'G', ' '),  // BUG2
    Tag('U', 'N', 'K', 'N'),  // UNKNOWN
    Tag('\U{F8}', '4', '0', '0'),  // HTTP_BAD_REQUEST
    Tag('\U{F8}', '4', '0', '1'),  // HTTP_UNAUTHORIZED
    Tag('\U{F8}', '4', '0', '3'),  // HTTP_FORBIDDEN
    Tag('\U{F8}', '4', '0', '4'),  // HTTP_NOT_FOUND
    Tag('\U{F8}', '4', 'X', 'X'),  // HTTP_OTHER_4XX
    Tag('\U{F8}', '5', 'X', 'X')   // HTTP_SERVER_ERROR
  ]

  /** A tag whose first byte is nonzero and last byte is ASCII. */
  predicate NamedTagShape(t: Tag) {
    t.IsByteTag() && t.a != '\0' && t.d as int < 0x80
  }

  lemma NamedTagShapes()
    ensures forall i :: 0 <= i < |ErrorTags| ==> NamedTagShape(ErrorTags[i])
  {
  }

  /** No tag is listed twice. */
  lemma ErrorTagsDistinct()
    ensures forall i, j :: 0 <= i < j < |ErrorTags| ==> ErrorTags[i] != ErrorTags[j]
  {
  }

  /** The error code of a named tag: `FFERRTAG` of its four bytes. */
  function ErrorCode(t: Tag): (code: int)
    requires NamedTagShape(t)
    ensures code < 0
  {
    var a, b, c, d := t.a as int, t.b as int, t.c as int, t.d as int;
    MkTagBytes(a, b, c, d);
    FfErrTagNegative(a, b, c, d);
    FfErrTag(a, b, c, d)
  }

  lemma ErrorCodeInjective(s: Tag, t: Tag)
    requires NamedTagShape(s) && NamedTagShape(t) && s != t
    ensures ErrorCode(s) != ErrorCode(t)
  {
    var sa, sb, sc, sd := s.a as int, s.b as int, s.c as int, s.d as int;
    var ta, tb, tc, td := t.a as int, t.b as int, t.c as int, t.d as int;
    FfErrTagNegative(sa, sb, sc, sd) by { MkTagBytes(sa, sb, sc, sd); }
    FfErrTagNegative(ta, tb, tc, td) by { MkTagBytes(ta, tb, tc, td); }
    FfErrTagInjective(sa, sb, sc, sd, ta, tb, tc, td);
  }

  /** `AVERROR_EOF`, the code the decoding loop stops on, is
      `-0x20464F45`, the value FFmpeg's own headers give. */
  lemma EofCode()
    ensures NamedTagShape(Tag('E', 'O', 'F', ' '))
    ensures ErrorCode(Tag('E', 'O', 'F', ' ')) == -0x2046_4F45
  {
    assert MkTag(0x45, 0x4F, 0x46, 0x20) == 0x2046_4F45;
  }

  /** Every named error code is negative and no two of them are equal
      (so, for one, `AVERROR_BUG` differs from `AVERROR_BUG2`). */
  lemma ErrorCodesDistinct()
    ensures forall i :: 0 <= i < |ErrorTags| ==> NamedTagShape(ErrorTags[i]) && ErrorCode(ErrorTags[i]) < 0
    ensures forall i, j :: 0 <= i < j < |ErrorTags| ==> ErrorCode(ErrorTags[i]) != ErrorCode(ErrorTags[j])
  {
    NamedTagShapes();
    ErrorTagsDistinct();
    forall i, j | 0 <= i < j < |ErrorTags|
      ensures ErrorCode(ErrorTags[i]) != ErrorCode(ErrorTags[j])
    {
      ErrorCodeInjective(ErrorTags[i], ErrorTags[j]);
    }
  }
}

=== FILE: http_errors.dfy ===
/** The error types the HTTP layer passes around (`src/http/mod.rs`). The
    `HttpRequestError` enum is declared outside the files modelled; only its
    `Parse` variant, which `src/routes.rs` builds, is used here. */
module HttpErrors {
  import Rumpeg
  import Video

  datatype HttpRequestError = Parse(message: string)

  /** `ServerError`; an `io::Error` is kept as its message. */
  datatype ServerError =
    | IO(message: string)
    | VideoErr(videoError: Video.VideoError)
    | WebP(rumpegError: Rumpeg.RumpegError)
    | ExitHandler
    | BadRequest(requestError: HttpRequestError)
}

=== FILE: http_parse.dfy ===
/** `src/http/parse.rs`: looking up flags and arguments among the `&`-split
    pieces of a query string, and percent-decoding (section 2.1 of RFC 3986)
    in which each `%HH` becomes the character with code point `HH`, so bytes
    are read as Latin-1 rather than UTF-8. `FromStr` of the argument type is
    a parameter, as is its `Default`. */
module HttpParse {
  import opened Wrappers
  import opened RustStr
  import opened RustNum

  /** A flag is a whole piece: `film=1` does not set `film`. */
  lemma FlagIsWholePiece(key: string, value: string)
    ensures !AnyEqual([key + "=" + value], key)
  {
    assert |key + "=" + value| > |key|;
  }

  /** The index of the first piece that starts with `prefix`. */
  function FirstWithPrefix(query: seq<string>, prefix: string): (r: Option<nat>)
    ensures r.Some? ==> r.value < |query| && prefix <= query[r.value]
    ensures r.Some? ==> forall j :: 0 <= j < r.value ==> !(prefix <= query[j])
    ensures r.None? <==> forall j :: 0 <= j < |query| ==> !(prefix <= query[j])
  {
    if |query| == 0 then None
    else if prefix <= query[0] then Some(0)
    else match FirstWithPrefix(query[1..], prefix)
      case None => None
      case Some(i) => Some(i + 1)
  }

  /** `find_query_arg`: the first piece starting with `key=` is split at its
      first `=`, and what follows is parsed; an absent piece or a failed
      parse gives the default. */
  function FindQueryArg<F>(query: seq<string>, key: string, parse: string -> Option<F>, default: F): (r: F)
    ensures FirstWithPrefix(query, key + "=").None? ==> r == default
    ensures FirstWithPrefix(query, key + "=").Some? ==>
      var piece := query[FirstWithPrefix(query, key + "=").value];
      Find(piece, '=').Some? && r == parse(piece[Find(piece, '=').value + 1..]).UnwrapOr(default)
    ensures FirstWithPrefix(query, key + "=").Some? && '=' !in key ==>
      r == parse(query[FirstWithPrefix(query, key + "=").value][|key| + 1..]).UnwrapOr(default)
  {
    match FirstWithPrefix(query, key + "=")
    case None => default
    case Some(i) =>
      var piece := query[i];
      assert piece[|key|] == '=';
      assert '=' !in key ==> Find(piece, '=') == Some(|key|) by {
        if '=' !in key {
          assert piece[..|key|] == key;
        }
      }
      match SplitOnce(piece, '=')
      case None => default
      case Some((_, value)) => parse(value).UnwrapOr(default)
  }

  // ---------------------------------------------------------------------
  // Percent-decoding
  // ---------------------------------------------------------------------

  /** `decode_uri`: after a `%`, up to two more characters are taken; if
      `u8::from_str_radix(_, 16)` accepts them the byte becomes one
      character, otherwise the `%` and the characters taken are kept. */
  function DecodeUri(uri: string): (r: string)
    ensures |r| <= |uri|
    ensures '%' !in uri ==> r == uri
    decreases |uri|
  {
    if |uri| == 0 then []
    else if uri[0] != '%' then
      assert uri == [uri[0]] + uri[1..];
      [uri[0]] + DecodeUri(uri[1..])
    else
      var n := if |uri| >= 3 then 3 else |uri|;
      var encoded := uri[1..n];
      match ParseHexU8(encoded)
      case Some(b) => [b as char] + DecodeUri(uri[n..])
      case None => "%" + encoded + DecodeUri(uri[n..])
  }

  /** Escapes that are not hexadecimal are kept as written. */
  lemma DecodeKeepsBadEscape(rest: string)
    ensures DecodeUri("%zz" + rest) == "%zz" + DecodeUri(rest)
  {
    assert ("%zz" + rest)[3..] == rest;
    assert ("%zz" + rest)[1..3] == "zz";
  }

  /** `from_str_radix` allows a leading `+`, so `%+F` decodes to U+000F,
      and a `%` followed by one last hexadecimal digit decodes too. */
  lemma DecodeAcceptsSignAndShortEscape()
    ensures DecodeUri("%+F") == "\U{F}"
    ensures DecodeUri("%F") == "\U{F}"
  {
    assert "%+F"[1..3] == "+F";
    assert "+F"[1..] == "F";
    assert "F"[..0] == [];
    assert DigitsValue("F", 16) == 15;
    assert ParseHexU8("+F") == Some(15);
    assert "%+F"[3..] == [];
    assert "%F"[1..2] == "F";
  }

  /** The upper-case hexadecimal digit of `d`. */
  function HexDigit(d: nat): (c: char)
    requires d < 16
    ensures DigitValue(c, 16) == Some(d)
  {
    if d < 10 then ('0' as int + d) as char else ('A' as int + (d - 10)) as char
  }

  /** The two hexadecimal digits of a byte. */
  function Hex2(b: byte): (s: string)
    ensures |s| == 2
  {
    [HexDigit(b / 16), HexDigit(b % 16)]
  }

  lemma ParseHex2(b: byte)
    ensures ParseHexU8(Hex2(b)) == Some(b)
  {
    var s := Hex2(b);
    assert s[..1] == [s[0]];
    assert DigitsValue(s[..1], 16) == b / 16;
  }

  /** Percent-encoding that escapes `%` and every character in `reserved`,
      all of which must fit in a byte. */
  function EncodeUri(s: string, reserved: set<char>): (r: string)
    requires forall c :: c in reserved ==> c as int < 256
  {
    if |s| == 0 then []
    else
      var c := s[0];
      (if c == '%' || c in reserved then "%" + Hex2(c as int) else [c]) + EncodeUri(s[1..], reserved)
  }

  /** Decoding undoes percent-encoding, whichever characters were escaped. */
  lemma {:induction false} DecodeEncodeUri(s: string, reserved: set<char>)
    requires forall c :: c in reserved ==> c as int < 256
    ensures DecodeUri(EncodeUri(s, reserved)) == s
  {
    if |s| > 0 {
      var c := s[0];
      var rest := EncodeUri(s[1..], reserved);
      DecodeEncodeUri(s[1..], reserved);
      if c == '%' || c in reserved {
        var e := "%" + Hex2(c as int);
        assert EncodeUri(s, reserved) == e + rest;
        assert (e + rest)[1..3] == Hex2(c as int);
        assert (e + rest)[3..] == rest;
        ParseHex2(c as int);
      } else {
        assert EncodeUri(s, reserved) == [c] + rest;
        assert ([c] + rest)[1..] == rest;
      }
      assert [c] + s[1..] == s;
    }
  }
}

=== FILE: http_request.dfy ===
/** `src/http/request.rs`: the loose reading of an HTTP/1.1 request head
    (sections 3 and 5 of RFC 9112). The bytes must be UTF-8; the first line
    must split on whitespace into exactly three words; the target is cut at
    its first `?`; every later line holding a `:` is a header. */
module Request {
  import opened Wrappers
  import opened RustStr
  import opened RustNum
  import opened Utf8

  datatype HttpRequest = HttpRequest(httpMethod: string, path: string, queryParams: map<string, string>,
                                     headers: seq<(string, string)>, httpVersion: string)

  /** `parse_header`: split at the first `:`, both sides trimmed. */
  function ParseHeader(header: string): (r: Option<(string, string)>)
    ensures r.None? <==> ':' !in header
    ensures r.Some? ==> exists i :: (0 <= i < |header| && header[i] == ':' && ':' !in header[..i]
                                     && r.value == (Trim(header[..i]), Trim(header[i + 1..])))
  {
    match SplitOnce(header, ':')
    case None => None
    case Some((key, value)) =>
      assert header[|key|] == ':' && header[..|key|] == key && header[|key| + 1..] == value;
      Some((Trim(key), Trim(value)))
  }

  /** A `key: value` line reads back as the trimmed key and value. */
  lemma HeaderLineParses(key: string, value: string)
    requires ':' !in key
    ensures ParseHeader(key + ": " + value) == Some((Trim(key), Trim(value)))
  {
    var line := key + ": " + value;
    assert line == key + [':'] + (" " + value);
    assert Find(line, ':') == Some(|key|) by {
      assert line[|key|] == ':' && line[..|key|] == key;
    }
    assert line[..|key|] == key && line[|key| + 1..] == " " + value;
    TrimLeadingWhitespace(" ", value);
  }

  /** Whether a query piece has a `=` and the text before it is `key`. */
  predicate HasKey(piece: string, key: string) {
    SplitOnce(piece, '=').Some? && SplitOnce(piece, '=').value.0 == key
  }

  /** Inserting one piece: split at its first `=`, or skipped without one. */
  function Insert(m: map<string, string>, piece: string): (r: map<string, string>)
    ensures forall k :: k in r <==> k in m || HasKey(piece, k)
    ensures forall k :: HasKey(piece, k) ==> r[k] == SplitOnce(piece, '=').value.1
    ensures forall k :: k in m && !HasKey(piece, k) ==> r[k] == m[k]
  {
    match SplitOnce(piece, '=')
    case None => m
    case Some((k, v)) => m[k := v]
  }

  lemma InsertedValue(m: map<string, string>, piece: string, k: string)
    requires HasKey(piece, k)
    ensures k in Insert(m, piece) && Insert(m, piece)[k] == SplitOnce(piece, '=').value.1
  {
  }

  /** The query map: each piece with a `=` is inserted in turn, so a later
      piece overwrites an earlier one with the same key. */
  function QueryParams(pieces: seq<string>): (m: map<string, string>)
    decreases |pieces|
  {
    if |pieces| == 0 then map[] else Insert(QueryParams(pieces[..|pieces| - 1]), pieces[|pieces| - 1])
  }

  /** The keys are exactly those of the pieces that have a `=`. */
  lemma {:induction false} QueryParamsKeys(pieces: seq<string>)
    ensures forall k :: k in QueryParams(pieces) <==> exists i :: 0 <= i < |pieces| && HasKey(pieces[i], k)
    decreases |pieces|
  {
    if |pieces| > 0 {
      var init := pieces[..|pieces| - 1];
      QueryParamsKeys(init);
      assert forall i :: 0 <= i < |init| ==> init[i] == pieces[i];
    }
  }

  lemma InsertKeeps(m: map<string, string>, piece: string, k: string)
    requires k in m && !HasKey(piece, k)
    ensures k in Insert(m, piece) && Insert(m, piece)[k] == m[k]
  {
  }

  /** The value of a key is the one of the last piece carrying it. */
  lemma {:induction false} QueryParamsLastWins(pieces: seq<string>, i: nat, k: string)
    requires i < |pieces| && HasKey(pieces[i], k)
    requires forall j :: i < j < |pieces| ==> !HasKey(pieces[j], k)
    ensures k in QueryParams(pieces) && QueryParams(pieces)[k] == SplitOnce(pieces[i], '=').value.1
    decreases |pieces|
  {
    var last := |pieces| - 1;
    var init := pieces[..last];
    var m := QueryParams(init);
    assert QueryParams(pieces) == Insert(m, pieces[last]);
    if i < last {
      assert init[i] == pieces[i];
      assert forall j :: i < j < |init| ==> init[j] == pieces[j];
      QueryParamsLastWins(init, i, k);
      InsertKeeps(m, pieces[last], k);
    } else {
      InsertedValue(m, pieces[last], k);
    }
  }

  /** The header a line holds, if any, as a list of zero or one. */
  function HeaderOf(line: string): (hs: seq<(string, string)>)
    ensures ':' !in line ==> hs == []
    ensures ':' in line ==> hs == [ParseHeader(line).value]
  {
    match ParseHeader(line)
    case None => []
    case Some(h) => [h]
  }

  /** The headers among the lines, in order. */
  function Headers(lines: seq<string>): (hs: seq<(string, string)>)
    ensures |hs| <= |lines|
  {
    if |lines| == 0 then [] else HeaderOf(lines[0]) + Headers(lines[1..])
  }

  /** Header lines are read independently of one another. */
  lemma {:induction false} HeadersAppend(a: seq<string>, b: seq<string>)
    ensures Headers(a + b) == Headers(a) + Headers(b)
  {
    if |a| > 0 {
      assert (a + b)[0] == a[0];
      assert (a + b)[1..] == a[1..] + b;
      HeadersAppend(a[1..], b);
      assert Headers(a + b) == HeaderOf(a[0]) + Headers(a[1..] + b);
    } else {
      assert a + b == b;
    }
  }

  /** A line without `:` is skipped; a line with one is one header. */
  lemma HeadersOfLine(line: string)
    ensures ':' !in line ==> Headers([line]) == []
    ensures ':' in line ==> Headers([line]) == [ParseHeader(line).value]
  {
    assert Headers([line]) == HeaderOf(line) + Headers([]);
  }

  /** `HttpRequest::parse`, for non-empty input (empty input has no first
      line and panics). */
  function Parse(raw: seq<byte>): (r: Option<HttpRequest>)
    requires |raw| > 0
    ensures Decode(raw).None? ==> r.None?
    ensures Decode(raw).Some? ==> (|Lines(Decode(raw).value)| >= 1
      && (r.Some? <==> |SplitWhitespace(Lines(Decode(raw).value)[0])| == 3))
    ensures r.Some? ==> (
      var lines := Lines(Decode(raw).value);
      var words := SplitWhitespace(lines[0]);
      && r.value.httpMethod == words[0] && r.value.httpVersion == words[2]
      && r.value.path <= words[1] && '?' !in r.value.path
      && ('?' !in words[1] ==> r.value.path == words[1] && r.value.queryParams == map[])
      && ('?' in words[1] ==> (|r.value.path| < |words[1]| && words[1][|r.value.path|] == '?'
           && r.value.queryParams == QueryParams(Split(words[1][|r.value.path| + 1..], '&'))))
      && r.value.headers == Headers(lines[1..]))
  {
    match Decode(raw)
    case None => None
    case Some(request) =>
      var lines := Lines(request);
      var parts := SplitWhitespace(lines[0]);
      if |parts| != 3 then None
      else
        var target := parts[1];
        var (path, query) := match Find(target, '?')
          case None => (target, map[])
          case Some(pos) => (target[..pos], QueryParams(Split(target[pos + 1..], '&')));
        Some(HttpRequest(parts[0], path, query, Headers(lines[1..]), parts[2]))
  }

  lemma NoNewline(s: string)
    requires NoWhitespace(s)
    ensures '\n' !in s
  {
    assert IsWhitespace('\n');
  }

  lemma NoNewlineAppend(a: string, b: string)
    requires '\n' !in a && '\n' !in b
    ensures '\n' !in a + b
  {
    assert forall k :: 0 <= k < |a + b| ==> (a + b)[k] == if k < |a| then a[k] else b[k - |a|];
  }

  /** Three words joined by spaces split back into those words, on one
      line. */
  lemma RequestLineWords(verb: string, target: string, version: string)
    requires |verb| > 0 && |target| > 0 && |version| > 0
    requires NoWhitespace(verb) && NoWhitespace(target) && NoWhitespace(version)
    ensures var line := verb + " " + target + " " + version;
      && Lines(line) == [line]
      && SplitWhitespace(line) == [verb, target, version]
  {
    var tail := target + " " + version;
    var line := verb + " " + tail;
    assert line == verb + " " + target + " " + version;
    NoNewline(verb);
    NoNewline(target);
    NoNewline(version);
    NoNewlineAppend(target, " ");
    NoNewlineAppend(target + " ", version);
    NoNewlineAppend(verb, " ");
    NoNewlineAppend(verb + " ", tail);
    assert Split(line, '\n') == [line];
    assert line == verb + [' '] + tail;
    SplitWhitespaceWord(verb, ' ', tail);
    assert tail == target + [' '] + version;
    SplitWhitespaceWord(target, ' ', version);
    SplitWhitespaceSingle(version);
  }

  /** A request line of three words with a plain target, sent as UTF-8,
      reads back as that method, path and version with no query and no
      headers. */
  lemma RequestLineParses(verb: string, target: string, version: string)
    requires |verb| > 0 && |target| > 0 && |version| > 0
    requires NoWhitespace(verb) && NoWhitespace(target) && NoWhitespace(version)
    requires '?' !in target
    ensures var raw := Encode(verb + " " + target + " " + version);
      |raw| > 0 && Parse(raw) == Some(HttpRequest(verb, target, map[], [], version))
  {
    var line := verb + " " + target + " " + version;
    DecodeEncode(line);
    RequestLineWords(verb, target, version);
    var raw := Encode(line);
    assert |raw| > 0 by {
      EncodeAppend([line[0]], line[1..]);
      assert [line[0]] + line[1..] == line;
    }
    var lines: seq<string> := [line];
    assert Headers(lines[1..]) == [];
  }
}

=== FILE: http_response.dfy ===
/** `src/http/response.rs`: a status, a header map and a body, and the bytes
    `send` writes for them (section 15 of RFC 9110 for the status codes,
    section 2.1 of RFC 9112 for the layout). The header map is a `HashMap`,
    so the order `send` visits it in is a parameter; so is the `Display`
    text of the error a 400 or 500 status carries. */
module Response {
  import opened Wrappers
  import opened RustStr
  import opened RustNum
  import opened Utf8
  import opened HttpErrors
  import Request

  datatype HttpStatus =
    | OK
    | BadRequest(requestError: HttpRequestError)
    | NotFound
    | InternalServerError(serverError: ServerError)

  /** `as_tuple`: the code and reason phrase of a status. The code is the
      one section 15 of RFC 9110 assigns to the status's meaning, and the
      reason is that section's phrase for the code. */
  function AsTuple(status: HttpStatus): (r: (nat, string))
    ensures 100 <= r.0 < 600
    ensures r.0 == 200 <==> status.OK?
    ensures r.0 == 400 <==> status.BadRequest?
    ensures r.0 == 404 <==> status.NotFound?
    ensures r.0 == 500 <==> status.InternalServerError?
    ensures StandardReason(r.0) == Some(r.1)
  {
    match status
    case OK => (200, "OK")
    case BadRequest(_) => (400, "Bad Request")
    case NotFound => (404, "Not Found")
    case InternalServerError(_) => (500, "Internal Server Error")
  }

  /** The reason phrases section 15 of RFC 9110 recommends, for the codes of
      its sections 15.3 to 15.6 that a file server is likely to meet. */
  function StandardReason(code: nat): Option<string> {
    match code
    case 200 => Some("OK")
    case 201 => Some("Created")
    case 202 => Some("Accepted")
    case 204 => Some("No Content")
    case 206 => Some("Partial Content")
    case 301 => Some("Moved Permanently")
    case 302 => Some("Found")
    case 304 => Some("Not Modified")
    case 400 => Some("Bad Request")
    case 401 => Some("Unauthorized")
    case 403 => Some("Forbidden")
    case 404 => Some("Not Found")
    case 405 => Some("Method Not Allowed")
    case 416 => Some("Range Not Satisfiable")
    case 500 => Some("Internal Server Error")
    case 501 => Some("Not Implemented")
    case 502 => Some("Bad Gateway")
    case 503 => Some("Service Unavailable")
    case _ => None
  }

  /** Two statuses of the same kind, whatever error they carry. */
  predicate SameKind(s: HttpStatus, t: HttpStatus) {
    && (s.OK? <==> t.OK?)
    && (s.BadRequest? <==> t.BadRequest?)
    && (s.NotFound? <==> t.NotFound?)
    && (s.InternalServerError? <==> t.InternalServerError?)
  }

  /** Each status has its own code, in the class section 15 of RFC 9110
      gives it: success for `OK`, client error for a bad request or a missing
      resource, server error otherwise. */
  lemma StatusClasses(s: HttpStatus, t: HttpStatus)
    ensures AsTuple(s).0 / 100 == 2 <==> s.OK?
    ensures AsTuple(s).0 / 100 == 4 <==> s.BadRequest? || s.NotFound?
    ensures AsTuple(s).0 / 100 == 5 <==> s.InternalServerError?
    ensures AsTuple(s).0 == AsTuple(t).0 <==> AsTuple(s).1 == AsTuple(t).1
    ensures AsTuple(s).0 == AsTuple(t).0 <==> SameKind(s, t)
  {
  }

  datatype HttpResponse = HttpResponse(status: HttpStatus, headers: map<string, string>, content: seq<byte>)

  /** `HttpResponse::new`: 200, no headers, no body. */
  function New(): (r: HttpResponse)
    ensures AsTuple(r.status).0 == 200 && |r.headers| == 0 && |r.content| == 0
  {
    HttpResponse(OK, map[], [])
  }

  /** `Default`: 200 with a plain-text, uncached, empty body. */
  function Default(): (r: HttpResponse)
    ensures AsTuple(r.status).0 == 200 && |r.content| == 0
    ensures r.headers.Keys == {"Content-Type", "Cache-Control"}
    ensures r.headers["Content-Type"] == "text/plain" && r.headers["Cache-Control"] == "no-cache"
  {
    HttpResponse(OK, map["Content-Type" := "text/plain", "Cache-Control" := "no-cache"], [])
  }

  /** `From<HttpStatus>`: the default response with the given status. */
  function FromStatus(status: HttpStatus): (r: HttpResponse)
    ensures r.status == status && r.headers == Default().headers && r.content == []
  {
    Default().(status := status)
  }

  /** `add_header`: sets one key, overwriting it, and nothing else. */
  function AddHeader(r: HttpResponse, key: string, value: string): (r': HttpResponse)
    ensures r'.status == r.status && r'.content == r.content
    ensures r'.headers.Keys == r.headers.Keys + {key} && r'.headers[key] == value
    ensures forall k :: k in r.headers && k != key ==> r'.headers[k] == r.headers[k]
  {
    r.(headers := r.headers[key := value])
  }

  /** Setting a key twice keeps the second value; setting two keys does
      not depend on the order. */
  lemma AddHeaderOverwrites(r: HttpResponse, key: string, v1: string, v2: string, other: string, w: string)
    ensures AddHeader(AddHeader(r, key, v1), key, v2) == AddHeader(r, key, v2)
    ensures other != key ==>
      AddHeader(AddHeader(r, key, v1), other, w) == AddHeader(AddHeader(r, other, w), key, v1)
  {
  }

  /** `add_content`: appends the bytes and sets `Content-Length` to the
      length of this chunk. */
  function AddContent(r: HttpResponse, chunk: seq<byte>): (r': HttpResponse)
    ensures r'.status == r.status && r'.content == r.content + chunk
    ensures r'.headers == AddHeader(r, "Content-Length", NatToString(|chunk|)).headers
  {
    AddHeader(r, "Content-Length", NatToString(|chunk|)).(content := r.content + chunk)
  }

  lemma NatToStringInjective(m: nat, n: nat)
    requires NatToString(m) == NatToString(n)
    ensures m == n
  {
    NatToStringValue(m);
    NatToStringValue(n);
  }

  /** One chunk gives a matching `Content-Length`; after a second chunk
      the header gives only the second chunk's length, which is less than
      the body's when the first chunk was not empty. */
  lemma ContentLengthOfLastChunk(r: HttpResponse, a: seq<byte>, b: seq<byte>)
    requires r.content == []
    ensures AddContent(r, a).headers["Content-Length"] == NatToString(|AddContent(r, a).content|)
    ensures var r2 := AddContent(AddContent(r, a), b);
      && r2.content == a + b
      && r2.headers["Content-Length"] == NatToString(|b|)
      && (|a| > 0 ==> r2.headers["Content-Length"] != NatToString(|r2.content|))
  {
    var r2 := AddContent(AddContent(r, a), b);
    if |a| > 0 && r2.headers["Content-Length"] == NatToString(|r2.content|) {
      NatToStringInjective(|b|, |a + b|);
    }
  }

  /** `set_status`. */
  function SetStatus(r: HttpResponse, status: HttpStatus): (r': HttpResponse)
    ensures r'.status == status && r'.headers == r.headers && r'.content == r.content
  {
    r.(status := status)
  }

  // ---------------------------------------------------------------------
  // send
  // ---------------------------------------------------------------------

  /** The order a `HashMap` yields: every key of the map exactly once. */
  predicate IsKeyOrder(headers: map<string, string>, order: seq<string>) {
    && |order| == |headers.Keys|
    && (forall i :: 0 <= i < |order| ==> order[i] in headers)
    && (forall i, j :: 0 <= i < j < |order| ==> order[i] != order[j])
  }

  /** `HTTP/1.1 {code} {reason}`: one line, since neither the decimal
      code nor any reason phrase holds a line break. */
  function StatusLine(status: HttpStatus): (line: string)
    ensures '\n' !in line
    ensures |line| > 9 && line[..9] == "HTTP/1.1 "
  {
    var code := NatToString(AsTuple(status).0);
    DigitsOneLine(code);
    ReasonOneLine(status);
    "HTTP/1.1 " + (code + (" " + AsTuple(status).1))
  }

  /** A client reading the status line splits it at spaces: the first piece
      is the version, the second parses as a `u16` to the code, and the rest
      of the line is the reason phrase. */
  lemma StatusLineReadsBack(status: HttpStatus)
    ensures var line := StatusLine(status);
      && SplitOnce(line, ' ') == Some(("HTTP/1.1", line[9..]))
      && SplitOnce(line[9..], ' ').Some?
      && ParseRadix(SplitOnce(line[9..], ' ').value.0, 10, 0, 0xFFFF) == Some(AsTuple(status).0)
      && SplitOnce(line[9..], ' ').value.1 == AsTuple(status).1
  {
    var code := NatToString(AsTuple(status).0);
    DigitsOneLine(code);
    StatusLineParts(code, AsTuple(status).1);
    NatToStringRoundTrip(AsTuple(status).0, 0xFFFF);
  }

  /** The version, the code and the reason, each found by splitting at the
      next space. */
  lemma StatusLineParts(code: string, reason: string)
    requires ' ' !in code
    ensures var line := "HTTP/1.1 " + (code + (" " + reason));
      && line[9..] == code + (" " + reason)
      && SplitOnce(line, ' ') == Some(("HTTP/1.1", line[9..]))
      && SplitOnce(line[9..], ' ') == Some((code, reason))
  {
    var rest := code + (" " + reason);
    assert "HTTP/1.1 " + rest == "HTTP/1.1" + [' '] + rest;
    SplitOnceAt("HTTP/1.1", ' ', rest);
    assert rest == code + [' '] + reason;
    SplitOnceAt(code, ' ', reason);
  }

  /** `{key}: {value}`. */
  function HeaderLine(key: string, value: string): string {
    key + ": " + value
  }

  /** The header lines in the given order, each ended by `\r\n`: empty
      exactly when there are no headers, and otherwise ending in a line
      break. */
  function HeaderBlock(headers: map<string, string>, order: seq<string>): (b: string)
    requires forall i :: 0 <= i < |order| ==> order[i] in headers
    ensures |order| == 0 <==> b == []
    ensures |order| > 0 ==> |b| >= 2 && b[|b| - 2..] == "\r\n"
  {
    if |order| == 0 then []
    else HeaderLine(order[0], headers[order[0]]) + "\r\n" + HeaderBlock(headers, order[1..])
  }

  /** The head `send` writes first: status line, headers, empty line. It
      starts with the protocol version and, with or without headers, ends
      with the blank line that closes an HTTP/1.1 head. */
  function Head(r: HttpResponse, order: seq<string>): (h: string)
    requires IsKeyOrder(r.headers, order)
    ensures |h| >= 13 && h[..9] == "HTTP/1.1 "
    ensures h[|h| - 4..] == "\r\n\r\n"
  {
    StatusLine(r.status) + "\r\n" + HeaderBlock(r.headers, order) + "\r\n"
  }

  /** What follows the head: the content, or for an empty body the error
      text of a 400 or 500 status, or nothing. */
  function Body(r: HttpResponse, errorText: string): (b: seq<byte>)
    ensures |r.content| > 0 ==> b == r.content
    ensures |r.content| == 0 && (r.status.OK? || r.status.NotFound?) ==> b == []
    ensures |r.content| == 0 && (r.status.BadRequest? || r.status.InternalServerError?) ==> b == Encode(errorText)
  {
    if |r.content| > 0 then r.content
    else match r.status
      case InternalServerError(_) => Encode(errorText)
      case BadRequest(_) => Encode(errorText)
      case _ => []
  }

  /** `send`: the bytes written to the stream. */
  function Send(r: HttpResponse, order: seq<string>, errorText: string): (bytes: seq<byte>)
    requires IsKeyOrder(r.headers, order)
    ensures |bytes| == |Encode(Head(r, order))| + |Body(r, errorText)|
    ensures bytes[..|Encode(Head(r, order))|] == Encode(Head(r, order))
    ensures bytes[|Encode(Head(r, order))|..] == Body(r, errorText)
  {
    var head := Encode(Head(r, order));
    assert (head + Body(r, errorText))[..|head|] == head;
    head + Body(r, errorText)
  }

  /** The header text as `(key, value)` pairs once trimmed. */
  function TrimmedPairs(headers: map<string, string>, order: seq<string>): seq<(string, string)>
    requires forall i :: 0 <= i < |order| ==> order[i] in headers
  {
    if |order| == 0 then [] else [(Trim(order[0]), Trim(headers[order[0]]))] + TrimmedPairs(headers, order[1..])
  }

  /** Keys and values that keep a header on one line and its key before
      the first `:`. */
  predicate PlainHeaders(headers: map<string, string>) {
    forall k :: k in headers ==> '\n' !in k && ':' !in k && '\n' !in headers[k]
  }

  lemma HeaderLineOneLine(key: string, value: string)
    requires '\n' !in key && '\n' !in value
    ensures '\n' !in HeaderLine(key, value)
  {
    var line := HeaderLine(key, value);
    forall i | 0 <= i < |line| ensures line[i] != '\n' {
      if i < |key| { assert line[i] == key[i]; }
      else if i >= |key| + 2 { assert line[i] == value[i - |key| - 2]; }
    }
  }

  /** Split into lines, the header block gives one line per header and then
      the empty line, and the request parser's header reading gives back the
      trimmed pairs. */
  lemma {:induction false} HeaderBlockReadsBack(headers: map<string, string>, order: seq<string>)
    requires forall i :: 0 <= i < |order| ==> order[i] in headers
    requires PlainHeaders(headers)
    ensures Request.Headers(Lines(HeaderBlock(headers, order) + "\r\n")) == TrimmedPairs(headers, order)
    ensures |Lines(HeaderBlock(headers, order) + "\r\n")| == |order| + 1
  {
    if |order| == 0 {
      BlankLineAlone();
      Request.HeadersOfLine("");
    } else {
      var k := order[0];
      var line := HeaderLine(k, headers[k]);
      var rest := HeaderBlock(headers, order[1..]) + "\r\n";
      var pair := (Trim(k), Trim(headers[k]));
      HeaderBlockReadsBack(headers, order[1..]);
      assert TrimmedPairs(headers, order) == [pair] + TrimmedPairs(headers, order[1..]);
      assert Lines(HeaderBlock(headers, order) + "\r\n") == [line] + Lines(rest) by {
        HeaderLineOneLine(k, headers[k]);
        HeaderBlockCons(headers, order);
        LinesCons(line, rest);
      }
      assert Request.Headers([line] + Lines(rest)) == [pair] + Request.Headers(Lines(rest)) by {
        Request.HeadersAppend([line], Lines(rest));
        assert ':' in line by { assert line[|k|] == ':'; }
        Request.HeadersOfLine(line);
        Request.HeaderLineParses(k, headers[k]);
      }
    }
  }

  /** The first header's line, then the block of the others. */
  lemma HeaderBlockCons(headers: map<string, string>, order: seq<string>)
    requires |order| > 0 && forall i :: 0 <= i < |order| ==> order[i] in headers
    ensures HeaderBlock(headers, order) + "\r\n" ==
      HeaderLine(order[0], headers[order[0]]) + "\r\n" + (HeaderBlock(headers, order[1..]) + "\r\n")
  {
    var line, tail := HeaderLine(order[0], headers[order[0]]), HeaderBlock(headers, order[1..]);
    assert HeaderBlock(headers, order) == line + "\r\n" + tail;
  }

  /** The blank line that ends a head is one empty line. */
  lemma BlankLineAlone()
    ensures Lines("\r\n") == [""]
  {
    LinesCons("", "");
    assert "" + "\r\n" + "" == "\r\n";
    assert Split("", '\n') == [""];
  }

  lemma DigitsOneLine(s: string)
    requires AllDigits(s, 10)
    ensures '\n' !in s && ' ' !in s
  {
    forall i | 0 <= i < |s| ensures s[i] != '\n' && s[i] != ' ' {
      assert DigitValue(s[i], 10).Some?;
    }
  }

  lemma ReasonOneLine(status: HttpStatus)
    ensures '\n' !in AsTuple(status).1
  {
  }

  /** The lines of a head: the status line, then those of the header block
      and the empty line. */
  lemma HeadLines(r: HttpResponse, order: seq<string>)
    requires IsKeyOrder(r.headers, order)
    ensures var rest := HeaderBlock(r.headers, order) + "\r\n";
      Lines(Head(r, order)) == [StatusLine(r.status)] + Lines(rest)
  {
    var status := StatusLine(r.status);
    var rest := HeaderBlock(r.headers, order) + "\r\n";
    assert Head(r, order) == status + "\r\n" + rest;
    LinesCons(status, rest);
  }

  /** A response head, read back as text and split into lines the way the
      request parser does, gives the status line, one line per header in
      the order written, and the empty line; its headers parse back to the
      trimmed keys and values. */
  lemma HeadReadsBack(r: HttpResponse, order: seq<string>)
    requires IsKeyOrder(r.headers, order) && PlainHeaders(r.headers)
    ensures Decode(Encode(Head(r, order))) == Some(Head(r, order))
    ensures var lines := Lines(Head(r, order));
      && |lines| == |order| + 2
      && lines[0] == StatusLine(r.status)
      && Request.Headers(lines[1..]) == TrimmedPairs(r.headers, order)
  {
    DecodeEncode(Head(r, order));
    var rest := HeaderBlock(r.headers, order) + "\r\n";
    HeadLines(r, order);
    HeaderBlockReadsBack(r.headers, order);
    assert Lines(Head(r, order))[1..] == Lines(rest);
  }
}

=== FILE: http_server.dfy ===
/** The routing half of `src/http/server.rs`: a table of endpoints per HTTP
    method, the first endpoint that matches a path, and the response a request
    turns into. Sockets, threads and the Ctrl+C handler are left out. The
    handlers are arbitrary functions, so they are parameters of the router. */
module Server {
  import opened Wrappers
  import opened Response
  import HttpErrors
  import Request

  /** The one method the router keeps a table for. */
  datatype HttpMethod = Get

  /** A parsed request together with the method it was routed by. */
  datatype Incoming = Incoming(httpMethod: HttpMethod, request: Request.HttpRequest)

  type Handler = Request.HttpRequest -> Result<HttpResponse, HttpErrors.ServerError>

  /** `Router`: the `GET` endpoints in registration order. */
  datatype Router = Router(get: seq<(string, Handler)>)

  /** `Router::new`. */
  function New(): (r: Router)
    ensures |r.get| == 0
  {
    Router([])
  }

  /** `Router::get`: registers an endpoint after the existing ones. */
  function AddGet(r: Router, endpoint: string, handler: Handler): (r': Router)
    ensures |r'.get| == |r.get| + 1 && r'.get[..|r.get|] == r.get && r'.get[|r.get|].0 == endpoint
    ensures forall req :: r'.get[|r.get|].1(req) == handler(req)
  {
    Router(r.get + [(endpoint, handler)])
  }

  /** `Index<HttpMethod>`: the table of a method. */
  function Index(r: Router, m: HttpMethod): (table: seq<(string, Handler)>)
    ensures m.Get? ==> |table| == |r.get| && forall i :: 0 <= i < |table| ==> table[i].0 == r.get[i].0
    ensures m.Get? ==> forall i, req :: 0 <= i < |table| ==> table[i].1(req) == r.get[i].1(req)
  {
    match m
    case Get => r.get
  }

  // `str::strip_suffix("/*")`.
  function StripWildcard(endpoint: string): (r: Option<string>)
    ensures r.Some? <==> |endpoint| >= 2 && endpoint[|endpoint| - 2..] == "/*"
    ensures r.Some? ==> endpoint == r.value + "/*"
  {
    if |endpoint| >= 2 && endpoint[|endpoint| - 2..] == "/*" then Some(endpoint[..|endpoint| - 2]) else None
  }

  // An endpoint ending in `/*` matches every path that starts with what
  // comes before the `/*`; any other endpoint matches only itself.
  function Matches(endpoint: string, path: string): (m: bool)
    ensures |endpoint| >= 2 && endpoint[|endpoint| - 2..] == "/*" ==>
      (m <==> |path| >= |endpoint| - 2 && path[..|endpoint| - 2] == endpoint[..|endpoint| - 2])
    ensures !(|endpoint| >= 2 && endpoint[|endpoint| - 2..] == "/*") ==> (m <==> path == endpoint)
  {
    match StripWildcard(endpoint)
    case Some(prefix) => prefix <= path
    case None => path == endpoint
  }

  /** The index of the first endpoint of `table` that matches `path`. */
  function FirstMatch(table: seq<(string, Handler)>, path: string): (r: Option<nat>)
    ensures r.Some? ==> r.value < |table| && Matches(table[r.value].0, path)
    ensures r.Some? ==> forall j :: 0 <= j < r.value ==> !Matches(table[j].0, path)
    ensures r.None? <==> forall j :: 0 <= j < |table| ==> !Matches(table[j].0, path)
  {
    if |table| == 0 then None
    else if Matches(table[0].0, path) then Some(0)
    else match FirstMatch(table[1..], path)
      case None => None
      case Some(i) => Some(i + 1)
  }

  /** `Router::route`: a request that failed to parse is a 400; a request
      no endpoint matches is a 404; otherwise the first matching handler
      answers, and an error it returns becomes a 400 when it is a bad
      request and a 500 otherwise. */
  function Route(r: Router, incoming: Result<Incoming, HttpErrors.HttpRequestError>): (resp: HttpResponse)
    ensures incoming.Err? ==> resp == FromStatus(HttpStatus.BadRequest(incoming.error))
    ensures incoming.Ok? && FirstMatch(Index(r, incoming.value.httpMethod), incoming.value.request.path).None? ==>
      resp == FromStatus(NotFound)
    ensures incoming.Ok? && FirstMatch(Index(r, incoming.value.httpMethod), incoming.value.request.path).Some? ==>
      var h := Index(r, incoming.value.httpMethod)[FirstMatch(Index(r, incoming.value.httpMethod), incoming.value.request.path).value].1;
      (match h(incoming.value.request)
       case Ok(answer) => resp == answer
       case Err(e) => resp == FromStatus(if e.BadRequest? then HttpStatus.BadRequest(e.requestError) else InternalServerError(e)))
  {
    match incoming
    case Err(e) => FromStatus(HttpStatus.BadRequest(e))
    case Ok(req) =>
      var table := Index(r, req.httpMethod);
      match FirstMatch(table, req.request.path)
      case None => FromStatus(NotFound)
      case Some(i) =>
        match table[i].1(req.request)
        case Ok(answer) => answer
        case Err(e) =>
          FromStatus(if e.BadRequest? then HttpStatus.BadRequest(e.requestError) else InternalServerError(e))
  }

  /** A 500 comes only from an error a handler returned, or from a handler
      that answered with a 500 itself; the router adds none of its own. */
  lemma RouteServerErrors(r: Router, incoming: Result<Incoming, HttpErrors.HttpRequestError>)
    requires Route(r, incoming).status.InternalServerError?
    ensures incoming.Ok?
    ensures FirstMatch(Index(r, incoming.value.httpMethod), incoming.value.request.path).Some?
    ensures var table := Index(r, incoming.value.httpMethod);
      var h := table[FirstMatch(table, incoming.value.request.path).value].1;
      h(incoming.value.request) == Err(Route(r, incoming).status.serverError) ||
      h(incoming.value.request) == Ok(Route(r, incoming))
  {
  }

  /** Registering an endpoint never changes which endpoint answers a path
      an earlier one matches; the new one answers only paths nothing before
      it matched. */
  lemma {:induction false} FirstRegisteredWins(r: Router, endpoint: string, handler: Handler, path: string)
    ensures var before := FirstMatch(r.get, path);
      var after := FirstMatch(AddGet(r, endpoint, handler).get, path);
      && (before.Some? ==> after == before)
      && (before.None? && Matches(endpoint, path) ==> after == Some(|r.get|))
      && (before.None? && !Matches(endpoint, path) ==> after.None?)
  {
    var table := AddGet(r, endpoint, handler).get;
    var before := FirstMatch(r.get, path);
    assert forall j :: 0 <= j < |r.get| ==> table[j].0 == r.get[j].0;
    if before.Some? {
      FirstMatchAt(table, path, before.value);
    } else if Matches(endpoint, path) {
      FirstMatchAt(table, path, |r.get|);
    } else {
      assert forall j :: 0 <= j < |table| ==> !Matches(table[j].0, path);
    }
  }

  /** An endpoint that matches, after endpoints that do not, is the first
      match. */
  lemma FirstMatchAt(table: seq<(string, Handler)>, path: string, i: nat)
    requires i < |table| && Matches(table[i].0, path)
    requires forall j :: 0 <= j < i ==> !Matches(table[j].0, path)
    ensures FirstMatch(table, path) == Some(i)
  {
  }

  // The wildcard compares characters, not path segments: `/video/*`
  // matches `/video` itself and `/videos` as well as `/video/clip.mp4`,
  // and an endpoint ending in `*` without the `/` is matched literally.
  lemma WildcardMatches()
    ensures Matches("/video/*", "/video/clip.mp4") && Matches("/video/*", "/video")
    ensures Matches("/video/*", "/videos") && !Matches("/video/*", "/vide")
    ensures Matches("/*", "/anything") && Matches("/*", "")
    ensures !Matches("/video*", "/videos") && Matches("/video*", "/video*")
  {
    assert "/video/*"[6..] == "/*" && "/video/*"[..6] == "/video";
    assert "/*"[0..] == "/*" && "/*"[..0] == "";
    assert "/video*"[5..] != "/*";
  }
}

=== FILE: math.dfy ===
/** The display matrix of `src/math.rs`: nine `i32` values read from a
    stream's 36-byte side data (row-major, each entry fixed point), indexed
    by `(row, column)`, and the guard that `rotation` applies before it
    computes an angle. */
module Math {
  import opened Wrappers
  import opened RustNum

  /** The side data kinds a stream can carry; only the display matrix
      matters here. */
  datatype SideDataType = DisplayMatrixData | OtherData(id: int)

  /** `AVPacketSideData`: the kind and the raw bytes (its `size` is their
      count). */
  datatype SideData = SideData(kind: SideDataType, bytes: seq<byte>)

  /** The error keeps the side data it rejected. */
  datatype MathError = InvalidSideDataSize(sideData: SideData)

  type Entries = s: seq<int> | |s| == 9 witness [0, 0, 0, 0, 0, 0, 0, 0, 0]

  /** `Matrix3x3`: `data[3 * i + j]` is row `i`, column `j`. */
  datatype Matrix3x3 = Matrix3x3(data: Entries) {
    predicate Valid() {
      forall k :: 0 <= k < 9 ==> InI32(data[k])
    }
  }

  const P24: nat := 0x100_0000

  /** The spacing of `f32` values around a non-negative integer `m`: 1
      below 2^24, and doubling with every further bit. */
  function Ulp(m: nat): (u: nat)
    ensures u >= 1
    ensures m < u * P24
    ensures u > 1 ==> m >= u * (P24 / 2) && u % 2 == 0
  {
    if m < P24 then 1 else 2 * Ulp(m / 2)
  }

  /** The quotient `q` for which `q * u` is the multiple of `u` nearest to
      `m`, halfway cases going to the even quotient (round-to-nearest-even
      on the grid of step `u`). */
  function RoundQuotient(m: nat, u: nat): (q: nat)
    requires u >= 1
    ensures 2 * Abs(q * u - m) <= u
  {
    var q, rem := m / u, m % u;
    assert m == q * u + rem;
    if 2 * rem < u then q
    else if 2 * rem > u then
      assert (q + 1) * u - m == u - rem;
      q + 1
    else if q % 2 == 0 then q
    else
      assert (q + 1) * u - m == u - rem;
      q + 1
  }

  /** Half a grid step is at most 2^-24 of any value the step applies to. */
  lemma RelativeError(m: nat, u: nat, d: nat)
    requires u >= 1 && 2 * d <= u
    requires m < u * P24 && (u > 1 ==> m >= u * (P24 / 2))
    ensures d * P24 <= m
  {
    if u == 1 {
      assert d == 0;
    } else {
      assert 2 * d * (P24 / 2) <= u * (P24 / 2);
    }
  }

  /** `x as f32` for an `i32`: the nearest single-precision value, ties to
      even. Its relative error is at most 2^-24 and it keeps the sign. */
  function F32Round(x: int): (r: int)
    ensures Abs(r - x) * P24 <= Abs(x)
    ensures x >= 0 ==> r >= 0
    ensures x <= 0 ==> r <= 0
  {
    var m := Abs(x);
    var u := Ulp(m);
    var mag := RoundQuotient(m, u) * u;
    RelativeError(m, u, Abs(mag - m));
    if x < 0 then -mag else mag
  }

  /** Two multiples of `u` at most half a step apart are the same. */
  lemma MultiplesApart(a: int, b: int, u: nat)
    requires u >= 1 && 2 * Abs(a * u - b * u) <= u
    ensures a == b
  {
    var d := a - b;
    assert a * u - b * u == d * u;
  }

  /** A value that already lies on its grid is an `f32` and is kept. */
  lemma F32RoundExact(x: int, q: nat)
    requires Abs(x) == q * Ulp(Abs(x))
    ensures F32Round(x) == x
  {
    var m, u := Abs(x), Ulp(Abs(x));
    MultiplesApart(RoundQuotient(m, u), q, u);
  }

  /** Below 2^24 every `i32` is an `f32`. */
  lemma F32RoundSmall(x: int)
    requires Abs(x) < P24
    ensures F32Round(x) == x
  {
  }

  /** 2^30 lies on the `f32` grid of step 128. */
  lemma UlpOfTwoToThe30()
    ensures Ulp(0x4000_0000) == 128
  {
    assert Ulp(0x100_0000) == 2;
    assert Ulp(0x200_0000) == 4;
    assert Ulp(0x400_0000) == 8;
    assert Ulp(0x800_0000) == 16;
    assert Ulp(0x1000_0000) == 32;
    assert Ulp(0x2000_0000) == 64;
  }

  /** `to_fixed_point(x, n) = ((x as f32) / (1 << n) as f32) as i32`:
      division by a power of two is exact in `f32`, so the value is the
      rounded `x` divided by 2^n and truncated toward zero. */
  function ToFixedPoint(x: int, n: nat): (r: int)
    requires InI32(x)
    ensures n >= 1 ==> InI32(r)
  {
    var v := F32Round(x);
    assert Abs(v) <= 0x8000_0080 by {
      assert Abs(v - x) * P24 <= Abs(x);
    }
    var q := TruncDiv(v, Pow2(n));
    assert n >= 1 ==> InI32(q) by {
      if n >= 1 {
        assert Pow2(n) >= 2;
        TruncDivShrinks(v, Pow2(n));
      }
    }
    q
  }

  /** For `|x| < 2^24` the conversion is integer division by 2^n truncated
      toward zero; above that the `f32` rounding can move the result. */
  lemma ToFixedPointSmall(x: int, n: nat)
    requires Abs(x) < P24
    ensures ToFixedPoint(x, n) == TruncDiv(x, Pow2(n))
  {
    F32RoundSmall(x);
  }

  /** 2.30 fixed point for the last column, 16.16 elsewhere. */
  function FractionBits(k: nat): nat {
    if k == 2 || k == 5 || k == 8 then 30 else 16
  }

  /** The native-endian (little-endian) `i32` at byte offset `4 * k`. */
  function ReadI32(bytes: seq<byte>, k: nat): (v: int)
    requires 4 * k + 4 <= |bytes|
    ensures InI32(v)
  {
    var u := bytes[4 * k] as int + 0x100 * bytes[4 * k + 1] as int
      + 0x1_0000 * bytes[4 * k + 2] as int + 0x100_0000 * bytes[4 * k + 3] as int;
    if u < 0x8000_0000 then u else u - 0x1_0000_0000
  }

  /** The little-endian bytes of an `i32`, the inverse of `ReadI32`. */
  function I32Bytes(v: int): (bs: seq<byte>)
    requires InI32(v)
    ensures |bs| == 4
  {
    var u := if v < 0 then v + 0x1_0000_0000 else v;
    var q1 := u / 0x100;
    var q2 := q1 / 0x100;
    [u % 0x100, q1 % 0x100, q2 % 0x100, q2 / 0x100]
  }

  /** The four bytes weigh back to the unsigned reading of `v`. */
  lemma I32BytesWeigh(v: int)
    requires InI32(v)
    ensures var bs := I32Bytes(v);
      bs[0] as int + 0x100 * bs[1] as int + 0x1_0000 * bs[2] as int + 0x100_0000 * bs[3] as int
        == if v < 0 then v + 0x1_0000_0000 else v
  {
    var u := if v < 0 then v + 0x1_0000_0000 else v;
    var q1 := u / 0x100;
    var q2 := q1 / 0x100;
    assert u == u % 0x100 + 0x100 * q1;
    assert q1 == q1 % 0x100 + 0x100 * q2;
    assert q2 == q2 % 0x100 + 0x100 * (q2 / 0x100);
  }

  lemma ReadI32Bytes(pre: seq<byte>, v: int, post: seq<byte>)
    requires InI32(v) && |pre| % 4 == 0
    ensures ReadI32(pre + I32Bytes(v) + post, |pre| / 4) == v
  {
    var s := pre + I32Bytes(v) + post;
    var k := |pre| / 4;
    assert 4 * k == |pre|;
    assert s[4 * k..4 * k + 4] == I32Bytes(v);
    I32BytesWeigh(v);
  }

  /** `Matrix3x3::from_side_data`: anything but 36 bytes is rejected;
      otherwise entry `k` is the `k`-th `i32` converted from its fixed-point
      form. */
  function FromSideData(sd: SideData): (r: Result<Matrix3x3, MathError>)
    ensures r.Err? <==> |sd.bytes| != 36
    ensures r.Err? ==> r.error == InvalidSideDataSize(sd)
    ensures r.Ok? ==> r.value.Valid() && forall k :: 0 <= k < 9 ==>
      r.value.data[k] == ToFixedPoint(ReadI32(sd.bytes, k), FractionBits(k))
  {
    if |sd.bytes| != 36 then Err(InvalidSideDataSize(sd))
    else
      var data := seq(9, k requires 0 <= k < 9 => ToFixedPoint(ReadI32(sd.bytes, k), FractionBits(k)));
      Ok(Matrix3x3(data))
  }

  /** The raw bytes of a matrix stored as nine `i32` values. */
  function RawBytes(raw: seq<int>): (bs: seq<byte>)
    requires forall k :: 0 <= k < |raw| ==> InI32(raw[k])
    ensures |bs| == 4 * |raw|
  {
    if |raw| == 0 then [] else RawBytes(raw[..|raw| - 1]) + I32Bytes(raw[|raw| - 1])
  }

  lemma {:induction false} RawBytesRead(raw: seq<int>, k: nat)
    requires forall i :: 0 <= i < |raw| ==> InI32(raw[i])
    requires k < |raw|
    ensures ReadI32(RawBytes(raw), k) == raw[k]
  {
    var init := raw[..|raw| - 1];
    if k == |raw| - 1 {
      ReadI32Bytes(RawBytes(init), raw[k], []);
      assert RawBytes(init) + I32Bytes(raw[k]) + [] == RawBytes(raw);
    } else {
      RawBytesRead(init, k);
      assert RawBytes(raw)[..4 * k + 4] == RawBytes(init)[..4 * k + 4];
    }
  }

  /** One in each fixed-point format converts to 1, and zero to 0. */
  lemma FixedPointOnes()
    ensures ToFixedPoint(0x1_0000, 16) == 1 && ToFixedPoint(0x4000_0000, 30) == 1
    ensures ToFixedPoint(0, 16) == 0 && ToFixedPoint(0, 30) == 0
  {
    Pow2Values();
    ToFixedPointSmall(0x1_0000, 16);
    ToFixedPointSmall(0, 16);
    ToFixedPointSmall(0, 30);
    UlpOfTwoToThe30();
    F32RoundExact(0x4000_0000, 0x80_0000);
  }

  /** The raw identity display matrix: 65536 (1.0 in 16.16) on the first
      two diagonal entries and 2^30 (1.0 in 2.30) in the corner. */
  const IdentityRaw: seq<int> := [0x1_0000, 0, 0, 0, 0x1_0000, 0, 0, 0, 0x4000_0000]

  lemma IdentityRawReads(bytes: seq<byte>)
    requires bytes == RawBytes(IdentityRaw)
    ensures |bytes| == 36
    ensures forall k :: 0 <= k < 9 ==> ReadI32(bytes, k) == IdentityRaw[k]
  {
    forall k | 0 <= k < 9 ensures ReadI32(bytes, k) == IdentityRaw[k] {
      RawBytesRead(IdentityRaw, k);
    }
  }

  lemma FixedPointOneAt(x: int, n: nat)
    requires (x == 0x1_0000 && n == 16) || (x == 0x4000_0000 && n == 30)
    ensures ToFixedPoint(x, n) == 1
  {
    FixedPointOnes();
  }

  lemma FixedPointZeroAt(n: nat)
    ensures ToFixedPoint(0, n) == 0
  {
    ToFixedPointSmall(0, n);
  }

  lemma IdentityEntry(k: nat)
    requires k < 9
    ensures ToFixedPoint(IdentityRaw[k], FractionBits(k)) == if k == 0 || k == 4 || k == 8 then 1 else 0
  {
    var x, n := IdentityRaw[k], FractionBits(k);
    if k == 0 || k == 4 || k == 8 {
      FixedPointOneAt(x, n);
    } else {
      assert x == 0;
      FixedPointZeroAt(n);
    }
  }

  /** The identity display matrix parses to the integer identity. */
  lemma FromSideDataIdentity(bytes: seq<byte>)
    requires bytes == RawBytes(IdentityRaw)
    ensures FromSideData(SideData(DisplayMatrixData, bytes)) == Ok(Matrix3x3([1, 0, 0, 0, 1, 0, 0, 0, 1]))
  {
    IdentityRawReads(bytes);
    var r := FromSideData(SideData(DisplayMatrixData, bytes));
    var want := [1, 0, 0, 0, 1, 0, 0, 0, 1];
    forall k | 0 <= k < 9 ensures r.value.data[k] == want[k] {
      IdentityEntry(k);
    }
    assert r.value.data == want;
  }

  /** `m[(i, j)]`. */
  function Get(m: Matrix3x3, i: nat, j: nat): (v: int)
    requires i < 3 && j < 3
    ensures v == Elements(m)[3 * i + j]
  {
    m.data[3 * i + j]
  }

  /** `m[(i, j)] = v` through `IndexMut`; the value is an `i32`, so a
      matrix of `i32` entries stays one. */
  function Set(m: Matrix3x3, i: nat, j: nat, v: int): (r: Matrix3x3)
    requires i < 3 && j < 3 && InI32(v)
    ensures m.Valid() ==> r.Valid()
    ensures Get(r, i, j) == v
    ensures forall i', j' :: 0 <= i' < 3 && 0 <= j' < 3 && (i', j') != (i, j) ==>
      Get(r, i', j') == Get(m, i', j')
  {
    Matrix3x3(m.data[3 * i + j := v])
  }

  /** `Deref`: the nine values in row-major order. */
  function Elements(m: Matrix3x3): (s: seq<int>)
    ensures |s| == 9
  {
    m.data
  }

  /** Each of the nine positions is one `(i, j)` pair, so reading every pair
      reads the whole matrix in row-major order. */
  lemma ElementsRowMajor(m: Matrix3x3)
    ensures Elements(m) == [Get(m, 0, 0), Get(m, 0, 1), Get(m, 0, 2),
                            Get(m, 1, 0), Get(m, 1, 1), Get(m, 1, 2),
                            Get(m, 2, 0), Get(m, 2, 1), Get(m, 2, 2)]
  {
  }

  /** `rotation`'s guard: the scale of the first or second column
      (`hypot(data[0], data[3])`, `hypot(data[1], data[4])`) is zero, which
      for integers happens exactly when both of its entries are. */
  predicate ZeroScale(m: Matrix3x3) {
    (m.data[0] == 0 && m.data[3] == 0) || (m.data[1] == 0 && m.data[4] == 0)
  }

  /** The guard fires exactly when one of the two column lengths is zero. */
  lemma ZeroScaleIsZeroNorm(m: Matrix3x3)
    ensures ZeroScale(m) <==> (SquaredNorm(m.data[0], m.data[3]) == 0 || SquaredNorm(m.data[1], m.data[4]) == 0)
  {
    SquaresZero(m.data[0], m.data[3]);
    SquaresZero(m.data[1], m.data[4]);
  }

  /** The square of `hypot(x, y)`. */
  function SquaredNorm(x: int, y: int): int {
    x * x + y * y
  }

  lemma SquaresZero(x: int, y: int)
    ensures SquaredNorm(x, y) == 0 <==> x == 0 && y == 0
  {
    if x != 0 {
      assert x * x > 0;
    }
    if y != 0 {
      assert y * y > 0;
    }
  }

  /** `rotation` as written: 0 when the guard fires, otherwise the negated
      `atan2` angle, which is floating point and so a parameter here. */
  function Rotation(m: Matrix3x3, atan2Degrees: real): (r: real)
    ensures ZeroScale(m) ==> r == 0.0
    ensures !ZeroScale(m) ==> r == -atan2Degrees
  {
    if ZeroScale(m) then 0.0 else -atan2Degrees
  }

  /** The all-zero matrix has no rotation at all, yet `rotation` reports
      the same 0 as for the identity, so a caller cannot tell them apart. */
  lemma RotationSingularLooksUnrotated(angle: real)
    ensures Rotation(Matrix3x3([0, 0, 0, 0, 0, 0, 0, 0, 0]), angle) == 0.0
    ensures Rotation(Matrix3x3([1, 0, 0, 0, 1, 0, 0, 0, 1]), 0.0) == 0.0
  {
  }

  /** `rotation` as its documentation describes it: `None` for a matrix
      whose scale is zero, the angle otherwise. */
  function RotationChecked(m: Matrix3x3, atan2Degrees: real): (r: Option<real>)
    ensures r.None? <==> ZeroScale(m)
    ensures r.Some? ==> r.value == Rotation(m, atan2Degrees)
  {
    if ZeroScale(m) then None else Some(-atan2Degrees)
  }
}

=== FILE: routes.dfy ===
/** `src/routes.rs`: the arguments of the frame endpoint, read from the
    query string, and the media file a request path names. This file works
    with a version of `SeekPosition` whose first variant is `TimeBase`
    (ticks) and whose parser is not among the modelled files, so that parser
    and its default are parameters here. The media folder, a global in the
    source, is a parameter too. */
module Routes {
  import opened Wrappers
  import opened RustStr
  import opened RustNum
  import opened Utf8
  import opened HttpParse
  import HttpErrors
  import Request

  /** `SeekPosition` as this file uses it. */
  datatype RoutePosition = TimeBase(ticks: int) | Percentage(fraction: real)

  /** `VideoArgs`. */
  datatype VideoArgs = VideoArgs(film: bool, height: int, seekPosition: RoutePosition, width: int,
                                 end: RoutePosition, step: RoutePosition)

  /** `VideoArgs::from_query_string`: the query is split at `&`; `film` is a
      flag; `height` and `width` default to zero; an `end` of zero ticks
      (also when absent or unparsable and the default is zero) means the
      whole video, and a `step` of zero ticks means one tick. It never
      fails. */
  function FromQueryString(queryString: string, parse: string -> Option<RoutePosition>, default: RoutePosition)
    : (r: Result<VideoArgs, HttpErrors.HttpRequestError>)
    ensures r.Ok?
    ensures var query := Split(queryString, '&');
      && (r.value.film <==> "film" in query)
      && r.value.width == FindQueryArg(query, "width", ParseI32, 0)
      && r.value.height == FindQueryArg(query, "height", ParseI32, 0)
      && r.value.seekPosition == FindQueryArg(query, "start", parse, default)
    ensures r.value.end != TimeBase(0) && r.value.step != TimeBase(0)
    ensures var end := FindQueryArg(Split(queryString, '&'), "end", parse, default);
      r.value.end == if end == TimeBase(0) then Percentage(1.0) else end
    ensures var step := FindQueryArg(Split(queryString, '&'), "step", parse, default);
      r.value.step == if step == TimeBase(0) then TimeBase(1) else step
  {
    var query := Split(queryString, '&');
    Ok(VideoArgs(
      AnyEqual(query, "film"),
      FindQueryArg(query, "height", ParseI32, 0),
      FindQueryArg(query, "start", parse, default),
      FindQueryArg(query, "width", ParseI32, 0),
      match FindQueryArg(query, "end", parse, default)
      case TimeBase(0) => Percentage(1.0)
      case n => n,
      match FindQueryArg(query, "step", parse, default)
      case TimeBase(0) => TimeBase(1)
      case n => n))
  }

  /** With no arguments every value is its default, except that a zero
      default end or step is replaced. */
  lemma EmptyQueryDefaults(parse: string -> Option<RoutePosition>, default: RoutePosition)
    ensures FromQueryString("", parse, default) == Ok(VideoArgs(false, 0, default, 0,
      if default == TimeBase(0) then Percentage(1.0) else default,
      if default == TimeBase(0) then TimeBase(1) else default))
  {
    assert Split("", '&') == [""];
    AbsentArg<int>("height", ParseI32, 0);
    AbsentArg<int>("width", ParseI32, 0);
    AbsentArg<RoutePosition>("start", parse, default);
    AbsentArg<RoutePosition>("end", parse, default);
    AbsentArg<RoutePosition>("step", parse, default);
  }

  lemma AbsentArg<F>(key: string, parse: string -> Option<F>, default: F)
    ensures FindQueryArg([""], key, parse, default) == default
  {
    assert |key + "="| > 0;
  }

  /** An explicit `end` of zero is read as "to the end", not as the
      start. */
  lemma ExplicitZeroEnd(parse: string -> Option<RoutePosition>, default: RoutePosition)
    requires parse("0") == Some(TimeBase(0))
    ensures FromQueryString("end=0", parse, default).value.end == Percentage(1.0)
  {
    assert "end" + "=0" == "end=0";
    SinglePiece("end=0");
    ZeroArg("end", parse, default);
  }

  /** An explicit `step` of zero is read as one tick. */
  lemma ExplicitZeroStep(parse: string -> Option<RoutePosition>, default: RoutePosition)
    requires parse("0") == Some(TimeBase(0))
    ensures FromQueryString("step=0", parse, default).value.step == TimeBase(1)
  {
    assert "step" + "=0" == "step=0";
    SinglePiece("step=0");
    ZeroArg("step", parse, default);
  }

  lemma SinglePiece(piece: string)
    requires '&' !in piece
    ensures Split(piece, '&') == [piece]
  {
  }

  lemma ZeroArg(key: string, parse: string -> Option<RoutePosition>, default: RoutePosition)
    requires parse("0") == Some(TimeBase(0)) && '=' !in key
    ensures FindQueryArg([key + "=0"], key, parse, default) == TimeBase(0)
  {
    var query: seq<string> := [key + "=0"];
    assert key + "=" <= query[0];
    assert query[0][|key| + 1..] == "0";
  }

  // ---------------------------------------------------------------------

  const MISSING_FILEPATH: HttpErrors.HttpRequestError := HttpErrors.Parse("Missing filepath")

  /** `FilePath::from_path` as written: the first byte is dropped with
      `path[1..]`, which panics on an empty path and when the first
      character takes more than one byte in UTF-8, then everything after
      the next `/` is taken as a file under the media folder. */
  function FromPath(path: string, mediaFolder: string): (r: Result<string, HttpErrors.HttpRequestError>)
    requires |path| >= 1 && path[0] as int < 0x80
    ensures r.Err? <==> '/' !in path[1..]
    ensures r.Err? ==> r.error == MISSING_FILEPATH
    ensures r.Ok? ==> exists route, file ::
      path == [path[0]] + route + "/" + file && '/' !in route && r.value == mediaFolder + "/" + file
  {
    match SplitOnce(path[1..], '/')
    case None => Err(MISSING_FILEPATH)
    case Some((route, file)) =>
      assert path == [path[0]] + path[1..];
      Ok(mediaFolder + "/" + file)
  }

  /** `/{route}/{file}` names `{file}` under the media folder, whatever the
      file part holds: further `/`s and `..` segments pass through, so a
      path can name a file outside the folder. */
  lemma FromPathFile(route: string, file: string, mediaFolder: string)
    requires '/' !in route
    ensures FromPath("/" + route + "/" + file, mediaFolder) == Ok(mediaFolder + "/" + file)
  {
    var path := "/" + route + "/" + file;
    assert path[1..] == route + "/" + file;
    SplitOnceAt(route, file);
  }

  lemma SplitOnceAt(before: string, after: string)
    requires '/' !in before
    ensures SplitOnce(before + "/" + after, '/') == Some((before, after))
  {
    var s := before + "/" + after;
    assert s[..|before|] == before;
    assert s[|before| + 1..] == after;
    FindAt(s, '/', |before|);
  }

  /** A request target that starts with `?` parses to an empty path, which
      `FromPath` cannot take: `path[1..]` panics there. */
  lemma QueryOnlyTargetHasEmptyPath(verb: string, target: string, version: string)
    requires |verb| > 0 && |target| > 0 && |version| > 0 && target[0] == '?'
    requires NoWhitespace(verb) && NoWhitespace(target) && NoWhitespace(version)
    ensures var raw := Encode(verb + " " + target + " " + version);
      |raw| > 0 && Request.Parse(raw).Some? && Request.Parse(raw).value.path == ""
  {
    var line := verb + " " + target + " " + version;
    DecodeEncode(line);
    Request.RequestLineWords(verb, target, version);
    assert |Encode(line)| > 0 by {
      EncodeAppend([line[0]], line[1..]);
      assert [line[0]] + line[1..] == line;
    }
    assert '?' in target;
  }

  /** A request target whose first character is not ASCII parses to a
      path starting with that character, which `path[1..]` cannot cut. */
  lemma NonAsciiLeadPath(verb: string, target: string, version: string)
    requires |verb| > 0 && |target| > 0 && |version| > 0 && target[0] as int >= 0x80
    requires NoWhitespace(verb) && NoWhitespace(target) && NoWhitespace(version) && '?' !in target
    ensures var raw := Encode(verb + " " + target + " " + version);
      && |raw| > 0 && Request.Parse(raw).Some?
      && |Request.Parse(raw).value.path| > 0 && Request.Parse(raw).value.path[0] as int >= 0x80
  {
    Request.RequestLineParses(verb, target, version);
  }

  /** `from_path` with the paths it panics on, the empty one and those
      starting with a multi-byte character, answered as a missing file
      path, a bad request. */
  function FromPathChecked(path: string, mediaFolder: string): (r: Result<string, HttpErrors.HttpRequestError>)
    ensures r.Err? <==> |path| == 0 || path[0] as int >= 0x80 || '/' !in path[1..]
    ensures r.Err? ==> r.error == MISSING_FILEPATH
    ensures |path| >= 1 && path[0] as int < 0x80 ==> r == FromPath(path, mediaFolder)
  {
    if |path| == 0 || path[0] as int >= 0x80 then Err(MISSING_FILEPATH) else FromPath(path, mediaFolder)
  }
}

=== FILE: rumpeg.dfy ===
/** `src/rumpeg/mod.rs`: the error type every wrapper returns, and FFmpeg's
    log levels with the case-insensitive parser the command line uses to
    pick one. */
module Rumpeg {
  import opened Wrappers
  import opened RustStr
  import Math

  /** `RumpegError`. `AVError` carries the context message and FFmpeg's
      code; the text `av_strerror` adds for the code is foreign and left
      out. Variants for foreign failures (C strings, WebP) are not listed. */
  datatype RumpegError =
    | AVCodecContextAllocFail
    | AVError(msg: string, code: int)
    | AVFormatContextAllocFail
    | AVFrameCreation
    | DecoderMissing
    | MathFailure(cause: Math.MathError)  // `Math` in the source
    | PixelFormatMissing(codecId: int)
    | SwsContextCreation
    | UnknownLogLevel
    | VideoFormatMissing

  datatype LogLevel = Quiet | Panic | Fatal | Error | Warning | Info | Verbose | Debug | Trace

  /** Every level, from the least to the most verbose. */
  const Levels: seq<LogLevel> := [Quiet, Panic, Fatal, Error, Warning, Info, Verbose, Debug, Trace]

  /** The `AV_LOG_*` constant each variant carries as its discriminant:
      levels are 8 apart, starting at `AV_LOG_QUIET = -8`, in the order of
      `Levels`. */
  function Value(l: LogLevel): (v: int)
    ensures -8 <= v <= 56 && v % 8 == 0
    ensures Levels[(v + 8) / 8] == l
  {
    match l
    case Quiet => -8
    case Panic => 0
    case Fatal => 8
    case Error => 16
    case Warning => 24
    case Info => 32
    case Verbose => 40
    case Debug => 48
    case Trace => 56
  }

  /** The lower-case name `from_str` accepts for a level: a non-empty run
      of lower-case ASCII letters, which lower-casing keeps. */
  function Name(l: LogLevel): (n: string)
    ensures |n| > 0 && forall i :: 0 <= i < |n| ==> 'a' <= n[i] <= 'z'
  {
    match l
    case Quiet => "quiet"
    case Panic => "panic"
    case Fatal => "fatal"
    case Error => "error"
    case Warning => "warning"
    case Info => "info"
    case Verbose => "verbose"
    case Debug => "debug"
    case Trace => "trace"
  }

  /** `#[default]`: the level of `AV_LOG_WARNING`. */
  function Default(): (l: LogLevel)
    ensures Value(l) == 24
  {
    Warning
  }

  /** `LogLevel::from_str`: lower-cases the input and compares it with the
      nine names; anything else is `UnknownLogLevel`. */
  function FromStr(s: string): (r: Result<LogLevel, RumpegError>)
    ensures r.Ok? ==> Name(r.value) == AsciiLower(s)
    ensures r.Err? ==> forall l :: Name(l) != AsciiLower(s)
  {
    var s := AsciiLower(s);
    if s == "quiet" then Ok(Quiet)
    else if s == "panic" then Ok(Panic)
    else if s == "fatal" then Ok(Fatal)
    else if s == "error" then Ok(Error)
    else if s == "warning" then Ok(Warning)
    else if s == "info" then Ok(Info)
    else if s == "verbose" then Ok(Verbose)
    else if s == "debug" then Ok(Debug)
    else if s == "trace" then Ok(Trace)
    else Err(UnknownLogLevel)
  }

  /** Distinct levels have distinct names and distinct `AV_LOG_*` values,
      and the values grow with verbosity. */
  lemma NamesAndValuesDistinct()
    ensures forall l, m :: l != m ==> Name(l) != Name(m) && Value(l) != Value(m)
    ensures forall i, j :: 0 <= i < j < |Levels| ==> Value(Levels[i]) < Value(Levels[j])
    ensures forall l :: l in Levels
  {
    forall l, m | l != m ensures Name(l) != Name(m) && Value(l) != Value(m) {
      NamesDiffer(l, m);
    }
    forall l ensures l in Levels {
      assert Levels[(Value(l) + 8) / 8] == l;
    }
    forall i, j | 0 <= i < j < |Levels| ensures Value(Levels[i]) < Value(Levels[j]) {
      ValueAt(i);
      ValueAt(j);
    }
  }

  /** The level at position `i` of `Levels` has value `8 * i - 8`. */
  lemma ValueAt(i: nat)
    requires i < |Levels|
    ensures Value(Levels[i]) == 8 * i - 8
  {
    if i < 3 {
      assert i == 0 || i == 1 || i == 2;
    } else if i < 6 {
      assert i == 3 || i == 4 || i == 5;
    } else {
      assert i == 6 || i == 7 || i == 8;
    }
  }

  /** The nine names already differ in their first letter, and two levels
      with one value are one level, since the value indexes `Levels`. */
  lemma NamesDiffer(l: LogLevel, m: LogLevel)
    ensures l != m ==> Name(l)[0] != Name(m)[0] && Value(l) != Value(m)
  {
    assert Levels[(Value(l) + 8) / 8] == l && Levels[(Value(m) + 8) / 8] == m;
  }

  /** Each level's name parses back to that level. */
  lemma FromStrName(l: LogLevel)
    ensures FromStr(Name(l)) == Ok(l)
  {
    var n := Name(l);
    assert AsciiLower(n) == n;
    FromStrExactly(n, l);
  }

  lemma NameInjective(l: LogLevel, m: LogLevel)
    requires Name(l) == Name(m)
    ensures l == m
  {
  }

  /** A string parses exactly when its lower-case form is one of the names,
      and then to the level of that name. */
  lemma FromStrExactly(s: string, l: LogLevel)
    ensures FromStr(s) == Ok(l) <==> AsciiLower(s) == Name(l)
  {
    var r := FromStr(s);
    if AsciiLower(s) == Name(l) {
      assert r.Ok?;
      NameInjective(r.value, l);
    }
  }

  /** Case does not matter: `"WARNING"`, `"Warning"` and `"warning"` agree. */
  lemma FromStrCaseInsensitive(s: string)
    ensures FromStr(s) == FromStr(AsciiLower(s))
  {
    AsciiLowerIdempotent(s);
  }
}

=== FILE: rust_num.dfy ===
/** Rust's integer semantics where the source depends on them: `FromStr`
    for fixed-width integers (sign handling, digit check, range check),
    `from_str_radix`, `to_string` of unsigned values, the `/` operator that
    truncates toward zero, and the saturating `as` casts from floating point.
    Integers are unbounded here; width only appears where the source tests it. */
module RustNum {
  import opened Wrappers
  import opened RustStr

  type byte = b: int | 0 <= b < 256

  const I32_MIN: int := -0x8000_0000
  const I32_MAX: int := 0x7FFF_FFFF
  const I64_MIN: int := -0x8000_0000_0000_0000
  const I64_MAX: int := 0x7FFF_FFFF_FFFF_FFFF
  const U8_MAX: int := 255

  predicate InI32(x: int) { I32_MIN <= x <= I32_MAX }

  /** The value of one digit in radix 10 or 16, if `c` is one. */
  function DigitValue(c: char, radix: nat): (r: Option<nat>)
    requires radix == 10 || radix == 16
    ensures r.Some? ==> r.value < radix
  {
    if '0' <= c <= '9' then Some(c as int - '0' as int)
    else if radix == 16 && 'a' <= c <= 'f' then Some(c as int - 'a' as int + 10)
    else if radix == 16 && 'A' <= c <= 'F' then Some(c as int - 'A' as int + 10)
    else None
  }

  predicate AllDigits(s: string, radix: nat)
    requires radix == 10 || radix == 16
  {
    forall i :: 0 <= i < |s| ==> DigitValue(s[i], radix).Some?
  }

  /** The number a digit string denotes, most significant digit first. */
  function DigitsValue(s: string, radix: nat): (r: nat)
    requires radix == 10 || radix == 16
    requires AllDigits(s, radix)
  {
    if |s| == 0 then 0
    else DigitsValue(s[..|s| - 1], radix) * radix + DigitValue(s[|s| - 1], radix).value
  }

  /** `from_str_radix` for an integer type with range `lo..=hi`: an optional
      `+` (or `-` when the type is signed) that may not stand alone, then one
      or more digits, whose value must lie in the range. */
  function ParseRadix(s: string, radix: nat, lo: int, hi: int): (r: Option<int>)
    requires radix == 10 || radix == 16
    requires lo <= 0 <= hi
    ensures r.Some? ==> lo <= r.value <= hi
    ensures |s| == 0 ==> r.None?
  {
    if |s| == 0 then None
    else
      var negative := s[0] == '-' && lo < 0;
      var digits := if s[0] == '+' || negative then s[1..] else s;
      if |digits| == 0 || !AllDigits(digits, radix) then None
      else
        var magnitude := DigitsValue(digits, radix);
        var v: int := if negative then -(magnitude as int) else magnitude;
        if lo <= v <= hi then Some(v) else None
  }

  /** `i32::from_str`. */
  function ParseI32(s: string): (r: Option<int>)
    ensures r.Some? ==> InI32(r.value)
  {
    ParseRadix(s, 10, I32_MIN, I32_MAX)
  }

  /** `i64::from_str`. */
  function ParseI64(s: string): (r: Option<int>)
    ensures r.Some? ==> I64_MIN <= r.value <= I64_MAX
  {
    ParseRadix(s, 10, I64_MIN, I64_MAX)
  }

  /** `u8::from_str_radix(s, 16)`. */
  function ParseHexU8(s: string): (r: Option<byte>)
  {
    match ParseRadix(s, 16, 0, U8_MAX)
    case None => None
    case Some(v) => Some(v as byte)
  }

  /** The decimal digit of `d`. */
  function DigitChar(d: nat): (c: char)
    requires d < 10
    ensures DigitValue(c, 10) == Some(d)
  {
    ('0' as int + d) as char
  }

  /** `to_string` of an unsigned value: decimal, no leading zeros. */
  function NatToString(n: nat): (s: string)
    ensures |s| >= 1 && AllDigits(s, 10)
    ensures |s| > 1 ==> s[0] != '0'
  {
    if n < 10 then [DigitChar(n)] else NatToString(n / 10) + [DigitChar(n % 10)]
  }

  /** Reading back what `NatToString` writes gives the number again. */
  lemma {:induction false} NatToStringValue(n: nat)
    ensures DigitsValue(NatToString(n), 10) == n
  {
    var s := NatToString(n);
    if n >= 10 {
      NatToStringValue(n / 10);
      assert s[..|s| - 1] == NatToString(n / 10);
    }
  }

  /** `parse` of an unsigned type inverts `to_string`. */
  lemma NatToStringRoundTrip(n: nat, hi: int)
    requires n <= hi
    ensures ParseRadix(NatToString(n), 10, 0, hi) == Some(n)
  {
    NatToStringValue(n);
    ParseDigits(NatToString(n), hi);
  }

  /** Unsigned parsing of plain digits within range gives their value. */
  lemma ParseDigits(s: string, hi: int)
    requires |s| > 0 && AllDigits(s, 10) && DigitsValue(s, 10) <= hi
    ensures ParseRadix(s, 10, 0, hi) == Some(DigitsValue(s, 10))
  {
    assert DigitValue(s[0], 10).Some?;
  }

  /** `to_string` of a signed value: a `-` before the magnitude if negative. */
  function IntToString(n: int): (s: string)
    ensures |s| >= 1
    ensures n < 0 <==> s[0] == '-'
    ensures DigitValue(s[|s| - 1], 10).Some?
  {
    if n < 0 then "-" + NatToString(-n) else NatToString(n)
  }

  /** `parse` of a signed type inverts `to_string`. */
  lemma IntToStringRoundTrip(n: int, lo: int, hi: int)
    requires lo < 0 <= hi && lo <= n <= hi
    ensures ParseRadix(IntToString(n), 10, lo, hi) == Some(n)
  {
    var s := IntToString(n);
    if n < 0 {
      var t := NatToString(-n);
      NatToStringValue(-n);
      assert s[1..] == t;
      assert DigitsValue(s[1..], 10) == -n;
    } else {
      NatToStringValue(n);
      assert DigitValue(s[0], 10).Some?;
      assert s[0] != '-' && s[0] != '+';
    }
  }

  /** A string whose last character is not a digit is not a number. */
  lemma ParseRadixNonDigitEnd(s: string, radix: nat, lo: int, hi: int)
    requires radix == 10 || radix == 16
    requires lo <= 0 <= hi
    requires |s| > 0 && DigitValue(s[|s| - 1], radix).None?
    ensures ParseRadix(s, radix, lo, hi).None?
  {
    var negative := s[0] == '-' && lo < 0;
    var digits := if s[0] == '+' || negative then s[1..] else s;
    if |digits| > 0 {
      assert digits[|digits| - 1] == s[|s| - 1];
    }
  }

  /** Decimal digits contain none of the marks a number's syntax uses. */
  lemma DigitsHaveNoMarks(s: string)
    requires AllDigits(s, 10)
    ensures '.' !in s && 'e' !in s && 'E' !in s
  {
  }

  /** Plain decimal digits are a float with no point and no exponent. */
  lemma DigitsAsFloat(s: string)
    requires |s| > 0 && AllDigits(s, 10)
    ensures ParseUnsignedFloat(s) == Some(DigitsValue(s, 10) as real)
  {
    DigitsHaveNoMarks(s);
    assert Find2(s, 'e', 'E').None?;
    MantissaOfDigits(s);
  }

  /** Plain decimal digits are a mantissa with no fractional part. */
  lemma MantissaOfDigits(s: string)
    requires |s| > 0 && AllDigits(s, 10)
    ensures ParseMantissa(s) == Some(DigitsValue(s, 10) as real)
  {
    DigitsHaveNoMarks(s);
    assert Find(s, '.').None?;
    assert FractionValue([]) == 0.0 by {
      assert DigitsValue([], 10) == 0 && Pow10(0) == 1;
    }
  }

  /** `f64::from_str` reads an unsigned integer's `to_string` as that number. */
  lemma ParseFloatNat(n: nat)
    ensures ParseFloat(NatToString(n)) == Some(n as real)
  {
    var s := NatToString(n);
    NatToStringValue(n);
    assert DigitValue(s[0], 10).Some?;
    DigitsAsFloat(s);
  }

  /** Integer `/` in Rust: the quotient truncated toward zero, so the
      remainder `a - q * b` is smaller than `b` in magnitude and has the
      sign of `a`. (Dafny's own `/` is Euclidean, which agrees for `a >= 0`.) */
  function TruncDiv(a: int, b: int): (q: int)
    requires b != 0
    ensures a >= 0 ==> 0 <= a - q * b < Abs(b)
    ensures a < 0 ==> 0 <= q * b - a < Abs(b)
  {
    if a >= 0 then a / b else -((-a) / b)
  }

  lemma DivHalves(a: nat, b: nat)
    requires b >= 2
    ensures 0 <= a / b && 2 * (a / b) <= a
  {
    var q := a / b;
    assert q >= 0;
    assert q * b <= a;
    assert q * b == q * 2 + q * (b - 2);
  }

  /** Dividing by at least 2 at least halves the magnitude. */
  lemma TruncDivShrinks(a: int, b: int)
    requires b >= 2
    ensures 2 * Abs(TruncDiv(a, b)) <= Abs(a)
  {
    var q := TruncDiv(a, b);
    if a >= 0 {
      DivHalves(a, b);
      assert q == a / b && Abs(q) == q;
    } else {
      DivHalves(-a, b);
      assert q == -((-a) / b) && Abs(q) == -q;
    }
  }

  lemma MulNatGe(a: nat, b: nat)
    requires b >= 1
    ensures a * b >= a
  {
    assert a * b == a * (b - 1) + a;
  }

  lemma MulAbsGe(h: int, d: int)
    requires d != 0
    ensures Abs(h * d) >= Abs(h)
  {
    if h >= 0 && d > 0 {
      MulNatGe(h, d);
    } else if h >= 0 {
      MulNatGe(h, -d);
      assert h * d == -(h * -d);
    } else if d > 0 {
      MulNatGe(-h, d);
      assert h * d == -((-h) * d);
    } else {
      MulNatGe(-h, -d);
      assert h * d == (-h) * (-d);
    }
  }

  lemma DivExact(h: int, w: int)
    requires h != 0
    ensures (h * w) / h == w
  {
    var q, r := (h * w) / h, (h * w) % h;
    assert h * w == q * h + r;
    assert h * (w - q) == r;
    if w != q {
      MulAbsGe(h, w - q);
    }
  }

  /** `h * w / h == w` for the truncating division. */
  lemma TruncDivCancel(h: int, w: int)
    requires h != 0
    ensures TruncDiv(h * w, h) == w
  {
    if h * w >= 0 {
      DivExact(h, w);
    } else {
      assert -(h * w) == h * (-w);
      DivExact(h, -w);
    }
  }

  function Abs(x: int): nat { if x < 0 then -x else x }

  /** Truncation of a real toward zero, as `as` casts to an integer do. */
  function TruncReal(x: real): (r: int)
    ensures x >= 0.0 ==> r as real <= x < r as real + 1.0
    ensures x < 0.0 ==> r as real - 1.0 < x <= r as real
  {
    if x >= 0.0 then x.Floor else -((-x).Floor)
  }

  /** The least integer not below `x` (`f64::ceil`). */
  function CeilReal(x: real): (r: int)
    ensures x <= r as real < x + 1.0
  {
    -((-x).Floor)
  }

  /** Clamps to a range, as Rust's float-to-integer `as` casts do. */
  function Saturate(x: int, lo: int, hi: int): (r: int)
    requires lo <= hi
    ensures lo <= r <= hi
    ensures lo <= x <= hi ==> r == x
    ensures x < lo ==> r == lo
    ensures x > hi ==> r == hi
  {
    if x < lo then lo else if x > hi then hi else x
  }

  function Pow10(e: nat): (r: nat)
    ensures r >= 1
  {
    if e == 0 then 1 else 10 * Pow10(e - 1)
  }

  function Pow2(e: nat): (r: nat)
    ensures r >= 1
  {
    if e == 0 then 1 else 2 * Pow2(e - 1)
  }

  lemma {:induction false} Pow2Add(a: nat, b: nat)
    ensures Pow2(a + b) == Pow2(a) * Pow2(b)
  {
    if a > 0 {
      Pow2Add(a - 1, b);
      assert Pow2(a + b) == 2 * (Pow2(a - 1) * Pow2(b));
    }
  }

  /** The two scales of the fixed-point formats. */
  lemma Pow2Values()
    ensures Pow2(16) == 0x1_0000 && Pow2(30) == 0x4000_0000
  {
    assert Pow2(2) == 4;
    Pow2Add(2, 2);
    Pow2Add(4, 4);
    Pow2Add(8, 8);
    Pow2Add(16, 8);
    Pow2Add(24, 4);
    Pow2Add(28, 2);
  }

  /** The value of a decimal fraction part: digits after the point. */
  function FractionValue(s: string): (r: real)
    requires AllDigits(s, 10)
  {
    DigitsValue(s, 10) as real / Pow10(|s|) as real
  }

  /** `f64::from_str` on finite decimal syntax: an optional sign, digits with
      at most one point and at least one digit, then an optional exponent
      `e`/`E` with optional sign and at least one digit. The value is kept
      exact (no rounding to the nearest double). */
  function ParseFloat(s: string): (r: Option<real>)
    ensures |s| == 0 ==> r.None?
  {
    if |s| == 0 then None
    else
      var negative := s[0] == '-';
      var body := if s[0] == '+' || negative then s[1..] else s;
      match ParseUnsignedFloat(body)
      case None => None
      case Some(v) => Some(if negative then -v else v)
  }

  /** A float without its sign: a mantissa, then an optional exponent. */
  function ParseUnsignedFloat(s: string): Option<real> {
    match Find2(s, 'e', 'E')
    case None => ParseMantissa(s)
    case Some(i) =>
      match (ParseMantissa(s[..i]), ParseExponent(s[i + 1..]))
      case (Some(m), Some(x)) =>
        Some(if x >= 0 then m * Pow10(x) as real else m / Pow10(-x) as real)
      case _ => None
  }

  /** Digits with at most one point and at least one digit. */
  function ParseMantissa(s: string): Option<real> {
    var point := Find(s, '.');
    var whole := if point.Some? then s[..point.value] else s;
    var fraction := if point.Some? then s[point.value + 1..] else [];
    if |whole| + |fraction| == 0 || !AllDigits(whole, 10) || !AllDigits(fraction, 10) then None
    else Some(DigitsValue(whole, 10) as real + FractionValue(fraction))
  }

  /** An optional sign, then at least one digit; any magnitude. */
  function ParseExponent(e: string): Option<int> {
    var negative := |e| > 0 && e[0] == '-';
    var digits := if |e| > 0 && (e[0] == '+' || negative) then e[1..] else e;
    if |digits| == 0 || !AllDigits(digits, 10) then None
    else if negative then Some(-(DigitsValue(digits, 10) as int))
    else Some(DigitsValue(digits, 10))
  }

  /** The first index holding `c` or `d`. */
  function Find2(s: string, c: char, d: char): (r: Option<nat>)
    ensures r.Some? ==> r.value < |s| && s[r.value] in {c, d}
    ensures r.None? <==> c !in s && d !in s
  {
    if |s| == 0 then None
    else if s[0] == c || s[0] == d then Some(0)
    else match Find2(s[1..], c, d)
      case None => None
      case Some(i) => Some(i + 1)
  }
}

=== FILE: rust_str.dfy ===
/** The `str` methods of Rust's standard library that the server and the
    command line rely on, over Dafny strings (sequences of Unicode scalar
    values). Each function is stated against an independent description of
    its result, so the modules above can reason about splitting and trimming
    without unfolding the recursion. */
module RustStr {
  import opened Wrappers

  /** Unicode's White_Space property, which `char::is_whitespace` tests. */
  predicate IsWhitespace(c: char) {
    || ('\U{9}' <= c <= '\U{D}')
    || c == ' ' || c == '\U{85}' || c == '\U{A0}' || c == '\U{1680}'
    || ('\U{2000}' <= c <= '\U{200A}')
    || c == '\U{2028}' || c == '\U{2029}' || c == '\U{202F}' || c == '\U{205F}'
    || c == '\U{3000}'
  }

  predicate NoWhitespace(s: string) {
    forall i :: 0 <= i < |s| ==> !IsWhitespace(s[i])
  }

  predicate AllWhitespace(s: string) {
    forall i :: 0 <= i < |s| ==> IsWhitespace(s[i])
  }

  /** `iter().any(|x| x == name)` over a slice of strings, as `find_flag`
      and `find_query_flag` use it: some item is exactly `name`. */
  function AnyEqual(items: seq<string>, name: string): (found: bool)
    ensures found <==> name in items
  {
    if |items| == 0 then false
    else
      assert items == [items[0]] + items[1..];
      items[0] == name || AnyEqual(items[1..], name)
  }

  /** `str::find(c)`: the index of the first `c`. */
  function Find(s: string, c: char): (r: Option<nat>)
    ensures r.Some? ==> r.value < |s| && s[r.value] == c && c !in s[..r.value]
    ensures r.None? <==> c !in s
  {
    if |s| == 0 then None
    else if s[0] == c then Some(0)
    else match Find(s[1..], c)
      case None => None
      case Some(i) => Some(i + 1)
  }

  /** `str::rfind(c)`: the index of the last `c`. */
  function RFind(s: string, c: char): (r: Option<nat>)
    ensures r.Some? ==> r.value < |s| && s[r.value] == c && c !in s[r.value + 1..]
    ensures r.None? <==> c !in s
  {
    if |s| == 0 then None
    else if s[|s| - 1] == c then Some(|s| - 1)
    else
      assert s == s[..|s| - 1] + [s[|s| - 1]];
      RFind(s[..|s| - 1], c)
  }

  /** The first occurrence is where `Find` finds it. */
  lemma FindAt(s: string, c: char, i: nat)
    requires i < |s| && s[i] == c && c !in s[..i]
    ensures Find(s, c) == Some(i)
  {
    var j := Find(s, c).value;
    assert forall k :: 0 <= k < j ==> s[k] == s[..j][k];
    assert forall k :: 0 <= k < i ==> s[k] == s[..i][k];
  }

  /** `str::strip_suffix(c)`. */
  function StripSuffix(s: string, c: char): (r: Option<string>)
    ensures r.Some? <==> |s| > 0 && s[|s| - 1] == c
    ensures r.Some? ==> s == r.value + [c]
  {
    if |s| > 0 && s[|s| - 1] == c then Some(s[..|s| - 1]) else None
  }

  /** `str::split_once(c)`: the parts before and after the first `c`. */
  function SplitOnce(s: string, c: char): (r: Option<(string, string)>)
    ensures r.None? <==> c !in s
    ensures r.Some? ==> s == r.value.0 + [c] + r.value.1 && c !in r.value.0
  {
    match Find(s, c)
    case None => None
    case Some(i) =>
      assert s == s[..i] + [c] + s[i + 1..];
      Some((s[..i], s[i + 1..]))
  }

  /** `str::split(c)`: every maximal piece between separators, empty pieces
      included, so there is always at least one piece. */
  function Split(s: string, c: char): (parts: seq<string>)
    ensures |parts| >= 1
    ensures forall i :: 0 <= i < |parts| ==> c !in parts[i]
    decreases |s|
  {
    match SplitOnce(s, c)
    case None => [s]
    case Some((before, after)) => [before] + Split(after, c)
  }

  /** `split_once` stops at the first separator. */
  lemma SplitOnceAt(a: string, c: char, b: string)
    requires c !in a
    ensures SplitOnce(a + [c] + b, c) == Some((a, b))
  {
    var s := a + [c] + b;
    var r := SplitOnce(s, c);
    assert s[|a|] == c;
    var x := r.value.0;
    assert x == s[..|a|] == a;
    assert r.value.1 == s[|a| + 1..] == b;
  }

  /** A piece followed by the separator is the first piece. */
  lemma SplitAt(a: string, c: char, b: string)
    requires c !in a
    ensures Split(a + [c] + b, c) == [a] + Split(b, c)
  {
    SplitOnceAt(a, c, b);
  }

  /** Without a separator there is one piece. */
  lemma SplitNone(s: string, c: char)
    requires c !in s
    ensures Split(s, c) == [s]
  {
  }

  /** Joins pieces with a separator: the inverse of `Split`. */
  function Join(parts: seq<string>, c: char): string
    requires |parts| >= 1
  {
    if |parts| == 1 then parts[0] else parts[0] + [c] + Join(parts[1..], c)
  }

  lemma {:induction false} SplitJoin(s: string, c: char)
    ensures Join(Split(s, c), c) == s
    decreases |s|
  {
    match SplitOnce(s, c)
    case None =>
    case Some((before, after)) =>
      SplitJoin(after, c);
      assert Split(s, c)[1..] == Split(after, c);
  }

  /** The other direction: pieces free of the separator split back out of
      their join. */
  lemma {:induction false} JoinSplit(parts: seq<string>, c: char)
    requires |parts| >= 1
    requires forall i :: 0 <= i < |parts| ==> c !in parts[i]
    ensures Split(Join(parts, c), c) == parts
    decreases |parts|
  {
    if |parts| == 1 {
      SplitNone(parts[0], c);
    } else {
      JoinSplit(parts[1..], c);
      SplitAt(parts[0], c, Join(parts[1..], c));
      assert parts == [parts[0]] + parts[1..];
    }
  }

  /** The first index at or after `i` that is not whitespace. */
  function SkipWhitespace(s: string, i: nat): (n: nat)
    requires i <= |s|
    ensures i <= n <= |s|
    ensures forall k :: i <= k < n ==> IsWhitespace(s[k])
    ensures n < |s| ==> !IsWhitespace(s[n])
    decreases |s| - i
  {
    if i < |s| && IsWhitespace(s[i]) then SkipWhitespace(s, i + 1) else i
  }

  /** The first index at or after `i` that is whitespace. */
  function SkipWord(s: string, i: nat): (n: nat)
    requires i <= |s|
    ensures i <= n <= |s|
    ensures forall k :: i <= k < n ==> !IsWhitespace(s[k])
    ensures n < |s| ==> IsWhitespace(s[n])
    decreases |s| - i
  {
    if i < |s| && !IsWhitespace(s[i]) then SkipWord(s, i + 1) else i
  }

  /** The end of `s[..j]` once its trailing whitespace is removed. */
  function SkipWhitespaceBack(s: string, j: nat): (n: nat)
    requires j <= |s|
    ensures n <= j
    ensures forall k :: n <= k < j ==> IsWhitespace(s[k])
    ensures n > 0 ==> !IsWhitespace(s[n - 1])
  {
    if j > 0 && IsWhitespace(s[j - 1]) then SkipWhitespaceBack(s, j - 1) else j
  }

  /** `str::trim`: the infix left after removing whitespace at both ends. */
  function Trim(s: string): (r: string)
    ensures exists i :: (0 <= i <= |s| - |r| && r == s[i..i + |r|]
                         && AllWhitespace(s[..i]) && AllWhitespace(s[i + |r|..]))
    ensures |r| > 0 ==> !IsWhitespace(r[0]) && !IsWhitespace(r[|r| - 1])
  {
    var i := SkipWhitespace(s, 0);
    var j := SkipWhitespaceBack(s, |s|);
    if j <= i then
      assert AllWhitespace(s);
      assert s[..0] == [] && s[0..] == s;
      []
    else
      assert AllWhitespace(s[..i]);
      assert AllWhitespace(s[j..]);
      assert !IsWhitespace(s[i]) && !IsWhitespace(s[j - 1]);
      assert s[i..j][0] == s[i] && s[i..j][j - i - 1] == s[j - 1];
      s[i..j]
  }

  /** `str::split_whitespace`: the non-empty maximal runs of non-whitespace. */
  function SplitWhitespace(s: string): (words: seq<string>)
    ensures forall i :: 0 <= i < |words| ==> |words[i]| > 0 && NoWhitespace(words[i])
    decreases |s|
  {
    var i := SkipWhitespace(s, 0);
    if i == |s| then []
    else
      var j := SkipWord(s, i);
      [s[i..j]] + SplitWhitespace(s[j..])
  }

  /** The characters of `s` that are not whitespace, in order. */
  function RemoveWhitespace(s: string): string {
    if |s| == 0 then []
    else (if IsWhitespace(s[0]) then [] else [s[0]]) + RemoveWhitespace(s[1..])
  }

  function Concat(words: seq<string>): string {
    if |words| == 0 then [] else words[0] + Concat(words[1..])
  }

  lemma {:induction false} RemoveWhitespaceAppend(a: string, b: string)
    ensures RemoveWhitespace(a + b) == RemoveWhitespace(a) + RemoveWhitespace(b)
    decreases |a|
  {
    if |a| > 0 {
      assert (a + b)[1..] == a[1..] + b;
      RemoveWhitespaceAppend(a[1..], b);
    } else {
      assert a + b == b;
    }
  }

  lemma {:induction false} RemoveWhitespaceOfWhitespace(s: string)
    requires AllWhitespace(s)
    ensures RemoveWhitespace(s) == []
    decreases |s|
  {
    if |s| > 0 {
      RemoveWhitespaceOfWhitespace(s[1..]);
    }
  }

  lemma {:induction false} RemoveWhitespaceOfWord(s: string)
    requires NoWhitespace(s)
    ensures RemoveWhitespace(s) == s
    decreases |s|
  {
    if |s| > 0 {
      RemoveWhitespaceOfWord(s[1..]);
    }
  }

  /** `split_whitespace` loses exactly the whitespace: concatenating the
      words gives back every other character, in order. */
  /** Removing whitespace from three consecutive pieces, the first of them
      all whitespace. */
  lemma RemoveWhitespaceSplit(s: string, i: nat, j: nat)
    requires i <= j <= |s| && AllWhitespace(s[..i])
    ensures RemoveWhitespace(s) == RemoveWhitespace(s[i..j]) + RemoveWhitespace(s[j..])
  {
    ThreeSlices(s, i, j);
    RemoveWhitespaceOfWhitespace(s[..i]);
    RemoveWhitespaceAppend(s[..i], s[i..j] + s[j..]);
    RemoveWhitespaceAppend(s[i..j], s[j..]);
  }

  lemma {:induction false} SplitWhitespaceKeepsText(s: string)
    ensures Concat(SplitWhitespace(s)) == RemoveWhitespace(s)
    decreases |s|
  {
    var i := SkipWhitespace(s, 0);
    if i == |s| {
      RemoveWhitespaceOfWhitespace(s[..i]);
      assert s[..i] == s;
    } else {
      var j := SkipWord(s, i);
      RemoveWhitespaceSplit(s, i, j);
      RemoveWhitespaceOfWord(s[i..j]);
      SplitWhitespaceKeepsText(s[j..]);
      assert SplitWhitespace(s) == [s[i..j]] + SplitWhitespace(s[j..]);
    }
  }

  lemma AllWhitespaceAppend(x: string, y: string)
    requires AllWhitespace(x) && AllWhitespace(y)
    ensures AllWhitespace(x + y)
  {
    forall k | 0 <= k < |x + y| ensures IsWhitespace((x + y)[k]) {
      if k >= |x| { assert (x + y)[k] == y[k - |x|]; }
    }
  }

  /** What `trim` removed: whitespace before and after the result. */
  lemma TrimParts(v: string) returns (before: string, after: string)
    ensures v == before + Trim(v) + after
    ensures AllWhitespace(before) && AllWhitespace(after)
  {
    var i := SkipWhitespace(v, 0);
    var j := SkipWhitespaceBack(v, |v|);
    if j <= i {
      assert AllWhitespace(v);
      before, after := v, [];
      NothingAround(v);
    } else {
      before, after := v[..i], v[j..];
      ThreeSlicesLeft(v, i, j);
    }
  }

  lemma AppendRegroup<T>(a: seq<T>, b: seq<T>, c: seq<T>, d: seq<T>)
    ensures a + (b + c + d) == (a + b) + c + d
  {
  }

  /** `trim` ignores whitespace put in front. */
  lemma TrimLeadingWhitespace(w: string, v: string)
    requires AllWhitespace(w)
    ensures Trim(w + v) == Trim(v)
  {
    var r := Trim(v);
    var before, after := TrimParts(v);
    AllWhitespaceAppend(w, before);
    AppendRegroup(w, before, r, after);
    TrimOf(w + before, r, after);
  }

  lemma {:induction false} SkipWhitespaceShift(p: string, t: string, i: nat)
    requires i <= |t|
    ensures SkipWhitespace(p + t, |p| + i) == |p| + SkipWhitespace(t, i)
    decreases |t| - i
  {
    if i < |t| {
      assert (p + t)[|p| + i] == t[i];
      SkipWhitespaceShift(p, t, i + 1);
    }
  }

  lemma {:induction false} SkipWordShift(p: string, t: string, i: nat)
    requires i <= |t|
    ensures SkipWord(p + t, |p| + i) == |p| + SkipWord(t, i)
    decreases |t| - i
  {
    if i < |t| {
      assert (p + t)[|p| + i] == t[i];
      SkipWordShift(p, t, i + 1);
    }
  }

  lemma SkipWhitespaceDrop(s: string, i: nat)
    requires |s| > 0 && i < |s|
    requires i == 0 ==> IsWhitespace(s[0])
    ensures SkipWhitespace(s, i + 1) == 1 + SkipWhitespace(s[1..], i)
    ensures i == 0 ==> SkipWhitespace(s, 0) == 1 + SkipWhitespace(s[1..], 0)
  {
    assert s == [s[0]] + s[1..];
    SkipWhitespaceShift([s[0]], s[1..], i);
  }

  lemma SkipWordDrop(s: string, i: nat)
    requires |s| > 0 && i < |s|
    ensures SkipWord(s, i + 1) == 1 + SkipWord(s[1..], i)
  {
    assert s == [s[0]] + s[1..];
    SkipWordShift([s[0]], s[1..], i);
  }

  lemma SliceOfTail(s: string, i: nat, j: nat)
    requires i <= j < |s|
    ensures s[1..][i..j] == s[1 + i..1 + j]
    ensures s[1..][j..] == s[1 + j..]
  {
  }

  /** One step of `SplitWhitespace`: the first word and the rest. */
  lemma SplitWhitespaceStep(s: string, i: nat, j: nat)
    requires i == SkipWhitespace(s, 0) && i < |s| && j == SkipWord(s, i)
    ensures SplitWhitespace(s) == [s[i..j]] + SplitWhitespace(s[j..])
  {
  }

  lemma SplitWhitespaceDropSpace(s: string)
    requires |s| > 0 && IsWhitespace(s[0])
    ensures SplitWhitespace(s) == SplitWhitespace(s[1..])
  {
    var rest := s[1..];
    var i := SkipWhitespace(rest, 0);
    SkipWhitespaceDrop(s, 0);
    if i < |rest| {
      var j := SkipWord(rest, i);
      SkipWordDrop(s, i);
      SliceOfTail(s, i, j);
      SplitWhitespaceStep(s, 1 + i, 1 + j);
      SplitWhitespaceStep(rest, i, j);
    }
  }

  /** Leading whitespace does not change the words. */
  lemma SplitWhitespaceLeadingSpace(c: char, rest: string)
    requires IsWhitespace(c)
    ensures SplitWhitespace([c] + rest) == SplitWhitespace(rest)
  {
    assert ([c] + rest)[1..] == rest;
    SplitWhitespaceDropSpace([c] + rest);
  }

  /** A word followed by whitespace is the first word. */
  lemma SplitWhitespaceWord(w: string, c: char, rest: string)
    requires |w| > 0 && NoWhitespace(w) && IsWhitespace(c)
    ensures SplitWhitespace(w + [c] + rest) == [w] + SplitWhitespace(rest)
  {
    var s := w + [c] + rest;
    assert s[0] == w[0];
    assert SkipWhitespace(s, 0) == 0;
    assert s[|w|] == c;
    var j := SkipWord(s, 0);
    assert j == |w|;
    assert s[0..j] == w;
    assert s[j..] == [c] + rest;
    SplitWhitespaceLeadingSpace(c, rest);
  }

  /** A single word is its own split. */
  lemma SplitWhitespaceSingle(w: string)
    requires |w| > 0 && NoWhitespace(w)
    ensures SplitWhitespace(w) == [w]
  {
    assert SkipWhitespace(w, 0) == 0;
    assert SkipWord(w, 0) == |w|;
    assert w[0..|w|] == w && w[|w|..] == [];
  }

  /** A whitespace character ends a word: the words of `a`, then those of
      `b`, whatever whitespace separates them. */
  lemma {:induction false} SplitWhitespaceAppend(a: string, c: char, b: string)
    requires IsWhitespace(c)
    ensures SplitWhitespace(a + [c] + b) == SplitWhitespace(a) + SplitWhitespace(b)
    decreases |a|
  {
    if |a| == 0 {
      assert a + [c] + b == [c] + b;
      SplitWhitespaceLeadingSpace(c, b);
    } else if IsWhitespace(a[0]) {
      SplitWhitespaceAppend(a[1..], c, b);
      AppendAfterSpace(a, c, b);
    } else {
      var j := SkipWord(a, 0);
      if j == |a| {
        AppendAfterWord(a, c, b);
      } else {
        SplitWhitespaceAppend(a[j + 1..], c, b);
        AppendAfterWords(a, j, c, b);
      }
    }
  }

  lemma AppendAfterSpace(a: string, c: char, b: string)
    requires |a| > 0 && IsWhitespace(a[0])
    requires SplitWhitespace(a[1..] + [c] + b) == SplitWhitespace(a[1..]) + SplitWhitespace(b)
    ensures SplitWhitespace(a + [c] + b) == SplitWhitespace(a) + SplitWhitespace(b)
  {
    var s := a + [c] + b;
    DropFirst(a, c, b);
    SplitWhitespaceDropSpace(s);
    SplitWhitespaceDropSpace(a);
  }

  lemma AppendAfterWord(a: string, c: char, b: string)
    requires |a| > 0 && NoWhitespace(a) && IsWhitespace(c)
    ensures SplitWhitespace(a + [c] + b) == SplitWhitespace(a) + SplitWhitespace(b)
  {
    SplitWhitespaceWord(a, c, b);
    SplitWhitespaceSingle(a);
  }

  lemma AppendAfterWords(a: string, j: nat, c: char, b: string)
    requires 0 < j < |a| && NoWhitespace(a[..j]) && IsWhitespace(a[j])
    requires SplitWhitespace(a[j + 1..] + [c] + b) == SplitWhitespace(a[j + 1..]) + SplitWhitespace(b)
    ensures SplitWhitespace(a + [c] + b) == SplitWhitespace(a) + SplitWhitespace(b)
  {
    var w, d, rest := a[..j], a[j], a[j + 1..];
    Regroup(a, j, c, b);
    SplitWhitespaceWord(w, d, rest + [c] + b);
    SplitWhitespaceWord(w, d, rest);
    ConsAppend(w, SplitWhitespace(rest), SplitWhitespace(b));
  }

  lemma ThreeSlices<T>(s: seq<T>, i: nat, j: nat)
    requires i <= j <= |s|
    ensures s == s[..i] + (s[i..j] + s[j..])
  {
  }

  lemma ThreeSlicesLeft<T>(s: seq<T>, i: nat, j: nat)
    requires i <= j <= |s|
    ensures s == s[..i] + s[i..j] + s[j..]
  {
  }

  lemma NothingAround<T>(s: seq<T>)
    ensures s == s + [] + []
  {
  }

  /** Dropping the first element of `a + [c] + b` drops it from `a`. */
  lemma DropFirst<T>(a: seq<T>, c: T, b: seq<T>)
    requires |a| > 0
    ensures (a + [c] + b)[0] == a[0] && (a + [c] + b)[1..] == a[1..] + [c] + b
  {
  }

  /** `a` cut around its character `j`, with `[c] + b` after it. */
  lemma Regroup<T>(a: seq<T>, j: nat, c: T, b: seq<T>)
    requires j < |a|
    ensures a == a[..j] + [a[j]] + a[j + 1..]
    ensures a + [c] + b == a[..j] + [a[j]] + (a[j + 1..] + [c] + b)
  {
  }

  lemma ConsAppend<T>(w: T, r: seq<T>, b: seq<T>)
    ensures [w] + (r + b) == [w] + r + b
  {
  }

  /** Text made only of whitespace has no words. */
  lemma {:induction false} SplitWhitespaceOfWhitespace(s: string)
    requires AllWhitespace(s)
    ensures SplitWhitespace(s) == []
    decreases |s|
  {
    if |s| > 0 {
      SplitWhitespaceDropSpace(s);
      SplitWhitespaceOfWhitespace(s[1..]);
    }
  }

  /** Removes one `\r` before a line feed. */
  function StripCr(line: string): (r: string)
    ensures line == r || line == r + ['\r']
  {
    if |line| > 0 && line[|line| - 1] == '\r' then line[..|line| - 1] else line
  }

  /** `str::lines`: splits at `\n`, removes a `\r` that sits directly before a
      `\n`, and does not produce an empty last line for a final `\n`. A `\r`
      at the very end, with no `\n` after it, stays. */
  function Lines(s: string): (lines: seq<string>)
    ensures |s| > 0 ==> |lines| >= 1
    ensures forall i :: 0 <= i < |lines| ==> '\n' !in lines[i]
  {
    var parts := Split(s, '\n');
    if |parts| == 1 && |s| > 0 then assert parts[0] == s; LinesOf(parts)
    else LinesOf(parts)
  }

  /** The lines are the pieces between `\n`s: every piece but the last
      loses one `\r` at its end, and the last piece is kept as it is unless
      it is empty, in which case it is not a line. */
  lemma LinesSplit(s: string)
    ensures var parts, lines := Split(s, '\n'), Lines(s);
      && |lines| == (if parts[|parts| - 1] == [] then |parts| - 1 else |parts|)
      && (forall i :: 0 <= i < |parts| - 1 ==> lines[i] == StripCr(parts[i]))
      && (|lines| == |parts| ==> lines[|parts| - 1] == parts[|parts| - 1])
  {
    LinesOfPieces(Split(s, '\n'));
  }

  /** Every piece but the last was followed by a `\n` and loses a `\r` at
      its end; the last piece is kept as it is unless it is empty. */
  function LinesOf(parts: seq<string>): (lines: seq<string>)
    requires |parts| >= 1
    ensures |parts| > 1 || parts[0] != [] ==> |lines| >= 1
    ensures (forall i :: 0 <= i < |parts| ==> '\n' !in parts[i]) ==>
      forall i :: 0 <= i < |lines| ==> '\n' !in lines[i]
  {
    if |parts| == 1 then (if parts[0] == [] then [] else [parts[0]])
    else [StripCr(parts[0])] + LinesOf(parts[1..])
  }

  lemma {:induction false} LinesOfPieces(parts: seq<string>)
    requires |parts| >= 1
    ensures var lines := LinesOf(parts);
      && |lines| == (if parts[|parts| - 1] == [] then |parts| - 1 else |parts|)
      && (forall i :: 0 <= i < |parts| - 1 ==> lines[i] == StripCr(parts[i]))
      && (|lines| == |parts| ==> lines[|parts| - 1] == parts[|parts| - 1])
    decreases |parts|
  {
    if |parts| > 1 {
      var lines, tail := LinesOf(parts), LinesOf(parts[1..]);
      LinesOfPieces(parts[1..]);
      assert lines == [StripCr(parts[0])] + tail;
      assert parts[1..][|parts| - 2] == parts[|parts| - 1];
      forall i | 0 <= i < |parts| - 1
        ensures lines[i] == StripCr(parts[i])
      {
        if i > 0 {
          assert lines[i] == tail[i - 1] && parts[1..][i - 1] == parts[i];
        }
      }
    }
  }

  /** A line ended by `\r\n` is the first line, whatever follows. */
  lemma LinesCons(line: string, rest: string)
    requires '\n' !in line
    ensures Lines(line + "\r\n" + rest) == [line] + Lines(rest)
  {
    var s := line + "\r\n" + rest;
    var k := |line| + 1;
    assert s[k] == '\n';
    assert '\n' !in s[..k] by {
      assert s[..k] == line + "\r";
    }
    assert Find(s, '\n') == Some(k);
    assert s[..k] == line + "\r" && s[k + 1..] == rest;
    assert Split(s, '\n') == [line + "\r"] + Split(rest, '\n');
    assert StripCr(line + "\r") == line;
  }

  /** `SkipWhitespace` stops at the first non-whitespace character. */
  lemma {:induction false} SkipWhitespaceAt(s: string, i: nat, n: nat)
    requires i <= n <= |s|
    requires forall k :: i <= k < n ==> IsWhitespace(s[k])
    requires n < |s| ==> !IsWhitespace(s[n])
    ensures SkipWhitespace(s, i) == n
    decreases n - i
  {
    if i < n {
      SkipWhitespaceAt(s, i + 1, n);
    }
  }

  /** `SkipWhitespaceBack` stops after the last non-whitespace character. */
  lemma {:induction false} SkipWhitespaceBackAt(s: string, j: nat, n: nat)
    requires n <= j <= |s|
    requires forall k :: n <= k < j ==> IsWhitespace(s[k])
    requires n > 0 ==> !IsWhitespace(s[n - 1])
    ensures SkipWhitespaceBack(s, j) == n
    decreases j - n
  {
    if n < j {
      SkipWhitespaceBackAt(s, j - 1, n);
    }
  }

  /** `trim` removes exactly the whitespace around a text that neither
      starts nor ends with whitespace. */
  lemma TrimOf(a: string, r: string, b: string)
    requires AllWhitespace(a) && AllWhitespace(b)
    requires |r| > 0 ==> !IsWhitespace(r[0]) && !IsWhitespace(r[|r| - 1])
    ensures Trim(a + r + b) == r
  {
    var s := a + r + b;
    assert forall k :: 0 <= k < |a| ==> s[k] == a[k];
    assert forall k :: |a| + |r| <= k < |s| ==> s[k] == b[k - |a| - |r|];
    if |r| > 0 {
      assert s[|a|] == r[0];
      assert s[|a| + |r| - 1] == r[|r| - 1];
      SkipWhitespaceAt(s, 0, |a|);
      SkipWhitespaceBackAt(s, |s|, |a| + |r|);
      assert s[|a|..|a| + |r|] == r;
    } else {
      SkipWhitespaceAt(s, 0, |s|);
    }
  }

  function AsciiLowerChar(c: char): (r: char)
    ensures 'A' <= c <= 'Z' ==> r as int == c as int + 32
    ensures !('A' <= c <= 'Z') ==> r == c
  {
    if 'A' <= c <= 'Z' then (c as int + 32) as char else c
  }

  /** Lower-cases ASCII letters and keeps every other character. */
  function AsciiLower(s: string): (r: string)
    ensures |r| == |s|
    ensures forall i :: 0 <= i < |s| ==> r[i] == AsciiLowerChar(s[i])
  {
    if |s| == 0 then [] else [AsciiLowerChar(s[0])] + AsciiLower(s[1..])
  }

  lemma AsciiLowerAppend(a: string, b: string)
    ensures AsciiLower(a + b) == AsciiLower(a) + AsciiLower(b)
  {
    var l, r := AsciiLower(a + b), AsciiLower(a) + AsciiLower(b);
    assert forall i :: 0 <= i < |l| ==> l[i] == r[i] by {
      forall i | 0 <= i < |l| ensures l[i] == r[i] {
        if i < |a| { assert (a + b)[i] == a[i]; } else { assert (a + b)[i] == b[i - |a|]; }
      }
    }
  }

  lemma {:induction false} AsciiLowerIdempotent(s: string)
    ensures AsciiLower(AsciiLower(s)) == AsciiLower(s)
  {
    var once := AsciiLower(s);
    var twice := AsciiLower(once);
    forall i | 0 <= i < |s| ensures twice[i] == once[i] {
      assert !('A' <= once[i] <= 'Z');
    }
  }
}

=== FILE: sws.dfy ===
/** `src/rumpeg/sws.rs`: the frame properties a scaling context converts
    between, how a missing output dimension is derived from the input's
    aspect ratio, the builder that sets a context up, and
    `SwsContext::resize_output`. The native context pointer is not
    modelled; whether FFmpeg hands one back is a parameter. */
module Sws {
  import opened Wrappers
  import opened RustNum
  import opened Rumpeg
  import opened AvCodec

  datatype FrameProperties = FrameProperties(width: int, height: int, pixelFormat: PixelFormat)

  /** The divisions `copy_aspect_ratio` makes are by a nonzero number: the
      other height when the width is derived from a positive height, the
      other width when the height is derived from a given width. */
  predicate CanCopyAspectRatio(p: FrameProperties, other: FrameProperties) {
    && (p.width < 1 && p.height > 0 ==> other.height != 0)
    && (p.width >= 1 && p.height < 1 ==> other.width != 0)
  }

  /** `SwsFrameProperties::copy_aspect_ratio`: a dimension below 1 is
      derived from the other one through `other`'s aspect ratio (integer
      division truncating toward zero), or copied from `other` if both are
      below 1. A dimension that is at least 1 is kept. */
  function CopyAspectRatio(p: FrameProperties, other: FrameProperties): (r: FrameProperties)
    requires CanCopyAspectRatio(p, other)
    ensures r.pixelFormat == p.pixelFormat
    ensures p.width >= 1 ==> r.width == p.width
    ensures p.height >= 1 ==> r.height == p.height
    ensures p.width < 1 && p.height > 0 ==> r.width == Scale(p.height, other.width, other.height)
    ensures p.width >= 1 && p.height < 1 ==> r.height == Scale(p.width, other.height, other.width)
    ensures p.width < 1 && p.height < 1 ==> r.width == other.width && r.height == other.height
  {
    if p.width < 1 then
      if p.height > 0 then p.(width := Scale(p.height, other.width, other.height))
      else
        // The width is now `other.width`, so the height is derived from it.
        var width := other.width;
        var height := if width > 0 then Scale(width, other.height, other.width) else other.height;
        assert height == other.height by {
          if width > 0 { TruncDivCancel(other.width, other.height); }
        }
        p.(width := width, height := height)
    else if p.height < 1 then p.(height := Scale(p.width, other.height, other.width))
    else p
  }

  /** `a * num / den` in `i32` arithmetic (without the overflow). */
  function Scale(a: int, num: int, den: int): int
    requires den != 0
  {
    TruncDiv(a * num, den)
  }

  /** Copying the aspect ratio a second time changes nothing. */
  lemma CopyAspectRatioIdempotent(p: FrameProperties, other: FrameProperties)
    requires CanCopyAspectRatio(p, other)
    ensures CanCopyAspectRatio(CopyAspectRatio(p, other), other)
    ensures CopyAspectRatio(CopyAspectRatio(p, other), other) == CopyAspectRatio(p, other)
  {
    var r := CopyAspectRatio(p, other);
    if p.width < 1 && p.height < 1 && other.height > 0 {
      TruncDivCancel(other.height, other.width);
    }
  }

  datatype Builder = Builder(input: FrameProperties, output: FrameProperties)

  /** `SwsContextBuilder::from_codec_context`: the input is the decoder's
      size and format; the output starts as 0 x 0 RGB24, so both of its
      dimensions are still to be derived. */
  function FromCodecContext(width: int, height: int, format: PixelFormat): (b: Builder)
    ensures b.input == FrameProperties(width, height, format)
    ensures b.output.width < 1 && b.output.height < 1 && b.output.pixelFormat == RGB24
  {
    Builder(FrameProperties(width, height, format), FrameProperties(0, 0, RGB24))
  }

  /** The setters change exactly one field of the output. */
  function SetWidth(b: Builder, w: int): (r: Builder)
    ensures r.input == b.input && r.output == b.output.(width := w)
  {
    b.(output := b.output.(width := w))
  }

  function SetHeight(b: Builder, h: int): (r: Builder)
    ensures r.input == b.input && r.output == b.output.(height := h)
  {
    b.(output := b.output.(height := h))
  }

  function SetPixelFormat(b: Builder, f: PixelFormat): (r: Builder)
    ensures r.input == b.input && r.output == b.output.(pixelFormat := f)
  {
    b.(output := b.output.(pixelFormat := f))
  }

  /** A scaling context: what it converts from and to. */
  datatype SwsContext = SwsContext(input: FrameProperties, output: FrameProperties)

  /** `get_context_ptr`: `sws_getCachedContext` returning null is
      `SwsContextCreation`. */
  function ContextFor(input: FrameProperties, output: FrameProperties, created: bool)
    : (r: Result<SwsContext, RumpegError>)
    ensures created <==> r.Ok?
    ensures r.Ok? ==> r.value == SwsContext(input, output)
    ensures r.Err? ==> r.error == SwsContextCreation
  {
    if created then Ok(SwsContext(input, output)) else Err(SwsContextCreation)
  }

  /** `SwsContextBuilder::build`: fills in the missing output dimensions,
      then asks FFmpeg for a context. The builder keeps the filled-in output
      whether or not that succeeds. */
  function Build(b: Builder, created: bool): (r: (Builder, Result<SwsContext, RumpegError>))
    requires CanCopyAspectRatio(b.output, b.input)
    ensures r.0 == b.(output := CopyAspectRatio(b.output, b.input))
    ensures r.1.Ok? <==> created
    ensures r.1.Ok? ==> r.1.value == SwsContext(b.input, r.0.output)
  {
    var b' := b.(output := CopyAspectRatio(b.output, b.input));
    (b', ContextFor(b'.input, b'.output, created))
  }

  /** Without setters the output has exactly the input's size, in RGB24. */
  lemma BuildWithoutSetters(width: int, height: int, format: PixelFormat, created: bool)
    requires created
    ensures var b := FromCodecContext(width, height, format);
      Build(b, created).1 == Ok(SwsContext(b.input, FrameProperties(width, height, RGB24)))
  {
  }

  /** `SwsContext::resize_output`: sets the requested size, derives a
      missing dimension from the input, then asks for a new context. The
      output is updated even when that fails; the input never changes. */
  function ResizeOutput(ctx: SwsContext, width: int, height: int, created: bool)
    : (r: (SwsContext, Result<(), RumpegError>))
    requires CanCopyAspectRatio(ctx.output.(width := width, height := height), ctx.input)
    ensures r.0.input == ctx.input
    ensures r.0.output == CopyAspectRatio(ctx.output.(width := width, height := height), ctx.input)
    ensures r.0.output.pixelFormat == ctx.output.pixelFormat
    ensures width >= 1 ==> r.0.output.width == width
    ensures height >= 1 ==> r.0.output.height == height
    ensures r.1.Ok? <==> created
    ensures !created ==> r.1 == Err(SwsContextCreation)
  {
    var output := CopyAspectRatio(ctx.output.(width := width, height := height), ctx.input);
    var updated := ctx.(output := output);
    match ContextFor(updated.input, updated.output, created)
    case Ok(_) => (updated, Ok(()))
    case Err(e) => (updated, Err(e))
  }

  /** Resizing to `0 x 0` restores the input size. */
  lemma ResizeToZeroRestoresInput(ctx: SwsContext, created: bool)
    ensures var r := ResizeOutput(ctx, 0, 0, created);
      r.0.output.width == ctx.input.width && r.0.output.height == ctx.input.height
  {
  }
}

=== FILE: utf8.dfy ===
/** UTF-8 as Rust's `str::from_utf8` checks it and `str::as_bytes` produces
    it (section 3 of RFC 3629): shortest forms only, no surrogates, nothing
    above U+10FFFF. The server decodes request bytes with `Decode` and
    writes response text with `Encode`; `DecodeEncode` shows the two agree. */
module Utf8 {
  import opened Wrappers
  import opened RustNum

  predicate IsContinuation(b: byte) { 0x80 <= b <= 0xBF }

  /** The permitted second byte after a three- or four-byte lead byte,
      which rules out overlong forms, surrogates and values past U+10FFFF. */
  predicate SecondByteOk(lead: byte, b: byte) {
    if lead == 0xE0 then 0xA0 <= b <= 0xBF
    else if lead == 0xED then 0x80 <= b <= 0x9F
    else if lead == 0xF0 then 0x90 <= b <= 0xBF
    else if lead == 0xF4 then 0x80 <= b <= 0x8F
    else IsContinuation(b)
  }

  /** The scalar value at the start of `s` and how many bytes it takes. */
  function DecodeOne(s: seq<byte>): (r: Option<(char, nat)>)
    requires |s| > 0
    ensures r.Some? ==> 1 <= r.value.1 <= |s|
  {
    var b0 := s[0] as int;
    if b0 < 0x80 then Some((b0 as char, 1))
    else if 0xC2 <= b0 <= 0xDF then
      if |s| >= 2 && IsContinuation(s[1]) then
        Some((((b0 - 0xC0) * 64 + (s[1] as int - 0x80)) as char, 2))
      else None
    else if 0xE0 <= b0 <= 0xEF then
      if |s| >= 3 && SecondByteOk(s[0], s[1]) && IsContinuation(s[2]) then
        var v := (b0 - 0xE0) * 4096 + (s[1] as int - 0x80) * 64 + (s[2] as int - 0x80);
        assert v < 0xD800 || 0xE000 <= v;
        Some((v as char, 3))
      else None
    else if 0xF0 <= b0 <= 0xF4 then
      if |s| >= 4 && SecondByteOk(s[0], s[1]) && IsContinuation(s[2]) && IsContinuation(s[3]) then
        var v := (b0 - 0xF0) * 262144 + (s[1] as int - 0x80) * 4096
          + (s[2] as int - 0x80) * 64 + (s[3] as int - 0x80);
        Some((v as char, 4))
      else None
    else None
  }

  /** `str::from_utf8`: the text, or `None` if any byte sequence is not
      well-formed UTF-8. */
  function Decode(s: seq<byte>): (r: Option<string>)
    ensures r.Some? ==> |r.value| <= |s| && (|s| > 0 ==> |r.value| > 0)
    decreases |s|
  {
    if |s| == 0 then Some([])
    else match DecodeOne(s)
      case None => None
      case Some((c, n)) =>
        match Decode(s[n..])
        case None => None
        case Some(rest) => Some([c] + rest)
  }

  /** The UTF-8 bytes of one scalar value. */
  function EncodeChar(c: char): (bs: seq<byte>)
    ensures 1 <= |bs| <= 4
  {
    var v := c as int;
    if v < 0x80 then [v]
    else if v < 0x800 then [0xC0 + v / 64, 0x80 + v % 64]
    else if v < 0x10000 then [0xE0 + v / 4096, 0x80 + (v / 64) % 64, 0x80 + v % 64]
    else [0xF0 + v / 262144, 0x80 + (v / 4096) % 64, 0x80 + (v / 64) % 64, 0x80 + v % 64]
  }

  /** `str::as_bytes`. */
  function Encode(s: string): seq<byte> {
    if |s| == 0 then [] else EncodeChar(s[0]) + Encode(s[1..])
  }

  lemma EncodeAppend(a: string, b: string)
    ensures Encode(a + b) == Encode(a) + Encode(b)
  {
    if |a| > 0 {
      assert (a + b)[1..] == a[1..] + b;
      EncodeAppend(a[1..], b);
    } else {
      assert a + b == b;
    }
  }

  lemma DecodeTwo(c: char, rest: seq<byte>)
    requires 0x80 <= c as int < 0x800
    ensures DecodeOne(EncodeChar(c) + rest) == Some((c, 2))
  {
    var v := c as int;
    assert v == (v / 64) * 64 + v % 64;
  }

  lemma DecodeThree(c: char, rest: seq<byte>)
    requires 0x800 <= c as int < 0x10000
    ensures DecodeOne(EncodeChar(c) + rest) == Some((c, 3))
  {
    var v := c as int;
    assert v / 64 == (v / 4096) * 64 + (v / 64) % 64;
    assert v == (v / 64) * 64 + v % 64;
    assert v < 0xD800 || 0xE000 <= v;
  }

  lemma DecodeFour(c: char, rest: seq<byte>)
    requires 0x10000 <= c as int
    ensures DecodeOne(EncodeChar(c) + rest) == Some((c, 4))
  {
    var v := c as int;
    assert v / 4096 == (v / 262144) * 64 + (v / 4096) % 64;
    assert v / 64 == (v / 4096) * 64 + (v / 64) % 64;
    assert v == (v / 64) * 64 + v % 64;
    assert v <= 0x10FFFF;
  }

  /** Decoding the encoding of one character reads back that character
      and exactly its bytes, whatever follows. */
  lemma DecodeOneEncodeChar(c: char, rest: seq<byte>)
    ensures DecodeOne(EncodeChar(c) + rest) == Some((c, |EncodeChar(c)|))
  {
    var v := c as int;
    if 0x80 <= v < 0x800 {
      DecodeTwo(c, rest);
    } else if 0x800 <= v < 0x10000 {
      DecodeThree(c, rest);
    } else if 0x10000 <= v {
      DecodeFour(c, rest);
    }
  }

  /** `from_utf8` accepts every `as_bytes` output and gives back the text. */
  lemma {:induction false} DecodeEncode(s: string)
    ensures Decode(Encode(s)) == Some(s)
  {
    if |s| > 0 {
      var e := EncodeChar(s[0]);
      DecodeOneEncodeChar(s[0], Encode(s[1..]));
      var bytes := Encode(s);
      assert bytes == e + Encode(s[1..]);
      assert bytes[|e|..] == Encode(s[1..]);
      DecodeEncode(s[1..]);
      assert Decode(bytes) == Some([s[0]] + s[1..]);
      assert [s[0]] + s[1..] == s;
    }
  }
}

=== FILE: video.dfy ===
/** `src/video.rs`: the film roll, a grid of thumbnails at most ten wide,
    and the flush-then-seek order that `frames` follows. Converting positions
    to stream ticks (`as_time_base`), the sws output size and each plane's
    height come from code that is not part of this model, so they are
    parameters; so is the `atan2` angle of the display matrix. */
module Video {
  import opened Wrappers
  import opened RustNum
  import opened Math
  import opened Rumpeg
  import opened AvFormat

  /** `MAX_FILM_WIDTH`: thumbnails per film row. */
  const MAX_FILM_WIDTH: nat := 10

  datatype VideoError = RumpegFailure(cause: RumpegError) | NoFramesInFilmRoll(found: int)

  // ---------------------------------------------------------------------
  // Tile count
  // ---------------------------------------------------------------------

  /** `((end - start) as f64 / step as f64).ceil() as i32`: the quotient is
      exact here; the cast saturates, a zero step gives an infinity (or NaN
      for 0/0, which casts to 0). */
  function TileCount(startTicks: int, endTicks: int, stepTicks: int): (n: int)
    ensures I32_MIN <= n <= I32_MAX
    ensures stepTicks == 0 ==> (n == I32_MAX <==> endTicks > startTicks)
    ensures stepTicks == 0 ==> (n == I32_MIN <==> endTicks < startTicks)
  {
    var diff := endTicks - startTicks;
    if stepTicks == 0 then
      (if diff > 0 then I32_MAX else if diff < 0 then I32_MIN else 0)
    else Saturate(CeilReal(diff as real / stepTicks as real), I32_MIN, I32_MAX)
  }

  lemma MulLe(a: int, b: int, s: nat)
    requires a <= b
    ensures a * s <= b * s
  {
    assert b * s - a * s == (b - a) * s;
  }

  /** `ceil(d / s)` times a positive `s` is the least multiple of `s` that
      reaches `d`. */
  lemma CeilQuotient(diff: int, step: int)
    requires step > 0
    ensures var c := CeilReal(diff as real / step as real);
      (c - 1) * step < diff <= c * step
  {
    var x := diff as real / step as real;
    var c := CeilReal(x);
    assert x * step as real == diff as real;
    assert (c as real) * (step as real) >= x * (step as real);
    assert ((c - 1) as real) * (step as real) < x * (step as real);
    assert (c as real) * (step as real) == (c * step) as real;
    assert ((c - 1) as real) * (step as real) == ((c - 1) * step) as real;
  }

  /** With a positive step, the tile count is the number of steps needed to
      cover `end - start`, up to the `i32` range. */
  lemma TileCountCovers(startTicks: int, endTicks: int, stepTicks: int)
    requires stepTicks > 0
    ensures var n := TileCount(startTicks, endTicks, stepTicks);
      && (n < I32_MAX ==> endTicks - startTicks <= n * stepTicks)
      && (n > I32_MIN ==> (n - 1) * stepTicks < endTicks - startTicks)
  {
    var diff := endTicks - startTicks;
    var c := CeilReal(diff as real / stepTicks as real);
    var n := TileCount(startTicks, endTicks, stepTicks);
    CeilQuotient(diff, stepTicks);
    if c < I32_MIN {
      MulLe(c, n, stepTicks);
    } else if c > I32_MAX {
      MulLe(n - 1, c - 1, stepTicks);
    }
  }

  lemma QuotientPositive(diff: int, step: int)
    requires step != 0
    ensures (diff as real / step as real > 0.0) <==> ((diff > 0 && step > 0) || (diff < 0 && step < 0))
  {
    var x := diff as real / step as real;
    assert x * step as real == diff as real;
    if x > 0.0 {
      if step > 0 { assert x * step as real > 0.0; } else { assert x * step as real < 0.0; }
    }
  }

  /** There is at least one tile exactly when the step points from `start`
      towards a different `end` (a zero step counts as pointing forward). */
  lemma TileCountPositive(startTicks: int, endTicks: int, stepTicks: int)
    ensures TileCount(startTicks, endTicks, stepTicks) >= 1 <==>
      ((endTicks > startTicks && stepTicks >= 0) || (endTicks < startTicks && stepTicks < 0))
  {
    if stepTicks != 0 {
      var diff := endTicks - startTicks;
      var x := diff as real / stepTicks as real;
      QuotientPositive(diff, stepTicks);
      var c := CeilReal(x);
      assert c >= 1 <==> x > 0.0;
    }
  }

  // ---------------------------------------------------------------------
  // Film layout
  // ---------------------------------------------------------------------

  /** `min(tile_count, MAX_FILM_WIDTH)`. */
  function Cols(n: int): (c: int)
    ensures c <= n && c <= MAX_FILM_WIDTH
    ensures c == n || c == MAX_FILM_WIDTH
  {
    if n < MAX_FILM_WIDTH then n else MAX_FILM_WIDTH
  }

  /** `(tile_count as f64 / MAX_FILM_WIDTH as f64).ceil() as i32`; for an
      `i32` count the quotient is in range, so the cast does not clamp. It
      is the least number of full rows of ten that hold the count. */
  function Rows(n: int): (r: int)
    ensures MAX_FILM_WIDTH * (r - 1) < n <= MAX_FILM_WIDTH * r
  {
    CeilQuotient(n, MAX_FILM_WIDTH);
    CeilReal(n as real / MAX_FILM_WIDTH as real)
  }

  /** The rows are the count divided by ten, rounded up. */
  lemma RowsValue(n: int)
    requires n >= 1
    ensures Rows(n) == (n + 9) / 10
    ensures 10 * (Rows(n) - 1) < n <= 10 * Rows(n)
  {
    CeilQuotient(n, 10);
    var r := (n + 9) / 10;
    assert 10 * (r - 1) < n <= 10 * r;
  }

  /** The grid has a cell for every tile, and its last row is not empty. */
  lemma GridCapacity(n: int)
    requires n >= 1
    ensures 1 <= Cols(n) <= MAX_FILM_WIDTH && Rows(n) >= 1
    ensures Cols(n) * Rows(n) >= n
    ensures Cols(n) * (Rows(n) - 1) < n
  {
    RowsValue(n);
    if n <= 10 {
      assert Rows(n) == 1;
    }
  }

  /** What `film_roll` settles before allocating: the tile count and the
      size of one tile. */
  datatype FilmLayout = FilmLayout(tileCount: int, tileWidth: int, tileHeight: int) {
    /** `tile_w * min(tile_count, MAX_FILM_WIDTH)`. */
    function Width(): int { tileWidth * Cols(tileCount) }
    /** `tile_h * ceil(tile_count / MAX_FILM_WIDTH)`. */
    function Height(): int { tileHeight * Rows(tileCount) }
  }

  /** The test `display_matrix.is_some_and(|m| m.rotation().abs() == 90.)`. */
  predicate QuarterTurn(displayMatrix: Option<Matrix3x3>, atan2Degrees: real) {
    displayMatrix.Some? && (var a := Rotation(displayMatrix.value, atan2Degrees); a == 90.0 || a == -90.0)
  }

  /** The start of `film_roll`: too few tiles is an error reported before
      anything is allocated; otherwise the tile is the sws output size,
      turned on its side when the display matrix rotates by a quarter. */
  function Layout(startTicks: int, endTicks: int, stepTicks: int, outWidth: int, outHeight: int,
                  displayMatrix: Option<Matrix3x3>, atan2Degrees: real): (r: Result<FilmLayout, VideoError>)
    ensures r.Err? <==> TileCount(startTicks, endTicks, stepTicks) < 1
    ensures r.Err? ==> r.error == NoFramesInFilmRoll(TileCount(startTicks, endTicks, stepTicks))
    ensures r.Ok? ==> r.value.tileCount == TileCount(startTicks, endTicks, stepTicks) >= 1
    ensures r.Ok? && QuarterTurn(displayMatrix, atan2Degrees) ==>
      r.value.tileWidth == outHeight && r.value.tileHeight == outWidth
    ensures r.Ok? && !QuarterTurn(displayMatrix, atan2Degrees) ==>
      r.value.tileWidth == outWidth && r.value.tileHeight == outHeight
  {
    var n := TileCount(startTicks, endTicks, stepTicks);
    if n < 1 then Err(NoFramesInFilmRoll(n))
    else if QuarterTurn(displayMatrix, atan2Degrees) then Ok(FilmLayout(n, outHeight, outWidth))
    else Ok(FilmLayout(n, outWidth, outHeight))
  }

  /** A matrix that `rotation` treats as singular never turns the tiles,
      whatever the angle. */
  lemma SingularMatrixKeepsTiles(m: Matrix3x3, atan2Degrees: real)
    requires ZeroScale(m)
    ensures !QuarterTurn(Some(m), atan2Degrees)
  {
  }

  /** A layout holds every tile: the film is a whole number of tiles wide and
      high, with room for `tile_count` of them and no empty row. */
  lemma LayoutHoldsTiles(startTicks: int, endTicks: int, stepTicks: int, outWidth: int, outHeight: int,
                         displayMatrix: Option<Matrix3x3>, atan2Degrees: real)
    requires Layout(startTicks, endTicks, stepTicks, outWidth, outHeight, displayMatrix, atan2Degrees).Ok?
    ensures var l := Layout(startTicks, endTicks, stepTicks, outWidth, outHeight, displayMatrix, atan2Degrees).value;
      && 1 <= Cols(l.tileCount) <= MAX_FILM_WIDTH
      && Cols(l.tileCount) * Rows(l.tileCount) >= l.tileCount
      && Cols(l.tileCount) * (Rows(l.tileCount) - 1) < l.tileCount
  {
    GridCapacity(TileCount(startTicks, endTicks, stepTicks));
  }

  // ---------------------------------------------------------------------
  // Tile copy
  // ---------------------------------------------------------------------

  /** One plane of one thumbnail being copied into the film: where it
      starts in the film, the two line sizes and the plane's height. */
  datatype Tile = Tile(start: nat, filmStride: nat, frameStride: nat, frameHeight: nat) {
    /** `film_row_start` of row `y`. */
    function FilmRow(y: nat): nat { start + filmStride * y }
    /** `frame_row_start` of row `y`. */
    function FrameRow(y: nat): nat { y * frameStride }

    /** Every row slice is inside both buffers, so no `copy_from_slice`
        panics. */
    predicate Fits(filmLen: nat, frameLen: nat) {
      forall y :: 0 <= y < frameHeight ==>
        FilmRow(y) + frameStride <= filmLen && FrameRow(y) + frameStride <= frameLen
    }

    /** The film after rows `0..rows` have been copied, in order. */
    function Copied(film: seq<byte>, frame: seq<byte>, rows: nat): (r: seq<byte>)
      requires rows <= frameHeight && Fits(|film|, |frame|)
      ensures |r| == |film|
    {
      if rows == 0 then film
      else CopyRow(Copied(film, frame, rows - 1), FilmRow(rows - 1), frame, FrameRow(rows - 1), frameStride)
    }
  }

  /** `film[at..at + len].copy_from_slice(&frame[from..from + len])`. */
  function CopyRow(film: seq<byte>, at: nat, frame: seq<byte>, from: nat, len: nat): (r: seq<byte>)
    requires at + len <= |film| && from + len <= |frame|
    ensures |r| == |film|
    ensures forall i :: 0 <= i < |r| ==> r[i] == if at <= i < at + len then frame[from + (i - at)] else film[i]
  {
    film[..at] + frame[from..from + len] + film[at + len..]
  }

  /** The tile of thumbnail `k`: `tile_x * frame_stride + film_stride *
      (tile_y * frame_height)` for column `tile_x = k % 10` and grid row
      `tile_y = k / 10`. Row `y` of the thumbnail goes to film line
      `tile_y * frame_height + y`, `tile_x` frame lines from its start;
      when that column lies within a film line, those are the line and
      column a reader of the film finds it at. */
  function TileAt(k: nat, filmStride: nat, frameStride: nat, frameHeight: nat): (t: Tile)
    ensures t.filmStride == filmStride && t.frameStride == frameStride && t.frameHeight == frameHeight
    ensures forall y: nat {:trigger t.FilmRow(y)} ::
      t.FilmRow(y) == filmStride * ((k / MAX_FILM_WIDTH) * frameHeight + y) + (k % MAX_FILM_WIDTH) * frameStride
    ensures (k % MAX_FILM_WIDTH) * frameStride < filmStride ==> forall y: nat {:trigger t.FilmRow(y)} ::
      && t.FilmRow(y) / filmStride == (k / MAX_FILM_WIDTH) * frameHeight + y
      && t.FilmRow(y) % filmStride == (k % MAX_FILM_WIDTH) * frameStride
  {
    var col, row := k % MAX_FILM_WIDTH, k / MAX_FILM_WIDTH;
    var t := Tile(col * frameStride + filmStride * (row * frameHeight), filmStride, frameStride, frameHeight);
    assert forall y: nat :: t.FilmRow(y) == filmStride * (row * frameHeight + y) + col * frameStride by {
      forall y: nat ensures t.FilmRow(y) == filmStride * (row * frameHeight + y) + col * frameStride {
        assert filmStride * (row * frameHeight) + filmStride * y == filmStride * (row * frameHeight + y);
      }
    }
    assert col * frameStride < filmStride ==> forall y: nat ::
      && t.FilmRow(y) / filmStride == row * frameHeight + y
      && t.FilmRow(y) % filmStride == col * frameStride by {
      if col * frameStride < filmStride {
        forall y: nat ensures t.FilmRow(y) / filmStride == row * frameHeight + y
          && t.FilmRow(y) % filmStride == col * frameStride {
          LineAndColumn(col * frameStride, filmStride, row * frameHeight + y);
        }
      }
    }
    t
  }

  /** An offset `c + f·q` with `0 <= c < f` is column `c` of line `q`. */
  lemma LineAndColumn(c: nat, f: nat, q: nat)
    requires c < f
    ensures (f * q + c) / f == q && (f * q + c) % f == c
  {
    var x := f * q + c;
    assert x == q * f + c;
    LemmaDivMod(x, f, q, c);
  }

  /** Euclidean division is unique. */
  lemma LemmaDivMod(x: nat, f: nat, q: nat, c: nat)
    requires c < f && x == q * f + c
    ensures x / f == q && x % f == c
  {
    var q', c' := x / f, x % f;
    assert x == q' * f + c';
    if q' > q {
      MulLt(q, q', f);
    } else if q' < q {
      MulLt(q', q, f);
    }
  }

  /** The row loop of `film_roll`: copies the plane of one thumbnail into
      the film, row after row. */
  method CopyTile(film: seq<byte>, frame: seq<byte>, t: Tile) returns (r: seq<byte>)
    requires t.Fits(|film|, |frame|)
    ensures r == t.Copied(film, frame, t.frameHeight)
  {
    r := film;
    var y := 0;
    while y < t.frameHeight
      invariant 0 <= y <= t.frameHeight
      invariant r == t.Copied(film, frame, y)
    {
      FitsRow(t, |film|, |frame|, y);
      var filmRowStart := t.FilmRow(y);
      var filmRowEnd := filmRowStart + t.frameStride;
      var frameRowStart := t.FrameRow(y);
      var frameRowEnd := frameRowStart + t.frameStride;
      r := r[..filmRowStart] + frame[frameRowStart..frameRowEnd] + r[filmRowEnd..];
      y := y + 1;
    }
  }

  lemma MulLt(a: nat, b: nat, s: nat)
    requires a < b
    ensures a * s + s <= b * s
  {
    assert b * s - a * s == (b - a) * s;
    MulLe(1, b - a, s);
  }

  /** A byte outside every row window of the tile keeps its value. */
  lemma {:induction false} CopiedOutside(t: Tile, film: seq<byte>, frame: seq<byte>, rows: nat, i: nat)
    requires rows <= t.frameHeight && t.Fits(|film|, |frame|) && i < |film|
    requires forall y :: 0 <= y < rows ==> !(t.FilmRow(y) <= i < t.FilmRow(y) + t.frameStride)
    ensures t.Copied(film, frame, rows)[i] == film[i]
  {
    if rows > 0 {
      CopiedOutside(t, film, frame, rows - 1, i);
    }
  }

  /** When rows do not overlap in the film (the frame's line is no longer
      than the film's), byte `x` of frame row `y` lands at byte `x` of film
      row `y`. */
  lemma {:induction false} CopiedRow(t: Tile, film: seq<byte>, frame: seq<byte>, rows: nat, y: nat, x: nat)
    requires rows <= t.frameHeight && t.Fits(|film|, |frame|)
    requires t.frameStride <= t.filmStride && y < rows && x < t.frameStride
    ensures t.FilmRow(y) + x < |film| && t.FrameRow(y) + x < |frame|
    ensures t.Copied(film, frame, rows)[t.FilmRow(y) + x] == frame[t.FrameRow(y) + x]
  {
    var i := t.FilmRow(y) + x;
    var last := rows - 1;
    var at, from := t.FilmRow(last), t.FrameRow(last);
    assert t.FilmRow(y) + t.frameStride <= |film| && t.FrameRow(y) + t.frameStride <= |frame|;
    assert at + t.frameStride <= |film| && from + t.frameStride <= |frame|;
    var prev := t.Copied(film, frame, last);
    assert t.Copied(film, frame, rows) == CopyRow(prev, at, frame, from, t.frameStride);
    if y < last {
      CopiedRow(t, film, frame, last, y, x);
      RowsApart(t, y, last);
      assert i < at;
    } else {
      assert i - at == x;
    }
  }

  /** Film rows of a tile start at least a film line apart. */
  lemma RowsApart(t: Tile, y: nat, z: nat)
    requires y < z
    ensures t.FilmRow(y) + t.filmStride <= t.FilmRow(z)
  {
    MulLt(y, z, t.filmStride);
  }

  /** Row `y` of a tile in column `col` and grid row `row` ends inside a
      film of `rows * h` lines whose line holds `cols` frame lines. */
  lemma TileRowFits(col: nat, cols: nat, row: nat, rows: nat, y: nat, h: nat, frameStride: nat, filmStride: nat)
    requires col < cols && row < rows && y < h
    requires filmStride >= cols * frameStride
    ensures col * frameStride + filmStride * (row * h) + filmStride * y + frameStride <= filmStride * (rows * h)
  {
    var line := row * h + y;
    MulLt(row, rows, h);
    assert line < rows * h;
    MulLt(col, cols, frameStride);
    assert filmStride * (row * h) + filmStride * y == filmStride * line;
    MulLt(line, rows * h, filmStride);
    assert filmStride * line + filmStride <= filmStride * (rows * h);
  }

  /** A thumbnail whose index is below the tile count fits in a film
      `Rows(n) * frame_height` lines high whose line holds `Cols(n)` frame
      lines, and its source rows fit in the frame plane. */
  lemma TileFits(k: nat, n: int, filmStride: nat, frameStride: nat, frameHeight: nat,
                 filmLen: nat, frameLen: nat)
    requires 1 <= n && k < n
    requires filmStride >= Cols(n) * frameStride
    requires filmLen >= filmStride * (Rows(n) * frameHeight)
    requires frameLen >= frameHeight * frameStride
    ensures TileAt(k, filmStride, frameStride, frameHeight).Fits(filmLen, frameLen)
  {
    var t := TileAt(k, filmStride, frameStride, frameHeight);
    var col, row := k % MAX_FILM_WIDTH, k / MAX_FILM_WIDTH;
    RowsValue(n);
    assert col < Cols(n);
    assert row < Rows(n);
    forall y | 0 <= y < frameHeight
      ensures t.FilmRow(y) + frameStride <= filmLen && t.FrameRow(y) + frameStride <= frameLen
    {
      TileRowFits(col, Cols(n), row, Rows(n), y, frameHeight, frameStride, filmStride);
      MulLt(y, frameHeight, frameStride);
    }
  }

  /** Past the last full row of the grid, a thumbnail would start beyond the
      end of the film, so the bound on the index is needed. */
  lemma TileBeyondGridOverflows(k: nat, n: int, filmStride: nat, frameStride: nat, frameHeight: nat,
                                frameLen: nat)
    requires 1 <= n && k >= MAX_FILM_WIDTH * Rows(n)
    requires frameHeight >= 1 && frameStride >= 1
    ensures !TileAt(k, filmStride, frameStride, frameHeight).Fits(filmStride * (Rows(n) * frameHeight), frameLen)
  {
    var t := TileAt(k, filmStride, frameStride, frameHeight);
    RowsValue(n);
    var row := k / MAX_FILM_WIDTH;
    assert row >= Rows(n);
    MulLe(Rows(n), row, frameHeight);
    MulLe(Rows(n) * frameHeight, row * frameHeight, filmStride);
    assert t.FilmRow(0) >= filmStride * (Rows(n) * frameHeight);
  }

  // ---------------------------------------------------------------------
  // Plane geometry of the film roll
  // ---------------------------------------------------------------------

  /** The line size and the number of lines of one image plane. */
  datatype Plane = Plane(stride: nat, height: nat)

  /** Plane `plane` of a YUV420P image `w` by `h` as `AVFrame::new` lays it
      out: `av_image_fill_arrays` with alignment 1 gives the luma plane one
      byte per pixel, and each chroma plane half of each side, rounded up. */
  function Yuv420Plane(plane: nat, w: nat, h: nat): (p: Plane)
    requires plane < 3
    ensures plane == 0 ==> p == Plane(w, h)
    ensures plane > 0 ==> w <= 2 * p.stride <= w + 1 && h <= 2 * p.height <= h + 1
  {
    if plane == 0 then Plane(w, h) else Plane((w + 1) / 2, (h + 1) / 2)
  }

  /** Plane `plane` of the film roll as `film_roll` allocates it: a single
      YUV420P image `Cols(n)` tiles wide and `Rows(n)` tiles high. */
  function AllocatedFilmPlane(n: int, w: nat, h: nat, plane: nat): Plane
    requires 1 <= n && plane < 3
  {
    Yuv420Plane(plane, Cols(n) * w, Rows(n) * h)
  }

  /** The film plane the tile offsets assume: a film line holds `Cols(n)`
      thumbnail lines and the plane is `Rows(n)` thumbnails high, in every
      plane. */
  function FilmPlane(n: int, thumb: Plane): Plane
    requires 1 <= n
  {
    Plane(Cols(n) * thumb.stride, Rows(n) * thumb.height)
  }

  /** Half of `c·w`, rounded up, is at most `c` times half of `w` rounded
      up, and equal exactly when `c` is 1 or `w` is even. */
  lemma HalfUpOfProduct(c: nat, w: nat)
    requires c >= 1
    ensures (c * w + 1) / 2 <= c * ((w + 1) / 2)
    ensures (c * w + 1) / 2 == c * ((w + 1) / 2) <==> c == 1 || w % 2 == 0
  {
    var m := w / 2;
    if w % 2 == 0 {
      assert w == 2 * m && (w + 1) / 2 == m;
      assert c * w + 1 == 2 * (c * m) + 1;
    } else {
      assert w == 2 * m + 1 && (w + 1) / 2 == m + 1;
      assert c * w + 1 == 2 * (c * m) + c + 1;
      assert c * (m + 1) == c * m + c;
      if c >= 2 {
        assert (c * w + 1) / 2 <= c * m + c - 1 by {
          assert c * w + 1 <= 2 * (c * m + c - 1) + 1;
        }
      }
    }
  }

  /** The film roll as allocated is never wider or higher, plane by plane,
      than the grid of thumbnail planes the offsets assume, and it equals it
      exactly in the luma plane, or when neither side is halved after an odd
      length: one column or an even tile width, and one row or an even tile
      height. */
  lemma AllocatedFilmPlaneVsGrid(n: int, w: nat, h: nat, plane: nat)
    requires 1 <= n && plane < 3
    ensures var film, grid := AllocatedFilmPlane(n, w, h, plane), FilmPlane(n, Yuv420Plane(plane, w, h));
      && film.stride <= grid.stride && film.height <= grid.height
      && (film == grid <==> plane == 0 || ((n == 1 || w % 2 == 0) && (n <= MAX_FILM_WIDTH || h % 2 == 0)))
  {
    RowsValue(n);
    var c, r := Cols(n), Rows(n);
    assert c == 1 <==> n == 1;
    assert r == 1 <==> n <= MAX_FILM_WIDTH;
    if plane > 0 {
      HalfUpOfProduct(c, w);
      HalfUpOfProduct(r, h);
    }
  }

  /** `film_roll` as written: 177-pixel-wide tiles, as a height of 100 on a
      1920 by 1080 stream gives, and ten thumbnails. The film's chroma line
      is 885 bytes but ten thumbnail chroma lines are 890, so the last row
      of tile 9 ends 5 bytes past the chroma plane and its
      `copy_from_slice` panics. */
  lemma OddTileWidthOverruns()
    ensures var film, thumb := AllocatedFilmPlane(10, 177, 100, 1), Yuv420Plane(1, 177, 100);
      var t := TileAt(9, film.stride, thumb.stride, thumb.height);
      && film == Plane(885, 50) && thumb == Plane(89, 50)
      && t.FilmRow(49) + thumb.stride == film.stride * film.height + 5
      && !t.Fits(film.stride * film.height, thumb.stride * thumb.height)
  {
    RowsValue(10);
    var film, thumb := AllocatedFilmPlane(10, 177, 100, 1), Yuv420Plane(1, 177, 100);
    assert film == Plane(885, 50);
    var t := TileAt(9, film.stride, thumb.stride, thumb.height);
    assert t.FilmRow(49) == 885 * 49 + 9 * 89;
  }

  /** Corrected: in a film plane whose line holds `Cols(n)` thumbnail lines
      and which is `Rows(n)` thumbnails high, every thumbnail below the tile
      count fits, whatever the plane's sizes. */
  lemma FilmPlaneHoldsTiles(k: nat, n: int, thumb: Plane)
    requires 1 <= n && k < n
    ensures var film := FilmPlane(n, thumb);
      TileAt(k, film.stride, thumb.stride, thumb.height).Fits(film.stride * film.height, thumb.stride * thumb.height)
  {
    var film := FilmPlane(n, thumb);
    assert film.stride * film.height == film.stride * (Rows(n) * thumb.height);
    TileFits(k, n, film.stride, thumb.stride, thumb.height, film.stride * film.height, thumb.stride * thumb.height);
  }

  /** Thumbnails of one plane geometry, copied into a film plane of the
      corrected size, meet what `CopyThumbs` and `ThumbsCopiedAt` ask of
      them. */
  lemma FilmPlaneCopies(film: seq<byte>, n: int, thumb: Plane, thumbs: seq<Thumb>)
    requires 1 <= n && |thumbs| <= n
    requires |film| == FilmPlane(n, thumb).stride * FilmPlane(n, thumb).height
    requires forall j :: 0 <= j < |thumbs| ==>
      thumbs[j].stride == thumb.stride && |thumbs[j].data| == thumb.stride * thumb.height
    ensures forall j :: 0 <= j < |thumbs| ==>
      TileAt(j, FilmPlane(n, thumb).stride, thumbs[j].stride, thumb.height).Fits(|film|, |thumbs[j].data|)
    ensures Cols(n) * thumb.stride <= FilmPlane(n, thumb).stride
  {
    forall j | 0 <= j < |thumbs|
      ensures TileAt(j, FilmPlane(n, thumb).stride, thumbs[j].stride, thumb.height).Fits(|film|, |thumbs[j].data|)
    {
      FilmPlaneHoldsTiles(j, n, thumb);
    }
  }

  /** One thumbnail's plane: its bytes and line size. */
  datatype Thumb = Thumb(data: seq<byte>, stride: nat)

  /** The film plane after the first `count` thumbnails have been copied,
      thumbnail `k` into tile `k`. */
  function ThumbsCopied(film: seq<byte>, filmStride: nat, frameHeight: nat, thumbs: seq<Thumb>, count: nat): (r: seq<byte>)
    requires count <= |thumbs|
    requires forall k :: 0 <= k < |thumbs| ==>
      TileAt(k, filmStride, thumbs[k].stride, frameHeight).Fits(|film|, |thumbs[k].data|)
    ensures |r| == |film|
  {
    if count == 0 then film
    else
      var prev := ThumbsCopied(film, filmStride, frameHeight, thumbs, count - 1);
      var k := count - 1;
      TileAt(k, filmStride, thumbs[k].stride, frameHeight).Copied(prev, thumbs[k].data, frameHeight)
  }

  /** Once every thumbnail up to `k` has been copied, and whatever comes
      after it: byte `x` of row `y` of thumbnail `k` is at byte `x` of film
      row `y` of tile `k`. Later tiles never overwrite it, because tiles of
      different thumbnails share no byte when all thumbnails have the same
      line size `s` and a film line holds `Cols(n)` of them. */
  lemma {:induction false} ThumbsCopiedAt(film: seq<byte>, filmStride: nat, frameHeight: nat, thumbs: seq<Thumb>,
                                          count: nat, n: int, s: nat, k: nat, y: nat, x: nat)
    requires count <= |thumbs| <= n
    requires forall j :: 0 <= j < |thumbs| ==>
      TileAt(j, filmStride, thumbs[j].stride, frameHeight).Fits(|film|, |thumbs[j].data|)
    requires forall j :: 0 <= j < |thumbs| ==> thumbs[j].stride == s
    requires Cols(n) * s <= filmStride
    requires k < count && y < frameHeight && x < s
    ensures TileAt(k, filmStride, s, frameHeight).FilmRow(y) + x < |film|
    ensures y * s + x < |thumbs[k].data|
    ensures ThumbsCopied(film, filmStride, frameHeight, thumbs, count)[TileAt(k, filmStride, s, frameHeight).FilmRow(y) + x]
         == thumbs[k].data[y * s + x]
  {
    var tk := TileAt(k, filmStride, s, frameHeight);
    assert thumbs[k].stride == s;
    FitsRow(tk, |film|, |thumbs[k].data|, y);
    if k == count - 1 {
      OwnTileCopied(film, filmStride, frameHeight, thumbs, count, n, s, y, x);
    } else {
      ThumbsCopiedAt(film, filmStride, frameHeight, thumbs, count - 1, n, s, k, y, x);
      LaterTileKeeps(film, filmStride, frameHeight, thumbs, count, n, s, k, y, x);
    }
  }

  lemma FitsRow(t: Tile, filmLen: nat, frameLen: nat, y: nat)
    requires t.Fits(filmLen, frameLen) && y < t.frameHeight
    ensures t.FilmRow(y) + t.frameStride <= filmLen && t.FrameRow(y) + t.frameStride <= frameLen
  {
  }

  /** Copying the last of `count` thumbnails puts its row `y` in its tile. */
  lemma OwnTileCopied(film: seq<byte>, filmStride: nat, frameHeight: nat, thumbs: seq<Thumb>,
                      count: nat, n: int, s: nat, y: nat, x: nat)
    requires 0 < count <= |thumbs| <= n
    requires forall j :: 0 <= j < |thumbs| ==>
      TileAt(j, filmStride, thumbs[j].stride, frameHeight).Fits(|film|, |thumbs[j].data|)
    requires thumbs[count - 1].stride == s
    requires Cols(n) * s <= filmStride
    requires y < frameHeight && x < s
    ensures var t := TileAt(count - 1, filmStride, s, frameHeight);
      && t.FilmRow(y) + x < |film| && y * s + x < |thumbs[count - 1].data|
      && ThumbsCopied(film, filmStride, frameHeight, thumbs, count)[t.FilmRow(y) + x]
         == thumbs[count - 1].data[y * s + x]
  {
    var k := count - 1;
    var t := TileAt(k, filmStride, s, frameHeight);
    var prev := ThumbsCopied(film, filmStride, frameHeight, thumbs, k);
    assert ThumbsCopied(film, filmStride, frameHeight, thumbs, count) == t.Copied(prev, thumbs[k].data, frameHeight);
    MulLe(1, Cols(n), s);
    CopiedRow(t, prev, thumbs[k].data, frameHeight, y, x);
  }

  /** Copying the last of `count` thumbnails leaves the tile of an earlier
      thumbnail `k` alone. */
  lemma LaterTileKeeps(film: seq<byte>, filmStride: nat, frameHeight: nat, thumbs: seq<Thumb>,
                       count: nat, n: int, s: nat, k: nat, y: nat, x: nat)
    requires 0 < count <= |thumbs| <= n
    requires forall j :: 0 <= j < |thumbs| ==>
      TileAt(j, filmStride, thumbs[j].stride, frameHeight).Fits(|film|, |thumbs[j].data|)
    requires thumbs[count - 1].stride == s
    requires Cols(n) * s <= filmStride
    requires k < count - 1 && y < frameHeight && x < s
    requires TileAt(k, filmStride, s, frameHeight).FilmRow(y) + x < |film|
    ensures var i := TileAt(k, filmStride, s, frameHeight).FilmRow(y) + x;
      ThumbsCopied(film, filmStride, frameHeight, thumbs, count)[i]
      == ThumbsCopied(film, filmStride, frameHeight, thumbs, count - 1)[i]
  {
    var i := TileAt(k, filmStride, s, frameHeight).FilmRow(y) + x;
    var j := count - 1;
    var tj := TileAt(j, filmStride, s, frameHeight);
    var prev := ThumbsCopied(film, filmStride, frameHeight, thumbs, j);
    assert ThumbsCopied(film, filmStride, frameHeight, thumbs, count) == tj.Copied(prev, thumbs[j].data, frameHeight);
    forall y' | 0 <= y' < frameHeight
      ensures !(tj.FilmRow(y') <= i < tj.FilmRow(y') + s)
    {
      TilesApart(j, k, n, filmStride, s, frameHeight, y', y, x);
    }
    CopiedOutside(tj, prev, thumbs[j].data, frameHeight, i);
  }

  /** Tiles of different thumbnails below the tile count share no byte: a
      byte of row `y` of tile `k` is outside every row of tile `j`. */
  lemma TilesApart(j: nat, k: nat, n: int, filmStride: nat, s: nat, h: nat, y': nat, y: nat, x: nat)
    requires j < n && k < n && Cols(n) * s <= filmStride
    requires y' < h && y < h && x < s
    ensures var i := TileAt(k, filmStride, s, h).FilmRow(y) + x;
      var at := TileAt(j, filmStride, s, h).FilmRow(y');
      j != k ==> !(at <= i < at + s)
  {
    var i := TileAt(k, filmStride, s, h).FilmRow(y) + x;
    var at := TileAt(j, filmStride, s, h).FilmRow(y');
    if at <= i < at + s {
      var d := i - at;
      TileByte(j, n, filmStride, s, h, y', d);
      TileByte(k, n, filmStride, s, h, y, x);
      Unmix(j / MAX_FILM_WIDTH, k / MAX_FILM_WIDTH, y', y, h);
      Unmix(j % MAX_FILM_WIDTH, k % MAX_FILM_WIDTH, d, x, s);
    }
  }

  /** Byte `x` of row `y` of tile `k` is on film line `(k/10)·h + y`, at
      column `(k%10)·s + x`. */
  lemma TileByte(k: nat, n: int, filmStride: nat, s: nat, h: nat, y: nat, x: nat)
    requires k < n && Cols(n) * s <= filmStride && x < s
    ensures var i := TileAt(k, filmStride, s, h).FilmRow(y) + x;
      && i / filmStride == (k / MAX_FILM_WIDTH) * h + y
      && i % filmStride == (k % MAX_FILM_WIDTH) * s + x
  {
    var c := k % MAX_FILM_WIDTH;
    assert c < Cols(n);
    MulLt(c, Cols(n), s);
    LineAndColumn(c * s + x, filmStride, (k / MAX_FILM_WIDTH) * h + y);
  }

  /** `q·f + c` with `c < f` determines `q` and `c`. */
  lemma Unmix(q: nat, q': nat, c: nat, c': nat, f: nat)
    requires c < f && c' < f
    ensures q * f + c == q' * f + c' ==> q == q' && c == c'
  {
    if q * f + c == q' * f + c' {
      LemmaDivMod(q * f + c, f, q, c);
      LemmaDivMod(q * f + c, f, q', c');
    }
  }

  /** The thumbnail loop of `film_roll` for one plane: each thumbnail the
      frame iterator yields, in order, is copied to its tile. */
  method CopyThumbs(film: seq<byte>, filmStride: nat, frameHeight: nat, thumbs: seq<Thumb>) returns (r: seq<byte>)
    requires forall k :: 0 <= k < |thumbs| ==>
      TileAt(k, filmStride, thumbs[k].stride, frameHeight).Fits(|film|, |thumbs[k].data|)
    ensures r == ThumbsCopied(film, filmStride, frameHeight, thumbs, |thumbs|)
  {
    r := film;
    var thumbPos := 0;
    while thumbPos < |thumbs|
      invariant 0 <= thumbPos <= |thumbs|
      invariant r == ThumbsCopied(film, filmStride, frameHeight, thumbs, thumbPos)
    {
      var thumb := thumbs[thumbPos];
      r := CopyTile(r, thumb.data, TileAt(thumbPos, filmStride, thumb.stride, frameHeight));
      thumbPos := thumbPos + 1;
    }
  }

  // ---------------------------------------------------------------------
  // Frames and seek
  // ---------------------------------------------------------------------

  /** The native calls `seek` makes, in order. */
  datatype Action = FlushCodec | SeekFrame(streamIndex: int, timestamp: int, flags: int)

  /** `Video::seek`: flushes the decoder, then seeks the container. */
  function Seek(pos: SeekPosition, duration: int, seekFrame: (int, int, int) -> int)
    : (r: (seq<Action>, Result<(), RumpegError>))
    ensures r.0 == [FlushCodec, SeekFrame(-1, SeekTimestamp(pos, duration), AVSEEK_FLAG_FRAME)]
    ensures r.1.Ok? <==> seekFrame(-1, SeekTimestamp(pos, duration), AVSEEK_FLAG_FRAME) >= 0
    ensures r.1.Err? ==> r.1.error.AVError?
  {
    ([FlushCodec, SeekFrame(-1, SeekTimestamp(pos, duration), AVSEEK_FLAG_FRAME)],
     AvFormat.Seek(pos, duration, seekFrame))
  }

  /** What `frames` hands to the frame iterator once the seek succeeded. */
  datatype FrameRange = FrameRange(start: SeekPosition, end: SeekPosition, step: SeekPosition)

  /** `Video::frames`: seeks to `start` (flush first) and then iterates
      from there; a failed seek is returned as is and no iterator is made. */
  function Frames(start: SeekPosition, end: SeekPosition, step: SeekPosition, duration: int,
                  seekFrame: (int, int, int) -> int): (r: (seq<Action>, Result<FrameRange, VideoError>))
    ensures |r.0| == 2 && r.0[0] == FlushCodec && r.0[1].SeekFrame?
    ensures r.0[1].timestamp == SeekTimestamp(start, duration)
    ensures r.1.Ok? <==> Seek(start, duration, seekFrame).1.Ok?
    ensures r.1.Ok? ==> r.1.value == FrameRange(start, end, step)
    ensures r.1.Err? ==> r.1.error == RumpegFailure(Seek(start, duration, seekFrame).1.error)
  {
    var (actions, sought) := Seek(start, duration, seekFrame);
    match sought
    case Err(e) => (actions, Err(RumpegFailure(e)))
    case Ok(_) => (actions, Ok(FrameRange(start, end, step)))
  }

  /** The flush always comes before the seek, and the seek goes to the
      start position, even when the seek fails. */
  lemma FlushBeforeSeek(start: SeekPosition, end: SeekPosition, step: SeekPosition, duration: int,
                        seekFrame: (int, int, int) -> int)
    ensures var (actions, _) := Frames(start, end, step, duration, seekFrame);
      forall i, j :: 0 <= i < |actions| && 0 <= j < |actions| && actions[i].FlushCodec? && actions[j].SeekFrame? ==> i < j
  {
    var actions := Frames(start, end, step, duration, seekFrame).0;
    assert |actions| == 2 && actions[0].FlushCodec? && !actions[1].FlushCodec? && !actions[0].SeekFrame?;
  }
}

=== FILE: wrappers.dfy ===
/** Failure-carrying datatypes shared by every module: `Option` for Rust's
    `Option<T>` and `Result` for Rust's `Result<T, E>`. */
module Wrappers {

  datatype Option<+T> = None | Some(value: T) {
    predicate IsFailure() { None? }

    function PropagateFailure<U>(): Option<U>
      requires None?
    {
      None
    }

    function Extract(): T
      requires Some?
    {
      value
    }

    /** Rust's `unwrap_or`. */
    function UnwrapOr(default: T): T {
      match this
      case Some(v) => v
      case None => default
    }
  }

  datatype Result<+T, +E> = Ok(value: T) | Err(error: E) {
    predicate IsFailure() { Err? }

    function PropagateFailure<U>(): Result<U, E>
      requires Err?
    {
      Err(error)
    }

    function Extract(): T
      requires Ok?
    {
      value
    }

    /** Rust's `ok()`: forgets the error. */
    function ToOption(): Option<T> {
      match this
      case Ok(v) => Some(v)
      case Err(_) => None
    }
  }
}
